=== FILE: README.md ===
# Knowledge-base ingestion pipeline, modelled in Dafny

This project models the text side of a small retrieval pipeline that turns a folder of
manuals, fault logs, downloaded articles and Word files into a JSON-lines knowledge base of
chunk records, and then indexes those records into a vector store.

- `experiments/scripts/01_data_processing.py`:
  - basic cleaning (`clean_text_basic`), sentence splitting (`split_sentences`), greedy
    sentence packing with a two-sentence overlap (`semantic_chunking`) and the chapter-marker
    heuristic (`extract_title`);
  - the record building of `process_pdf`, `process_excel`, `process_txt` and `process_docx`:
    the per-document section label, the 50-character minimum, chunk ids, anchors, row joining
    and the header parsing of downloaded text files;
  - the extension dispatch of `main`.
- `experiments/scripts/02_download_details.py`: file-name cleaning, the `.txt` suffix of
  `--out`, the default saved name, the site-suffix trimming of `<title>`, `table_to_markdown`
  over already-extracted cell strings, and the header written in front of every saved article.
  That header is proved to be read back by the text-file parser of the first script.
- `experiments/scripts/offline_indexing.py`: record validation in `_load_records` with its
  limit, the distance-name table and creation decision of `_ensure_qdrant_collection`, the batch
  slicing of `_upsert_qdrant`, and the vector selection and dimension check of `main`.

Modules, one per file:

| file | module | models |
|---|---|---|
| outcomes.dfy | Outcomes | `Option` and `Result` |
| text.dfy | Text | `str.strip`, `str.isspace`, ASCII lowering, `join`, splitting, decimal rendering |
| normalizer.dfy | Normalizer | `clean_text_basic` |
| sentences.dfy | Sentences | `split_sentences` |
| chunking.dfy | Chunking | `semantic_chunking` |
| sections.dfy | Sections | `extract_title` and the section label fold of `process_pdf` |
| txt_header.dfy | TxtHeader | the header parsing of `process_txt` |
| records.dfy | Records | records of `process_pdf`, `process_excel`, `process_txt`, `process_docx` |
| dispatch.dfy | Dispatch | the extension dispatch of `main` and the table reader choice |
| download.dfy | Download | the helpers of `02_download_details.py` |
| indexing.dfy | Indexing | the helpers of `offline_indexing.py` |

Strings are `seq<char>`. Character classes the source takes from Unicode tables (`str.isspace`,
`str.isprintable`, `\d`) are predicates in `Text` and `Sections`; `IsSpace` is the exact
whitespace set of `str.isspace`, the other two are approximations (see "Left out"). Readers
(PDF pages, spreadsheet rows, Word paragraphs, raw text), MD5, uuid5, `float()` on strings and
the embedding model are parameters.

## Model

| member | source | states |
|---|---|---|
| Text.Strip | experiments/scripts/01_data_processing.py:45 | `str.strip`: the result has no leading or trailing whitespace and lies inside the input after its leading whitespace |
| Text.StripIsSlice | experiments/scripts/01_data_processing.py:45 | the stripped text is the contiguous slice of the input after its leading whitespace |
| Text.StripRemovesSpaces | experiments/scripts/01_data_processing.py:45 | everything stripped off either end is whitespace |
| Text.StripEmpty | experiments/scripts/01_data_processing.py:241 | a line strips to the empty string exactly when it is all whitespace (the blank-line test) |
| Text.StripStripped | experiments/scripts/01_data_processing.py:45 | stripping an already stripped text changes nothing |
| Text.SplitJoin | experiments/scripts/01_data_processing.py:240 | splitting a `"\n".join` of line-break-free lines at line breaks gives the lines back |
| Text.DecimalRoundTrip | experiments/scripts/01_data_processing.py:162 | the decimal rendering of a number used in chunk ids reads back as that number |
| Text.NatToStringInjective | experiments/scripts/01_data_processing.py:162 | different numbers render differently |
| Text.ConcatAppend | experiments/scripts/01_data_processing.py:369-375 | concatenating the per-file lists of two runs of files gives the lists of the combined run |
| Normalizer.CleanText | experiments/scripts/01_data_processing.py:38-45 | the empty input gives `""`; the result is stripped, printable, has no line feed and no whitespace but the plain space |
| Normalizer.CollapseSpaces | experiments/scripts/01_data_processing.py:42 | `re.sub(r'\s+', ' ', ...)`: empty exactly for empty input, and starts with a space exactly when the input starts with whitespace |
| Normalizer.CollapsePlainSpaces | experiments/scripts/01_data_processing.py:42 | after collapsing, the only whitespace left is the plain space |
| Normalizer.CollapseNoDoubleSpace | experiments/scripts/01_data_processing.py:42 | after collapsing, no two spaces are adjacent |
| Normalizer.CollapseKeepsVisible | experiments/scripts/01_data_processing.py:42 | collapsing keeps every non-whitespace character, in order |
| Normalizer.CollapseKeepsPrintable | experiments/scripts/01_data_processing.py:42-44 | collapsing a printable text leaves it printable |
| Normalizer.CollapseOfCollapsed | experiments/scripts/01_data_processing.py:42 | collapsing is the identity on text with only single plain spaces |
| Normalizer.KeepPrintable | experiments/scripts/01_data_processing.py:44 | the filter leaves only printable characters, keeps printable text unchanged and adds no whitespace |
| Normalizer.KeepPrintableKeepsVisible | experiments/scripts/01_data_processing.py:44 | the filter keeps every printable non-whitespace character, in order |
| Normalizer.CleanKeepsVisible | experiments/scripts/01_data_processing.py:38-45 | cleaning keeps exactly the printable non-whitespace characters of the input, in order |
| Normalizer.CleanNonEmpty | experiments/scripts/01_data_processing.py:38-45 | a text with a printable non-whitespace character cleans to a non-empty text |
| Normalizer.CleanOfPrintable | experiments/scripts/01_data_processing.py:38-45 | cleaning a printable text leaves no double space |
| Normalizer.CleanIdempotentIff | experiments/scripts/01_data_processing.py:38-45 | cleaning twice equals cleaning once exactly when the first result has no double space |
| Normalizer.CleanNotIdempotent | experiments/scripts/01_data_processing.py:42-45 | `"a \x00 b"` cleans to `"a  b"`, which cleans again to `"a b"`: the cleaner is not idempotent |
| Sentences.SplitSentences | experiments/scripts/01_data_processing.py:47-68 | every sentence is non-empty, stripped and free of line feeds, and 。！？ can only be its last character |
| Sentences.PiecesConcat | experiments/scripts/01_data_processing.py:58-66 | the pieces before stripping concatenate back to the input |
| Sentences.PiecesShape | experiments/scripts/01_data_processing.py:58-66 | each piece before stripping is non-empty, is cut only at its end, and every piece but the last ends at a boundary character |
| Sentences.SplitSpaceFreeConcat | experiments/scripts/01_data_processing.py:47-68 | for whitespace-free input the sentences concatenate back to the input |
| Sentences.SplitWithoutLineFeeds | experiments/scripts/01_data_processing.py:53-63 | in text without line feeds every sentence but the last ends with 。！？ |
| Sentences.CleanedTextSplitsAtPunctuation | experiments/scripts/01_data_processing.py:151-154 | cleaned text has no line feed, so the `\n` boundary never fires at the call sites: only 。！？ cut sentences |
| Sentences.SplitDropsSpaceAfterPunct | experiments/scripts/01_data_processing.py:62-68 | `"a。 b"` splits into `"a。"` and `"b"`, so in general the sentences do not concatenate back to the input |
| Sentences.SplitExample | experiments/scripts/01_data_processing.py:47-68 | a character, 。, a space and a character split into two sentences, the space dropped |
| Sentences.StripNonEmptyOfStripped | experiments/scripts/01_data_processing.py:62-68 | the strip-and-drop-empty step keeps a list of non-empty stripped sentences unchanged |
| Chunking.ChunksAreSentenceRuns | experiments/scripts/01_data_processing.py:80-103 | every chunk is the concatenation of a contiguous run of the sentences |
| Chunking.ChunkSpansShape | experiments/scripts/01_data_processing.py:80-103 | the runs are non-empty, lie within the sentences, start at the first sentence and the last run ends at the last sentence |
| Chunking.PackSpansChain | experiments/scripts/01_data_processing.py:84-97 | each run after the first starts with the last min(overlap, k) sentences of the previous k-sentence run, or with the whole previous run when the overlap is 0 (`[-0:]`), and then continues past its end |
| Chunking.PackSpansGreedy | experiments/scripts/01_data_processing.py:84-97 | a run is closed only when adding the next sentence would exceed the size, and no sentence inside a run made it exceed the size |
| Chunking.ChunkSpansGreedy | experiments/scripts/01_data_processing.py:80-103 | the greedy closing rule above, for the whole chunking |
| Chunking.ChunkOverlap | experiments/scripts/01_data_processing.py:89-92 | each chunk after the first begins with the overlap sentences of the previous chunk |
| Chunking.ZeroOverlapChunksGrow | experiments/scripts/01_data_processing.py:91 | with an overlap of 0, `current_chunk[-0:]` re-seeds with the whole chunk, so each chunk is a prefix of the next |
| Chunking.OverlapExample | experiments/scripts/01_data_processing.py:80-103 | three 6-character sentences with size 10 and overlap 1 give `s1`, `s1s2`, `s2s3` |
| Chunking.ChunkCount | experiments/scripts/01_data_processing.py:80-103 | no sentences give no chunks; n ≥ 1 sentences give between 1 and n chunks |
| Chunking.ChunksNonEmpty | experiments/scripts/01_data_processing.py:80-103 | chunks of non-empty sentences are non-empty |
| Chunking.SemanticChunkingShape | experiments/scripts/01_data_processing.py:70-103 | over the sentences of a text: between 1 and n non-empty chunks, none for a text without sentences |
| Chunking.SeedIsSuffix | experiments/scripts/01_data_processing.py:91-93 | the overlap seed of a run is its last min(overlap, length) sentences, or the whole run when the overlap is 0 (`[-0:]`) |
| Sections.NumeralRun | experiments/scripts/01_data_processing.py:112 | the longest prefix of Chinese numerals |
| Sections.NumberingRun | experiments/scripts/01_data_processing.py:112 | the longest prefix of digits and dots |
| Sections.ExtractTitle | experiments/scripts/01_data_processing.py:105-115 | the result is empty or a chapter marker `第…章` or a digit-and-dot run that starts the text within its first 50 characters |
| Sections.ExtractTitleComplete | experiments/scripts/01_data_processing.py:105-115 | whenever the text starts with such a marker, that marker is the result |
| Sections.ChapterExample | experiments/scripts/01_data_processing.py:108-114 | `"第一章 总则"` gives only `"第一章"` |
| Sections.NumberedExample | experiments/scripts/01_data_processing.py:108-114 | `"1.1 安全须知"` gives `"1.1"` |
| Sections.SectionLabels | experiments/scripts/01_data_processing.py:119-148 | one section label per page |
| Sections.SectionLabelIsLatestTitle | experiments/scripts/01_data_processing.py:119-148 | the label of a page is the latest non-empty title up to and including it, or `"未知章节"` |
| Sections.SectionLabelsAreMarkers | experiments/scripts/01_data_processing.py:119-148 | every label is `"未知章节"` or the title of some earlier or same page |
| Sections.SectionPersists | experiments/scripts/01_data_processing.py:146-148 | a page without a title keeps the previous page's label |
| Sections.SectionStarts | experiments/scripts/01_data_processing.py:146-148 | a page with a title takes it as label |
| Sections.CarryIsLatest | experiments/scripts/01_data_processing.py:142-148 | the left-to-right fold equals the "latest title so far" definition |
| Records.Anchor | experiments/scripts/01_data_processing.py:166-167 | a prefix of the chunk: up to and including its first 。！？, or its first 30 characters when it has none |
| Records.PdfChunkIdInjective | experiments/scripts/01_data_processing.py:162 | `doc_id_page_idx` ids of equal-length doc ids are equal exactly when doc id, page and index are |
| Records.TaggedIdInjective | experiments/scripts/01_data_processing.py:279 | ids such as `doc_id_txt_n` (and `doc_id_row_n`, `doc_id_docx_n` at lines 211 and 323) of equal-length doc ids are equal exactly when doc id and number are |
| Records.DigitsSplit | experiments/scripts/01_data_processing.py:162 | the page and index parts of an id are recovered by splitting at the underscore |
| Records.KeptIndices | experiments/scripts/01_data_processing.py:156-158 | exactly the indices of chunks with at least 50 characters, ascending |
| Records.ChunksOfBlank | experiments/scripts/01_data_processing.py:151-154 | a page that cleans to nothing has no chunks |
| Records.PageChunksAreChunks | experiments/scripts/01_data_processing.py:151-154 | each page is cleaned and chunked on its own |
| Records.PdfPiecesInOrder | experiments/scripts/01_data_processing.py:156-181 | PDF records are in page order and, within a page, in chunk order |
| Records.PdfPiecesComplete | experiments/scripts/01_data_processing.py:156-181 | every chunk of at least 50 characters becomes a record |
| Records.ProcessPdfRecord | experiments/scripts/01_data_processing.py:156-181 | each PDF record is a chunk of at least 50 characters of its page, with that page's section label, its length as `chunk_len`, its anchor and the id of its page and index |
| Records.ProcessPdfIdsDistinct | experiments/scripts/01_data_processing.py:162 | no two records of one PDF share a chunk id |
| Records.ProcessPdfKeepsLongChunks | experiments/scripts/01_data_processing.py:156-162 | a chunk of at least 50 characters is in the output under the id of its page and index |
| Records.BodyRecordsSound | experiments/scripts/01_data_processing.py:275-297 | each text or Word record is a chunk of at least 50 characters, numbered by its index plus one, with its length and anchor |
| Records.BodyRecordsComplete | experiments/scripts/01_data_processing.py:275-297 | every chunk of at least 50 characters becomes a record |
| Records.BodyRecordsOrdered | experiments/scripts/01_data_processing.py:275-297 | records follow the chunk order and have distinct ids |
| Records.ProcessTxtFields | experiments/scripts/01_data_processing.py:283-297 | a text record carries the parsed title, its first 50 characters as section label and the parsed URL |
| Records.ProcessTxtChunk | experiments/scripts/01_data_processing.py:274-281 | a text record's content is a long chunk of the body under the id `doc_id_txt_idx` |
| Records.KeepNonBlank | experiments/scripts/01_data_processing.py:313 | every kept paragraph is a non-blank paragraph of the input, and every non-blank paragraph is kept |
| Records.KeepNonBlankAppend | experiments/scripts/01_data_processing.py:313 | the paragraphs kept from `a + b` are those kept from `a` followed by those kept from `b`, so the comprehension keeps document order and repeats |
| Records.ProcessDocxFields | experiments/scripts/01_data_processing.py:327-340 | a Word record carries the file name as title and source and the fixed section label |
| Records.ProcessDocxChunk | experiments/scripts/01_data_processing.py:318-325 | a Word record's content is a long chunk of the joined paragraphs under the id `doc_id_docx_idx` |
| Records.RowPartsEmptyIff | experiments/scripts/01_data_processing.py:201-204 | a row has no `col:val` parts exactly when all its cells are blank |
| Records.FirstCellPart | experiments/scripts/01_data_processing.py:202-204 | the first part comes from a non-blank cell |
| Records.RowSkippedIff | experiments/scripts/01_data_processing.py:201-209 | a row is skipped exactly when all its cells are blank |
| Records.TableRecordsSound | experiments/scripts/01_data_processing.py:198-224 | each table record is a non-empty cleaned row, numbered by its index plus one, with id `doc_id_row_n` and the first 30 characters as anchor |
| Records.TableRecordsComplete | experiments/scripts/01_data_processing.py:198-224 | every row with non-empty content becomes a record, with no minimum length |
| Records.ProcessTableRecord | experiments/scripts/01_data_processing.py:198-224 | each record of a table is the cleaned content of its row, with the table's fixed section label |
| Records.ProcessTableKeepsRow | experiments/scripts/01_data_processing.py:201-213 | a row with a non-blank cell is always in the output |
| Records.TableIdsDistinct | experiments/scripts/01_data_processing.py:211 | no two records of one table share a chunk id |
| TxtHeader.NonBlankLines | experiments/scripts/01_data_processing.py:240-241 | the non-blank lines, stripped, contain no line break |
| TxtHeader.LinesOfJoin | experiments/scripts/01_data_processing.py:240-241 | joining stripped non-blank lines with `\n` and reading them back gives the same lines |
| TxtHeader.ParseTitle | experiments/scripts/01_data_processing.py:243-250 | `"未知标题"` without lines; otherwise the first line, or the stripped text after a case-insensitive `title:` when it is non-empty |
| TxtHeader.ParseTitleNonEmpty | experiments/scripts/01_data_processing.py:243-250 | the parsed title is never empty |
| TxtHeader.ParseTitlePrefixed | experiments/scripts/01_data_processing.py:249-250 | `Title:  x` gives `x` |
| TxtHeader.ParseTitlePlain | experiments/scripts/01_data_processing.py:248 | a first line without the prefix is the title |
| TxtHeader.UrlLineIndex | experiments/scripts/01_data_processing.py:253-256 | the position of the first `url:` line |
| TxtHeader.SourceUrlAbsent | experiments/scripts/01_data_processing.py:243-256 | no `url:` line among the first 12 lines gives the empty URL |
| TxtHeader.SourceUrlFirst | experiments/scripts/01_data_processing.py:253-256 | the first `url:` line among the first 12 gives the URL, stripped after its colon |
| TxtHeader.KeepBody | experiments/scripts/01_data_processing.py:260-267 | every kept line is neither all `=` nor a `url:` line and comes from the input, and every such input line is kept |
| TxtHeader.KeepBodyAppend | experiments/scripts/01_data_processing.py:260-267 | the lines kept from `a + b` are those kept from `a` followed by those kept from `b`, so the loop keeps the body lines in file order, repeats included |
| TxtHeader.BodyLines | experiments/scripts/01_data_processing.py:259-267 | line 0 is dropped, and then exactly the body lines are kept |
| TxtHeader.BodyTextFallback | experiments/scripts/01_data_processing.py:269 | with no body line the raw text is the body |
| TxtHeader.BodyTextLines | experiments/scripts/01_data_processing.py:269 | otherwise the body reads back as exactly the body lines |
| Dispatch.HandlerOfKnown | experiments/scripts/01_data_processing.py:368-375 | exactly pdf, xlsx, xls, csv, txt and docx have a handler |
| Dispatch.AfterLastDotOf | experiments/scripts/01_data_processing.py:366 | `split('.')[-1]` is the text after the last dot |
| Dispatch.AfterLastDotNone | experiments/scripts/01_data_processing.py:366 | a name without a dot is its own extension |
| Dispatch.ExtensionOf | experiments/scripts/01_data_processing.py:366 | the extension of `stem.ext` is the lowered `ext` |
| Dispatch.RouteByExtension | experiments/scripts/01_data_processing.py:356-375 | a visible file is routed by its lowered last extension |
| Dispatch.RouteWithoutDot | experiments/scripts/01_data_processing.py:366-375 | a name without a dot is routed by the whole lowered name |
| Dispatch.RouteUpperCase | experiments/scripts/01_data_processing.py:366-369 | `manual.PDF` is a PDF |
| Dispatch.RouteLastDot | experiments/scripts/01_data_processing.py:366-371 | `log.2023.csv` is a table |
| Dispatch.RouteCsvFile | experiments/scripts/01_data_processing.py:366-371 | a visible file whose last extension is any spelling of `csv` goes to the table handler |
| Dispatch.RouteHidden | experiments/scripts/01_data_processing.py:356-357 | a name starting with a dot is skipped whatever its extension, `.~lock.docx` among them |
| Dispatch.RouteBareName | experiments/scripts/01_data_processing.py:366-369 | a file named `pdf` is routed to the PDF reader |
| Dispatch.ReaderMismatch | experiments/scripts/01_data_processing.py:192-195 | `DATA.CSV` is routed to the table handler by the lowered extension of line 366, but the code as written reads it with the Excel reader |
| Dispatch.UpperCsvRecordsLost | experiments/scripts/01_data_processing.py:188-227 | a file `stem.ext` whose extension lowers to `csv` but is not spelled `csv` is routed to the table handler, yet the reader chosen as written is the Excel reader; if that read raises, the caught exception leaves no records, though the corrected choice picks the CSV reader |
| Dispatch.ReaderOfUpperCsv | experiments/scripts/01_data_processing.py:192-195 | the case-sensitive `.csv` test picks the Excel reader for `DATA.CSV` |
| Dispatch.ReaderMatchesExtension | experiments/scripts/01_data_processing.py:192-195 | the corrected reader choice picks the CSV reader exactly when the routing extension is `csv` |
| Dispatch.ProcessFileIgnored | experiments/scripts/01_data_processing.py:356-375 | hidden files and unknown extensions give no records |
| Dispatch.ProcessFileRecord | experiments/scripts/01_data_processing.py:364-375 | every record of a file has its relative path as source and the file type of its handler |
| Dispatch.ProcessAllAppend | experiments/scripts/01_data_processing.py:350-375 | the records of two runs of files are the records of each, in order |
| Dispatch.ProcessAllComplete | experiments/scripts/01_data_processing.py:350-375 | every record of every file is collected |
| Dispatch.ProcessAllSound | experiments/scripts/01_data_processing.py:350-375 | every collected record comes from one of the files |
| Download.RemoveForbidden | experiments/scripts/02_download_details.py:46 | none of `\ / * ? : " < > \|` is left, and the result is no longer |
| Download.RemoveForbiddenKeeps | experiments/scripts/02_download_details.py:46 | a name without forbidden characters is unchanged |
| Download.RemoveForbiddenFrom | experiments/scripts/02_download_details.py:46 | every remaining character comes from the input |
| Download.CleanFilename | experiments/scripts/02_download_details.py:45-47 | never empty, stripped, and free of the forbidden characters |
| Download.CleanFilenameIdempotent | experiments/scripts/02_download_details.py:45-47 | cleaning a cleaned name changes nothing |
| Download.CleanFilenameKeeps | experiments/scripts/02_download_details.py:45-47 | a non-empty stripped name without forbidden characters is kept |
| Download.CleanFilenameUntitled | experiments/scripts/02_download_details.py:45-47 | a name of only forbidden characters and whitespace becomes `untitled` |
| Download.OutFileName | experiments/scripts/02_download_details.py:232-235 | the result extends the given name and ends in `.txt` in any case; it is the name itself exactly when that already ends so |
| Download.OutFileNameIdempotent | experiments/scripts/02_download_details.py:232-235 | naming twice equals naming once |
| Download.SavedFileName | experiments/scripts/02_download_details.py:266-269 | the default name (also built at lines 237-239) starts with the cleaned title and ends in `.txt`; `Download.SavedFileNameInjective` states what the `_` and digest add |
| Download.SavedFileNameInjective | experiments/scripts/02_download_details.py:266-269 | two default names are equal exactly when the cleaned titles and the first eight digest characters are, so the digest keeps same-titled articles in separate files, the purpose stated at line 41 |
| Download.SavedFileNameClean | experiments/scripts/02_download_details.py:266-269 | with a hexadecimal digest the default name has no forbidden character |
| Download.Find | experiments/scripts/02_download_details.py:69-70 | a found position leaves room for the separator |
| Download.FindSpec | experiments/scripts/02_download_details.py:69-70 | the separator occurs at the found position and at no earlier one; no position when it does not occur |
| Download.CutHasNone | experiments/scripts/02_download_details.py:70 | the stripped text before the first occurrence does not contain the separator |
| Download.TrimSiteSuffixBar | experiments/scripts/02_download_details.py:68-71 | with ` \| ` the title is the stripped text before its first occurrence, free of ` \| ` |
| Download.TrimSiteSuffixDash | experiments/scripts/02_download_details.py:68-71 | without ` \| ` but with ` - `, the title is the stripped text before the first ` - ` |
| Download.TrimSiteSuffixNone | experiments/scripts/02_download_details.py:68-72 | without either separator the title is unchanged |
| Download.KeptRows | experiments/scripts/02_download_details.py:80-84 | only input rows with a non-empty cell are kept, never more rows than the table has |
| Download.KeptRowsAppend | experiments/scripts/02_download_details.py:80-84 | the rows kept from `a + b` are those kept from `a` followed by those kept from `b`, so the loop keeps table order, repeats included |
| Download.KeptRowsComplete | experiments/scripts/02_download_details.py:83-84 | every row with a non-empty cell is kept |
| Download.MaxCols | experiments/scripts/02_download_details.py:90 | the widest row's width: no row is wider and some row has it |
| Download.Pad | experiments/scripts/02_download_details.py:91 | a row padded with empty cells to the given width |
| Download.CellText | experiments/scripts/02_download_details.py:98 | each line feed in a cell becomes a space and nothing else changes |
| Download.FormatRowOneLine | experiments/scripts/02_download_details.py:97-98 | a formatted row is a single line |
| Download.FormatRowEnds | experiments/scripts/02_download_details.py:98 | a formatted row begins `"\| "` and ends `" \|"` |
| Download.TableEmptyIff | experiments/scripts/02_download_details.py:79-87 | the result is `""` exactly when no row has a non-empty cell |
| Download.MarkdownRows | experiments/scripts/02_download_details.py:89-101 | kept rows plus one lines: the padded header, a rule of `max_cols` `---` cells, then the padded body rows |
| Download.TableLines | experiments/scripts/02_download_details.py:100-102 | splitting the output at line feeds gives back exactly those lines |
| Download.RowOfLine | experiments/scripts/02_download_details.py:97-101 | every output line is a formatted row |
| Download.RuleLine | experiments/scripts/02_download_details.py:288 | the separator line is twenty `=` |
| Download.SavedPieces | experiments/scripts/02_download_details.py:288-290 | the saved file splits into the title, the rule, an empty line, the URL line, an empty line and the article's lines |
| Download.SavedLines | experiments/scripts/02_download_details.py:288-290 | the non-blank lines of a saved file are the title (when non-empty), the rule, the URL line and the article's non-blank lines |
| Download.UrlLineValue | experiments/scripts/02_download_details.py:289 | the URL line is a `url:` line whose value is the URL |
| Download.RuleNotUrl | experiments/scripts/02_download_details.py:288 | the rule is neither a `url:` nor a `title:` line |
| Download.SavedHeaderRoundTrip | experiments/scripts/02_download_details.py:288-290 | the header parser of the text reader gives back the saved title and URL, and the article's body lines as body |
| Download.HeaderOfLines | experiments/scripts/01_data_processing.py:246-267 | lines of the saved layout parse to their title, URL and body |
| Download.SavedEmptyTitle | experiments/scripts/02_download_details.py:284-290 | an empty final title makes the rule line the parsed title; the URL is still read |
| Indexing.Floats | experiments/scripts/offline_indexing.py:127 | `[float(x) for x in ...]` succeeds exactly when every element converts, one number per element |
| Indexing.ReadRecordFieldsFirst | experiments/scripts/offline_indexing.py:109-114 | with or without a vector field, a non-object is rejected as such, then a missing, empty or non-string `chunk_id`, then `content`, each with its own error before any vector check; an accepted record holds both strings |
| Indexing.ReadRecordPlain | experiments/scripts/offline_indexing.py:109-130 | without a vector field an object is accepted exactly when `chunk_id` and `content` are non-empty strings; the record keeps both and the whole object as payload |
| Indexing.ReadRecordVector | experiments/scripts/offline_indexing.py:116-127 | a missing vector is an error, so is a non-list or a list whose first element is not a number; an accepted record carries the converted vector |
| Indexing.ReadRecordLaterStrings | experiments/scripts/offline_indexing.py:123-127 | only the first element's type is checked: a later string is accepted exactly when `float()` parses it |
| Indexing.ReadAll | experiments/scripts/offline_indexing.py:108-130 | the first n objects read in order, one record each |
| Indexing.LoadFromShape | experiments/scripts/offline_indexing.py:108-133 | the loop returns the records read from a prefix of the objects, stopping early only at the limit |
| Indexing.LoadRecordsPrefix | experiments/scripts/offline_indexing.py:102-133 | the records are those of a prefix of the input; fewer than all only when the limit was reached; at most L for a limit L ≥ 1 |
| Indexing.LoadStopsAtLimit | experiments/scripts/offline_indexing.py:131-132 | with limit n and n good objects first, exactly those n records are loaded |
| Indexing.LoadAll | experiments/scripts/offline_indexing.py:102-133 | without a limit every object is loaded when all are valid |
| Indexing.LoadLimitAtMostOne | experiments/scripts/offline_indexing.py:131-132 | the limit is checked after appending, so a limit of 0 or 1 still loads the first record |
| Indexing.LoadRejects | experiments/scripts/offline_indexing.py:111-126 | the first invalid object before the limit fails the whole load with its own error |
| Indexing.LoadedVectors | experiments/scripts/offline_indexing.py:116-127 | with a vector field every loaded record has a vector |
| Indexing.ParseDistanceIff | experiments/scripts/offline_indexing.py:171-177 | a name maps to a distance exactly when, lowered, it is that distance's name |
| Indexing.ParseDistanceName | experiments/scripts/offline_indexing.py:171-175 | every distance's own name maps back to it |
| Indexing.EnsureCollectionChecks | experiments/scripts/offline_indexing.py:162-183 | an existing collection is kept without checking the name unless recreated; otherwise a bad name is an error, after the deletion when recreating |
| Indexing.CheckDimensions | experiments/scripts/offline_indexing.py:306-308 | succeeds exactly when all vectors have the first vector's length, and returns that length |
| Indexing.BatchesConcat | experiments/scripts/offline_indexing.py:198-201 | the batches concatenate back to the points, in order |
| Indexing.BatchesCount | experiments/scripts/offline_indexing.py:198-199 | the number of batches is the length divided by the batch size, rounded up |
| Indexing.BatchAt | experiments/scripts/offline_indexing.py:198-201 | batch k is the slice from k·size to min((k+1)·size, total) |
| Indexing.Points | experiments/scripts/offline_indexing.py:201-208 | one point per record |
| Indexing.UpsertSendsAll | experiments/scripts/offline_indexing.py:193-209 | a length mismatch or a zero batch size is an error; a positive size sends every point once, in order, in non-empty batches of at most that size; a negative size sends nothing |
| Indexing.LoadedVectorsOf | experiments/scripts/offline_indexing.py:297-301 | with a vector field the indexed vectors are the records' own vectors, one per record |

## Left out

- Text.IsPrintable: approximates `str.isprintable` by the control characters, the non-ASCII
  space separators, the common format characters and private use; unassigned code points
  count as printable.
- Sections.IsDigit: approximates `\d` by the ASCII, Arabic-Indic, extended Arabic-Indic,
  Devanagari, Bengali and full-width digits, not the whole Unicode decimal-digit category.
- Text.Lower: lowers ASCII letters only. Every lowered comparison in the source (`title:`, `url:`, `.txt`, extensions, distance names) is against ASCII text. The `.csv` reader test is case-sensitive in the source; only the corrected `Dispatch.Reader` lowers it. No non-ASCII character lowers to one of the ASCII letters involved, so the comparisons come out the same.
- `splitlines` is modelled as a split at every line-break character. The two differ:
  `\r\n` is one break for `splitlines` and two for the model (`"a\r\nb"` gives
  `"a"`, `""`, `"b"`), a trailing break adds a final `""` in the model, and empty text gives
  `[""]` rather than `[]`. Every extra piece is empty, and the blank-line filter of
  `TxtHeader.NonBlankLines` drops it, so the non-blank lines agree.
- Reading PDFs, spreadsheets, Word files and text files is not modelled. The readers' output
  (page texts, cell rows, paragraphs, raw text) is a parameter, and so is whether a reader
  fails on a file (`None` rows, `available` for the Word library). An exception raised in the
  middle of a file, after some records were appended, is not modelled.
- The PDF page crop (floating-point geometry with the 0.05 and 0.08 ratios) is left out: each
  page is its cropped text.
- MD5 (`doc_id`, URL hash) and the uuid5 point id are opaque parameters (`docId`,
  `urlDigest`, `stableId`).
- Walking the directory (`os.walk`, `os.path.isdir`), writing the JSON-lines file and all
  printing are left out; the files are a sequence in visiting order.
- The HTTP fetching, retries, sleeps and HTML parsing of `02_download_details.py` are left out.
  So is the choice of candidate title in `extract_article_title` (h1, h2, og:title): only its
  `<title>` suffix trimming is modelled. `table_to_markdown` is modelled over the cell strings
  `get_text` returns.
- The download loop's decision to save only articles with more than 20 characters, and the
  existence check before downloading, are file-system plumbing and are left out.
- JSON parsing of the input lines is left out: objects are already a small `Value` datatype,
  and Python's `float()` on a string is a parameter. Numbers are `real`, so `float(int)`
  rounding and float formatting are not modelled.
- The embedding model, the Qdrant and Elasticsearch clients and whether a collection exists
  are parameters or left out. `_ensure_qdrant_collection` returns what it would do.
- Indexing.CheckDimensions: requires a non-empty vector list, because `main` returns before
  the check when no record was loaded.
- The crawler `experiments/scripts/reptile.py` and the connection and search tests are not part of this model.

## Findings

| source | as written | input that shows it | evidently intended | confidence | as-written member | corrected member |
|---|---|---|---|---|---|---|
| experiments/scripts/01_data_processing.py:192-195 | the CSV reader is chosen by a case-sensitive `file_name.endswith('.csv')`, while routing at :366 lowers the extension | a file `DATA.CSV` is routed to the table handler and then read with the Excel reader | read a file with the CSV reader exactly when its routing extension is `csv` | not executed | Dispatch.ReaderMismatch | Dispatch.ReaderMatchesExtension |

`Dispatch.ProcessFile` keeps the reader choice as written (`Dispatch.ReaderAsWritten`).
`Dispatch.UpperCsvRecordsLost` shows the effect: when the Excel reader fails on a file such as `DATA.CSV`, that file adds no records.
The corrected choice is `Dispatch.Reader`. `Dispatch.ReaderMatchesExtension` is proved about it.

Two behaviours are modelled as the code has them although the surrounding comments suggest
otherwise:

- `extract_title` returns only the marker (`"第一章"`), not the whole heading the comment at
  experiments/scripts/01_data_processing.py:108 shows (`Sections.ChapterExample`).
- `split_sentences` does not reproduce its input when a space follows punctuation
  (`Sentences.SplitDropsSpaceAfterPunct`).

When a downloaded article's final title is empty, the saved file's first non-blank line is
the `=` rule, so the reader takes that rule as the title (`Download.SavedEmptyTitle`).

=== FILE: chunking.dfy ===
/** Sentence packing, `semantic_chunking` in experiments/scripts/01_data_processing.py.
    Sentences are added to a window while the window's length plus the next sentence
    stays within the soft size (or the window is empty); otherwise the window is emitted
    as one chunk and the next window starts with its last few sentences. `Pack` follows
    the loop; `PackSpans` is the same loop on sentence positions, and the lemmas below
    connect the two and describe the windows. */
module Chunking {
  import opened Text
  import opened Normalizer
  import opened Sentences

  /** Default soft chunk size, in characters. */
  const CHUNK_SIZE: int := 500

  /** Number of trailing sentences carried into the next chunk. */
  const OVERLAP_SENTENCES: nat := 2

  /** `sum(len(s) for s in ss)` */
  function TotalLen(ss: seq<string>): nat {
    if ss == [] then 0 else |ss[0]| + TotalLen(ss[1..])
  }

  /** `cur[-k:] if len(cur) >= k else cur`. Python reads `cur[-0:]` as `cur[0:]`, so
      an overlap of 0 keeps the whole window. */
  function Seed(cur: seq<string>, k: nat): seq<string> {
    if |cur| >= k then (if k == 0 then cur else cur[|cur| - k..]) else cur
  }

  /** How many sentences of an `n`-sentence window the seed keeps. */
  function SeedCount(n: nat, k: nat): (m: nat)
    ensures m <= n
  {
    if k == 0 || n < k then n else k
  }

  /** The seed of a window of consecutive sentences is its last `SeedCount` sentences. */
  lemma SeedIsSuffix(sents: seq<string>, lo: nat, hi: nat, k: nat)
    requires lo <= hi <= |sents|
    ensures Seed(sents[lo..hi], k) == sents[hi - SeedCount(hi - lo, k)..hi]
  {
  }

  /** The loop of `semantic_chunking` over `sents`, with `cur` the open window. */
  function Pack(sents: seq<string>, cur: seq<string>, size: int, k: nat): seq<string>
    decreases |sents|
  {
    if sents == [] then (if cur != [] then [Concat(cur)] else [])
    else
      var len := TotalLen(cur);
      if len + |sents[0]| > size && len > 0 then
        [Concat(cur)] + Pack(sents[1..], Seed(cur, k) + [sents[0]], size, k)
      else Pack(sents[1..], cur + [sents[0]], size, k)
  }

  /** Packs a sentence list, starting from an empty window. */
  function ChunkSentences(sents: seq<string>, size: int, k: nat): seq<string> {
    Pack(sents, [], size, k)
  }

  /** `semantic_chunking(text, chunk_size)`: split, then pack with the fixed overlap. */
  function SemanticChunking(text: string, size: int): seq<string> {
    ChunkSentences(SplitSentences(text), size, OVERLAP_SENTENCES)
  }

  /** The window `[lo, hi)` of sentence positions. */
  datatype Span = Span(lo: nat, hi: nat)

  /** Adding sentence `j` to the window `[lo, j)` takes it past `size` while the window
      already holds text: the condition on which the loop emits a chunk. */
  predicate Overflows(sents: seq<string>, lo: nat, j: nat, size: int) {
    lo <= j < |sents| && TotalLen(sents[lo..j]) + |sents[j]| > size && TotalLen(sents[lo..j]) > 0
  }

  /** Sentences `from` up to (not including) `to` each join the window that starts at `lo`. */
  predicate NoOverflowBetween(sents: seq<string>, lo: nat, from: nat, to: nat, size: int) {
    forall j :: from <= j < to ==> !Overflows(sents, lo, j, size)
  }

  predicate SpansWithin(spans: seq<Span>, lo: nat, n: nat) {
    forall t :: 0 <= t < |spans| ==> lo <= spans[t].lo < spans[t].hi <= n
  }

  /** The packing loop on positions: the open window is `[lo, pos)`. */
  function PackSpans(sents: seq<string>, lo: nat, pos: nat, size: int, k: nat): seq<Span>
    requires lo <= pos <= |sents|
    decreases |sents| - pos
  {
    if pos == |sents| then (if lo < pos then [Span(lo, pos)] else [])
    else if Overflows(sents, lo, pos, size) then
      [Span(lo, pos)] + PackSpans(sents, pos - SeedCount(pos - lo, k), pos + 1, size, k)
    else PackSpans(sents, lo, pos + 1, size, k)
  }

  /** The windows `semantic_chunking` emits, as sentence positions. */
  function ChunkSpans(sents: seq<string>, size: int, k: nat): seq<Span> {
    PackSpans(sents, 0, 0, size, k)
  }

  /** The sentences a window covers. */
  function SpanSents(sents: seq<string>, sp: Span): seq<string> {
    if sp.lo <= sp.hi <= |sents| then sents[sp.lo..sp.hi] else []
  }

  /** The text of a window: its sentences concatenated. */
  function SpanText(sents: seq<string>, sp: Span): string {
    Concat(SpanSents(sents, sp))
  }

  function SpanTexts(sents: seq<string>, spans: seq<Span>): seq<string> {
    seq(|spans|, t requires 0 <= t < |spans| => SpanText(sents, spans[t]))
  }

  /** Windows lie inside the sentence list and are non-empty; the first starts at the
      open window, the last ends at the last sentence, and there are none only when
      nothing is open or left; there are at most as many windows as sentences still to
      place, plus one for a non-empty open window. */
  lemma PackSpansShape(sents: seq<string>, lo: nat, pos: nat, size: int, k: nat)
    requires lo <= pos <= |sents|
    ensures var r := PackSpans(sents, lo, pos, size, k);
      && SpansWithin(r, lo, |sents|)
      && (r == [] <==> lo == pos == |sents|)
      && (r != [] ==> r[0].lo == lo && pos <= r[0].hi && r[|r| - 1].hi == |sents|)
      && |r| <= |sents| - pos + (if lo < pos then 1 else 0)
  {
    PackSpansWithin(sents, lo, pos, size, k);
    PackSpansEnds(sents, lo, pos, size, k);
    PackSpansCount(sents, lo, pos, size, k);
  }

  /** With a window open, the first window emitted is the open one, grown. */
  lemma PackSpansFirst(sents: seq<string>, lo: nat, pos: nat, size: int, k: nat)
    requires lo < pos <= |sents|
    ensures PackSpans(sents, lo, pos, size, k) != []
    ensures PackSpans(sents, lo, pos, size, k)[0].lo == lo && pos <= PackSpans(sents, lo, pos, size, k)[0].hi
  {
    PackSpansEnds(sents, lo, pos, size, k);
  }

  /** An overflowing sentence closes the open window and opens the next at its seed. */
  lemma PackSpansEmit(sents: seq<string>, lo: nat, pos: nat, size: int, k: nat)
    requires lo <= pos < |sents| && Overflows(sents, lo, pos, size)
    ensures PackSpans(sents, lo, pos, size, k)
      == [Span(lo, pos)] + PackSpans(sents, pos - SeedCount(pos - lo, k), pos + 1, size, k)
  {
  }

  /** A sentence that fits joins the open window. */
  lemma PackSpansTake(sents: seq<string>, lo: nat, pos: nat, size: int, k: nat)
    requires lo <= pos < |sents| && !Overflows(sents, lo, pos, size)
    ensures PackSpans(sents, lo, pos, size, k) == PackSpans(sents, lo, pos + 1, size, k)
  {
  }

  lemma {:induction false} PackSpansWithin(sents: seq<string>, lo: nat, pos: nat, size: int, k: nat)
    requires lo <= pos <= |sents|
    ensures SpansWithin(PackSpans(sents, lo, pos, size, k), lo, |sents|)
    decreases |sents| - pos
  {
    if pos < |sents| {
      if Overflows(sents, lo, pos, size) {
        var m := SeedCount(pos - lo, k);
        PackSpansWithin(sents, pos - m, pos + 1, size, k);
        PackSpansEmit(sents, lo, pos, size, k);
      } else {
        PackSpansWithin(sents, lo, pos + 1, size, k);
        PackSpansTake(sents, lo, pos, size, k);
      }
    }
  }

  lemma {:induction false} PackSpansEnds(sents: seq<string>, lo: nat, pos: nat, size: int, k: nat)
    requires lo <= pos <= |sents|
    ensures var r := PackSpans(sents, lo, pos, size, k);
      && (r == [] <==> lo == pos == |sents|)
      && (r != [] ==> r[0].lo == lo && pos <= r[0].hi && r[|r| - 1].hi == |sents|)
    decreases |sents| - pos
  {
    if pos < |sents| {
      if Overflows(sents, lo, pos, size) {
        var m := SeedCount(pos - lo, k);
        PackSpansEnds(sents, pos - m, pos + 1, size, k);
        PackSpansEmit(sents, lo, pos, size, k);
      } else {
        PackSpansEnds(sents, lo, pos + 1, size, k);
        PackSpansTake(sents, lo, pos, size, k);
      }
    }
  }

  lemma {:induction false} PackSpansCount(sents: seq<string>, lo: nat, pos: nat, size: int, k: nat)
    requires lo <= pos <= |sents|
    ensures |PackSpans(sents, lo, pos, size, k)| <= |sents| - pos + (if lo < pos then 1 else 0)
    decreases |sents| - pos
  {
    if pos < |sents| {
      if Overflows(sents, lo, pos, size) {
        var m := SeedCount(pos - lo, k);
        PackSpansCount(sents, pos - m, pos + 1, size, k);
        PackSpansEmit(sents, lo, pos, size, k);
      } else {
        PackSpansCount(sents, lo, pos + 1, size, k);
        PackSpansTake(sents, lo, pos, size, k);
      }
    }
  }

  lemma ChunkSpansShape(sents: seq<string>, size: int, k: nat)
    ensures var r := ChunkSpans(sents, size, k);
      && SpansWithin(r, 0, |sents|)
      && (r == [] <==> sents == [])
      && (r != [] ==> r[0].lo == 0 && r[|r| - 1].hi == |sents|)
      && |r| <= |sents|
  {
    PackSpansShape(sents, 0, 0, size, k);
  }

  /** The list-based loop and the position-based loop emit the same chunks. */
  lemma {:induction false} PackIsPackSpans(sents: seq<string>, lo: nat, pos: nat, size: int, k: nat)
    requires lo <= pos <= |sents|
    ensures Pack(sents[pos..], sents[lo..pos], size, k) == SpanTexts(sents, PackSpans(sents, lo, pos, size, k))
    decreases |sents| - pos
  {
    if pos == |sents| {
      PackSpansAtEnd(sents, lo, size, k);
    } else if Overflows(sents, lo, pos, size) {
      PackIsPackSpans(sents, pos - SeedCount(pos - lo, k), pos + 1, size, k);
      PackSpansFlushStep(sents, lo, pos, size, k);
    } else {
      PackIsPackSpans(sents, lo, pos + 1, size, k);
      PackSpansJoinStep(sents, lo, pos, size, k);
    }
  }

  lemma PackSpansAtEnd(sents: seq<string>, lo: nat, size: int, k: nat)
    requires lo <= |sents|
    ensures Pack(sents[|sents|..], sents[lo..|sents|], size, k) == SpanTexts(sents, PackSpans(sents, lo, |sents|, size, k))
  {
    assert sents[|sents|..] == [];
    if lo < |sents| {
      assert PackSpans(sents, lo, |sents|, size, k) == [Span(lo, |sents|)];
    } else {
      assert PackSpans(sents, lo, |sents|, size, k) == [];
    }
  }

  lemma PackSpansFlushStep(sents: seq<string>, lo: nat, pos: nat, size: int, k: nat)
    requires lo <= pos < |sents| && Overflows(sents, lo, pos, size)
    requires var m := SeedCount(pos - lo, k);
      Pack(sents[pos + 1..], sents[pos - m..pos + 1], size, k) == SpanTexts(sents, PackSpans(sents, pos - m, pos + 1, size, k))
    ensures Pack(sents[pos..], sents[lo..pos], size, k) == SpanTexts(sents, PackSpans(sents, lo, pos, size, k))
  {
    var cur := sents[lo..pos];
    var rest := sents[pos..];
    var m := SeedCount(pos - lo, k);
    SliceTail(sents, pos);
    PackFlush(rest, cur, size, k);
    SeedIsSuffix(sents, lo, pos, k);
    SliceSnoc(sents, pos - m, pos);
    var tail := PackSpans(sents, pos - m, pos + 1, size, k);
    PackSpansEmit(sents, lo, pos, size, k);
    SpanTextsCons(sents, Span(lo, pos), tail);
  }

  lemma PackSpansJoinStep(sents: seq<string>, lo: nat, pos: nat, size: int, k: nat)
    requires lo <= pos < |sents| && !Overflows(sents, lo, pos, size)
    requires Pack(sents[pos + 1..], sents[lo..pos + 1], size, k) == SpanTexts(sents, PackSpans(sents, lo, pos + 1, size, k))
    ensures Pack(sents[pos..], sents[lo..pos], size, k) == SpanTexts(sents, PackSpans(sents, lo, pos, size, k))
  {
    var cur := sents[lo..pos];
    var rest := sents[pos..];
    SliceTail(sents, pos);
    PackJoin(rest, cur, size, k);
    SliceSnoc(sents, lo, pos);
    PackSpansTake(sents, lo, pos, size, k);
  }

  lemma PackFlush(rest: seq<string>, cur: seq<string>, size: int, k: nat)
    requires rest != [] && TotalLen(cur) + |rest[0]| > size && TotalLen(cur) > 0
    ensures Pack(rest, cur, size, k) == [Concat(cur)] + Pack(rest[1..], Seed(cur, k) + [rest[0]], size, k)
  {
  }

  lemma PackJoin(rest: seq<string>, cur: seq<string>, size: int, k: nat)
    requires rest != [] && !(TotalLen(cur) + |rest[0]| > size && TotalLen(cur) > 0)
    ensures Pack(rest, cur, size, k) == Pack(rest[1..], cur + [rest[0]], size, k)
  {
  }

  lemma SpanTextsCons(sents: seq<string>, sp: Span, spans: seq<Span>)
    ensures SpanTexts(sents, [sp] + spans) == [SpanText(sents, sp)] + SpanTexts(sents, spans)
  {
  }

  /** Each chunk is the concatenation of the run of sentences its window covers. */
  lemma ChunksAreSentenceRuns(sents: seq<string>, size: int, k: nat)
    ensures ChunkSentences(sents, size, k) == SpanTexts(sents, ChunkSpans(sents, size, k))
  {
    PackIsPackSpans(sents, 0, 0, size, k);
    assert sents[0..] == sents && sents[0..0] == [];
  }

  /** Consecutive windows `a` and `b`: `b` starts with the seed of `a` and reaches further. */
  predicate Follows(a: Span, b: Span, k: nat) {
    a.lo <= a.hi && b.lo == a.hi - SeedCount(a.hi - a.lo, k) && a.hi < b.hi
  }

  predicate Chained(r: seq<Span>, k: nat) {
    forall t :: 0 <= t < |r| - 1 ==> Follows(r[t], r[t + 1], k)
  }

  lemma ChainedCons(a: Span, r: seq<Span>, k: nat)
    requires r != [] && Follows(a, r[0], k) && Chained(r, k)
    ensures Chained([a] + r, k)
  {
    var ar := [a] + r;
    forall t | 0 <= t < |ar| - 1 ensures Follows(ar[t], ar[t + 1], k) {
      if t > 0 {
        assert ar[t] == r[t - 1] && ar[t + 1] == r[t];
      }
    }
  }

  /** Each window starts with the seed of the one before it and reaches further. */
  lemma {:induction false} PackSpansChain(sents: seq<string>, lo: nat, pos: nat, size: int, k: nat)
    requires lo <= pos <= |sents|
    ensures Chained(PackSpans(sents, lo, pos, size, k), k)
    decreases |sents| - pos
  {
    if pos < |sents| {
      if Overflows(sents, lo, pos, size) {
        PackSpansChain(sents, pos - SeedCount(pos - lo, k), pos + 1, size, k);
        PackSpansEmit(sents, lo, pos, size, k);
        PackSpansChainEmit(sents, lo, pos, size, k);
      } else {
        PackSpansChain(sents, lo, pos + 1, size, k);
        PackSpansTake(sents, lo, pos, size, k);
      }
    }
  }

  lemma PackSpansChainEmit(sents: seq<string>, lo: nat, pos: nat, size: int, k: nat)
    requires lo <= pos < |sents|
    requires PackSpans(sents, lo, pos, size, k)
      == [Span(lo, pos)] + PackSpans(sents, pos - SeedCount(pos - lo, k), pos + 1, size, k)
    requires Chained(PackSpans(sents, pos - SeedCount(pos - lo, k), pos + 1, size, k), k)
    ensures Chained(PackSpans(sents, lo, pos, size, k), k)
  {
    var m := SeedCount(pos - lo, k);
    PackSpansFirst(sents, pos - m, pos + 1, size, k);
    ChainedCons(Span(lo, pos), PackSpans(sents, pos - m, pos + 1, size, k), k);
  }

  /** Every window but the last is closed because the next sentence overflows it. */
  predicate ClosedByOverflow(sents: seq<string>, r: seq<Span>, size: int) {
    forall t :: 0 <= t < |r| - 1 ==> Overflows(sents, r[t].lo, r[t].hi, size)
  }

  /** Every sentence a window takes in after its seed joins without overflowing. */
  predicate JoinedWithoutOverflow(sents: seq<string>, r: seq<Span>, size: int) {
    forall t :: 0 <= t < |r| - 1 ==> NoOverflowBetween(sents, r[t + 1].lo, r[t].hi + 1, r[t + 1].hi, size)
  }

  lemma GreedyCons(sents: seq<string>, a: Span, r: seq<Span>, size: int)
    requires r != [] && Overflows(sents, a.lo, a.hi, size) && NoOverflowBetween(sents, r[0].lo, a.hi + 1, r[0].hi, size)
    requires ClosedByOverflow(sents, r, size) && JoinedWithoutOverflow(sents, r, size)
    ensures ClosedByOverflow(sents, [a] + r, size) && JoinedWithoutOverflow(sents, [a] + r, size)
  {
    var ar := [a] + r;
    forall t | 0 <= t < |ar| - 1
      ensures Overflows(sents, ar[t].lo, ar[t].hi, size)
      ensures NoOverflowBetween(sents, ar[t + 1].lo, ar[t].hi + 1, ar[t + 1].hi, size)
    {
      if t > 0 {
        assert ar[t] == r[t - 1] && ar[t + 1] == r[t];
      }
    }
  }

  /** The loop is greedy: a window is closed exactly when the next sentence would
      overflow it, and every other sentence joined its window without overflowing. */
  lemma {:induction false} PackSpansGreedy(sents: seq<string>, lo: nat, pos: nat, size: int, k: nat)
    requires lo <= pos <= |sents|
    ensures ClosedByOverflow(sents, PackSpans(sents, lo, pos, size, k), size)
    ensures JoinedWithoutOverflow(sents, PackSpans(sents, lo, pos, size, k), size)
    ensures PackSpans(sents, lo, pos, size, k) != [] ==>
              NoOverflowBetween(sents, lo, pos, PackSpans(sents, lo, pos, size, k)[0].hi, size)
    decreases |sents| - pos
  {
    var r := PackSpans(sents, lo, pos, size, k);
    if pos < |sents| {
      if Overflows(sents, lo, pos, size) {
        var m := SeedCount(pos - lo, k);
        var tail := PackSpans(sents, pos - m, pos + 1, size, k);
        PackSpansGreedy(sents, pos - m, pos + 1, size, k);
        PackSpansEnds(sents, pos - m, pos + 1, size, k);
        PackSpansEmit(sents, lo, pos, size, k);
        GreedyCons(sents, Span(lo, pos), tail, size);
      } else {
        PackSpansGreedy(sents, lo, pos + 1, size, k);
        PackSpansTake(sents, lo, pos, size, k);
        if r != [] {
          assert NoOverflowBetween(sents, lo, pos + 1, r[0].hi, size);
          assert NoOverflowBetween(sents, lo, pos, r[0].hi, size);
        }
      }
    }
  }

  /** The same facts for the chunks `semantic_chunking` emits. */
  lemma ChunkSpansGreedy(sents: seq<string>, size: int, k: nat)
    ensures var r := ChunkSpans(sents, size, k);
      && Chained(r, k)
      && ClosedByOverflow(sents, r, size)
      && JoinedWithoutOverflow(sents, r, size)
      && (r != [] ==> NoOverflowBetween(sents, 0, 0, r[0].hi, size))
  {
    PackSpansChain(sents, 0, 0, size, k);
    PackSpansGreedy(sents, 0, 0, size, k);
  }

  /** A non-empty sentence list gives between one and `|sents|` chunks; an empty one gives none. */
  lemma ChunkCount(sents: seq<string>, size: int, k: nat)
    ensures sents == [] ==> ChunkSentences(sents, size, k) == []
    ensures sents != [] ==> 1 <= |ChunkSentences(sents, size, k)| <= |sents|
  {
    ChunksAreSentenceRuns(sents, size, k);
    ChunkSpansShape(sents, size, k);
  }

  lemma {:induction false} ConcatNonEmpty(ss: seq<string>, i: nat)
    requires i < |ss| && ss[i] != []
    ensures Concat(ss) != []
  {
    if i > 0 {
      ConcatNonEmpty(ss[1..], i - 1);
    }
  }

  /** Chunks of non-empty sentences are non-empty. */
  lemma ChunksNonEmpty(sents: seq<string>, size: int, k: nat)
    requires forall i :: 0 <= i < |sents| ==> sents[i] != []
    ensures forall t :: 0 <= t < |ChunkSentences(sents, size, k)| ==> ChunkSentences(sents, size, k)[t] != []
  {
    ChunksAreSentenceRuns(sents, size, k);
    ChunkSpansShape(sents, size, k);
    var sp := ChunkSpans(sents, size, k);
    forall t | 0 <= t < |sp| ensures SpanText(sents, sp[t]) != [] {
      ConcatNonEmpty(sents[sp[t].lo..sp[t].hi], 0);
    }
  }

  /** Each chunk after the first begins with the seed of the previous chunk's sentences:
      its last `k` sentences (all of them when it has fewer, or when `k` is 0). */
  lemma ChunkOverlap(sents: seq<string>, size: int, k: nat, t: nat)
    requires t + 1 < |ChunkSentences(sents, size, k)|
    ensures |ChunkSpans(sents, size, k)| == |ChunkSentences(sents, size, k)|
    ensures Concat(Seed(SpanSents(sents, ChunkSpans(sents, size, k)[t]), k)) <= ChunkSentences(sents, size, k)[t + 1]
  {
    var sp := ChunkSpans(sents, size, k);
    ChunksAreSentenceRuns(sents, size, k);
    ChunkSpansShape(sents, size, k);
    PackSpansChain(sents, 0, 0, size, k);
    assert Follows(sp[t], sp[t + 1], k);
    var lo, mid, hi := sp[t + 1].lo, sp[t].hi, sp[t + 1].hi;
    SeedIsSuffix(sents, sp[t].lo, mid, k);
    assert Seed(SpanSents(sents, sp[t]), k) == sents[lo..mid];
    assert sents[lo..hi] == sents[lo..mid] + sents[mid..hi];
    ConcatAppend(sents[lo..mid], sents[mid..hi]);
  }

  /** With an overlap of 0 the whole window is carried over, so every chunk extends the
      previous one. */
  lemma ZeroOverlapChunksGrow(sents: seq<string>, size: int, t: nat)
    requires t + 1 < |ChunkSentences(sents, size, 0)|
    ensures ChunkSentences(sents, size, 0)[t] <= ChunkSentences(sents, size, 0)[t + 1]
  {
    ChunksAreSentenceRuns(sents, size, 0);
    ChunkOverlap(sents, size, 0, t);
  }
  /** Three 6-character sentences, size 10, overlap 1: the chunks are s1, s1s2, s2s3. */
  lemma OverlapExample(s1: string, s2: string, s3: string)
    requires |s1| == 6 && |s2| == 6 && |s3| == 6
    ensures ChunkSentences([s1, s2, s3], 10, 1) == [s1, s1 + s2, s2 + s3]
  {
    assert [s1, s2, s3][1..] == [s2, s3];
    assert [s2, s3][1..] == [s3];
    assert [s1, s2][1..] == [s2];
    assert [s3][1..] == [];
    assert [s2][1..] == [];
    assert [s1][1..] == [];
    assert TotalLen([s1]) == 6;
    assert TotalLen([s1, s2]) == 12;
    assert Concat([s1]) == s1;
    assert Concat([s1, s2]) == s1 + s2;
    assert Concat([s2, s3]) == s2 + s3;
    assert [] + [s1] == [s1];
    assert Seed([s1], 1) + [s2] == [s1, s2];
    assert Seed([s1, s2], 1) + [s3] == [s2, s3];
    assert Pack([], [s2, s3], 10, 1) == [s2 + s3];
    assert Pack([s3], [s1, s2], 10, 1) == [s1 + s2, s2 + s3];
    assert Pack([s2, s3], [s1], 10, 1) == [s1, s1 + s2, s2 + s3];
  }

  /** `semantic_chunking` on any text: no sentences give no chunks, otherwise between
      one chunk and one per sentence, and no chunk is empty. */
  lemma SemanticChunkingShape(text: string, size: int)
    ensures SplitSentences(text) == [] ==> SemanticChunking(text, size) == []
    ensures SplitSentences(text) != [] ==> 1 <= |SemanticChunking(text, size)| <= |SplitSentences(text)|
    ensures forall t :: 0 <= t < |SemanticChunking(text, size)| ==> SemanticChunking(text, size)[t] != []
  {
    ChunkCount(SplitSentences(text), size, OVERLAP_SENTENCES);
    ChunksNonEmpty(SplitSentences(text), size, OVERLAP_SENTENCES);
  }
}

=== FILE: dispatch.dfy ===
/** The per-file loop of `main` in experiments/scripts/01_data_processing.py: files whose
    name starts with '.' are skipped, the lower-cased text after the last '.' of the name
    picks the handler, every handler receives the path relative to the raw-data directory
    as the file's title and source, and the records of all files are concatenated in the
    order the files are visited. */
module Dispatch {
  import opened Outcomes
  import opened Text
  import opened Records

  /** The handler `main` calls for a file. */
  datatype Handler = PdfFile | TableFile | TxtFile | DocxFile | Ignored

  predicate IsDot(c: char) {
    c == '.'
  }

  /** The text after the last '.' of `s`, or all of `s` when it has none: the last
      piece `s.split('.')` returns. */
  function AfterLastDot(s: string): string
    decreases |s|
  {
    if s == [] then []
    else if IsDot(s[|s| - 1]) then []
    else AfterLastDot(s[..|s| - 1]) + [s[|s| - 1]]
  }

  /** `file_name.lower().split('.')[-1]` */
  function Extension(name: string): string {
    AfterLastDot(Lower(name))
  }

  /** The extension table of `main`. */
  function HandlerOf(ext: string): Handler {
    if ext == "pdf" then PdfFile
    else if ext == "xlsx" || ext == "xls" || ext == "csv" then TableFile
    else if ext == "txt" then TxtFile
    else if ext == "docx" then DocxFile
    else Ignored
  }

  /** `file_name.startswith('.')` */
  predicate IsHidden(name: string) {
    name != [] && name[0] == '.'
  }

  function Route(name: string): Handler {
    if IsHidden(name) then Ignored else HandlerOf(Extension(name))
  }

  /** The `file_type` a handler writes. */
  function TypeOf(h: Handler): FileType
    requires h != Ignored
  {
    match h
    case PdfFile => Pdf
    case TableFile => Table
    case TxtFile => Txt
    case DocxFile => Docx
  }

  /** Exactly six extensions have a handler. */
  lemma HandlerOfKnown(ext: string)
    ensures HandlerOf(ext) != Ignored <==> ext in ["pdf", "xlsx", "xls", "csv", "txt", "docx"]
  {
  }

  /** What follows the last '.' of "a.b" is `b` when `b` has no '.'. */
  lemma {:induction false} AfterLastDotOf(a: string, b: string)
    requires NoneWhere(b, IsDot)
    ensures AfterLastDot(a + "." + b) == b
    decreases |b|
  {
    var s := a + "." + b;
    if b == [] {
      assert s[|s| - 1] == '.';
    } else {
      var n := |b| - 1;
      assert s[|s| - 1] == b[n];
      assert s[..|s| - 1] == a + "." + b[..n];
      AfterLastDotOf(a, b[..n]);
      assert b[..n] + [b[n]] == b;
    }
  }

  /** Text without '.' is its own last piece. */
  lemma {:induction false} AfterLastDotNone(s: string)
    requires NoneWhere(s, IsDot)
    ensures AfterLastDot(s) == s
    decreases |s|
  {
    if s != [] {
      var n := |s| - 1;
      AfterLastDotNone(s[..n]);
      assert s[..n] + [s[n]] == s;
    }
  }

  lemma LowerAppend(a: string, b: string)
    ensures Lower(a + b) == Lower(a) + Lower(b)
  {
  }

  /** Lowering keeps the dots where they are and adds none. */
  lemma LowerDots(s: string)
    ensures forall i :: 0 <= i < |s| ==> (IsDot(Lower(s)[i]) <==> IsDot(s[i]))
  {
  }

  /** The extension of "stem.ext" is the lower-cased `ext` whenever `ext` has no '.'. */
  lemma ExtensionOf(stem: string, ext: string)
    requires NoneWhere(ext, IsDot)
    ensures Extension(stem + "." + ext) == Lower(ext)
  {
    LowerAppend(stem + ".", ext);
    LowerAppend(stem, ".");
    assert Lower(".") == ".";
    LowerDots(ext);
    AfterLastDotOf(Lower(stem), Lower(ext));
  }

  /** A name without '.' is routed by the whole name: a file called "PDF" goes to the
      PDF handler. */
  lemma RouteWithoutDot(name: string)
    requires NoneWhere(name, IsDot)
    ensures Route(name) == HandlerOf(Lower(name))
  {
    LowerDots(name);
    AfterLastDotNone(Lower(name));
  }

  /** A visible file "stem.ext" goes to the handler of its lower-cased extension. */
  lemma RouteByExtension(stem: string, ext: string)
    requires !IsHidden(stem + "." + ext) && NoneWhere(ext, IsDot)
    ensures Route(stem + "." + ext) == HandlerOf(Lower(ext))
  {
    ExtensionOf(stem, ext);
  }

  lemma RouteUpperCase()
    ensures Route("manual.PDF") == PdfFile
  {
    assert "manual.PDF" == "manual" + "." + "PDF";
    assert NoneWhere("PDF", IsDot);
    RouteByExtension("manual", "PDF");
  }

  /** Only the text after the last '.' counts. */
  lemma RouteLastDot()
    ensures Route("log.2023.csv") == TableFile
  {
    assert "log.2023.csv" == "log.2023" + "." + "csv";
    assert NoneWhere("csv", IsDot);
    LowerCsv("csv");
    RouteCsvFile("log.2023", "csv");
  }

  /** A visible file whose last extension is some spelling of "csv" is a table file. */
  lemma RouteCsvFile(stem: string, ext: string)
    requires !IsHidden(stem + "." + ext) && NoneWhere(ext, IsDot) && Lower(ext) == "csv"
    ensures Route(stem + "." + ext) == TableFile
  {
    RouteByExtension(stem, ext);
  }

  /** A hidden name is skipped whatever its extension, e.g. an office lock file. */
  lemma RouteHidden(name: string)
    requires IsHidden(name)
    ensures Route(name) == Ignored
    ensures Route(".~lock.docx") == Ignored
  {
  }

  lemma RouteBareName()
    ensures Route("pdf") == PdfFile
  {
    assert NoneWhere("pdf", IsDot);
    RouteWithoutDot("pdf");
  }

  /** `s.endswith(p)`, case-sensitive. */
  predicate EndsWith(s: string, p: string) {
    |p| <= |s| && s[|s| - |p|..] == p
  }

  /** The pandas reader `process_excel` opens a table file with. */
  datatype TableReader = CsvReader | ExcelReader

  /** `process_excel` as written: the CSV reader only when the path ends with ".csv" in
      lower case, although upper-case ".CSV" files are routed to it too. */
  function ReaderAsWritten(relPath: string): TableReader {
    if EndsWith(relPath, ".csv") then CsvReader else ExcelReader
  }

  /** The reader chosen by the same case-insensitive test that routed the file. */
  function Reader(relPath: string): TableReader {
    if EndsWithCi(relPath, ".csv") then CsvReader else ExcelReader
  }

  /** "DATA.CSV" is routed to the table handler but opened with the Excel reader. */
  lemma ReaderMismatch()
    ensures Route("DATA.CSV") == TableFile
    ensures ReaderAsWritten("DATA.CSV") == ExcelReader
  {
    assert "DATA.CSV" == "DATA" + "." + "CSV";
    assert NoneWhere("CSV", IsDot);
    LowerCsv("CSV");
    RouteCsvFile("DATA", "CSV");
    ReaderOfUpperCsv();
  }

  /** Every spelling of "csv" lowers to "csv". */
  lemma LowerCsv(s: string)
    requires |s| == 3 && LowerChar(s[0]) == 'c' && LowerChar(s[1]) == 's' && LowerChar(s[2]) == 'v'
    ensures Lower(s) == "csv"
  {
  }

  lemma ReaderOfUpperCsv()
    ensures ReaderAsWritten("DATA.CSV") == ExcelReader
  {
    assert "DATA.CSV"[4..] == ".CSV";
  }

  /** Lowering maps '.' and nothing else to '.'. */
  lemma LowerDot(c: char)
    ensures LowerChar(c) == '.' <==> c == '.'
  {
  }

  /** The corrected choice agrees with the routing: for "stem.ext" the CSV reader is
      used exactly when the extension is "csv" in any case. */
  lemma ReaderMatchesExtension(stem: string, ext: string)
    requires NoneWhere(ext, IsDot)
    ensures Reader(stem + "." + ext) == CsvReader <==> Lower(ext) == "csv"
  {
    var p := stem + "." + ext;
    if Lower(ext) == "csv" {
      assert p[|p| - 4..] == "." + ext;
      LowerAppend(".", ext);
      assert Lower(".") == ".";
    }
    if EndsWithCi(p, ".csv") {
      EndsWithCsv(stem, ext);
    }
  }

  /** A name "stem.ext" that ends with ".csv" in any case has the extension "csv". */
  lemma EndsWithCsv(stem: string, ext: string)
    requires NoneWhere(ext, IsDot) && EndsWithCi(stem + "." + ext, ".csv")
    ensures Lower(ext) == "csv"
  {
    var p := stem + "." + ext;
    var t := p[|p| - 4..];
    DotsOfCsv(t);
    assert p[|stem|] == '.';
    assert |ext| >= 4 ==> t[0] == ext[|ext| - 4] && !IsDot(ext[|ext| - 4]);
    assert t == "." + ext;
    LowerAppend(".", ext);
    assert Lower(".") == ".";
    assert ".csv" == "." + Lower(ext);
    assert Lower(ext) == ("." + Lower(ext))[1..];
  }

  /** Of a spelling of ".csv" only the first character is a '.'. */
  lemma DotsOfCsv(t: string)
    requires Lower(t) == ".csv"
    ensures |t| == 4
    ensures forall j :: 0 <= j < 4 ==> (t[j] == '.' <==> j == 0)
  {
    forall j | 0 <= j < 4 ensures t[j] == '.' <==> j == 0 {
      assert Lower(t)[j] == LowerChar(t[j]);
      LowerDot(t[j]);
    }
  }

  /** What the readers return for one file; reading itself is outside the model. The two
      table readers give None when they fail on the file, `wordReader` says whether the
      Word library could be imported. */
  datatype Contents = Contents(pages: seq<string>, csvRows: Option<seq<seq<Cell>>>,
                               excelRows: Option<seq<seq<Cell>>>, raw: string,
                               wordReader: bool, paragraphs: seq<string>)

  /** One file `os.walk` yields: its name, its path relative to the raw-data directory,
      the MD5 `doc_id` of that path, and what the readers return for it. */
  datatype SourceFile = SourceFile(name: string, relPath: string, docId: string, contents: Contents)

  /** The table rows `process_excel` reads with the reader it picks as written; a failing
      reader is caught and gives no rows. */
  function TableRows(f: SourceFile): Option<seq<seq<Cell>>> {
    if ReaderAsWritten(f.relPath) == CsvReader then f.contents.csvRows else f.contents.excelRows
  }

  /** The records `main` collects for one file. */
  function ProcessFile(f: SourceFile): seq<ChunkRecord> {
    match Route(f.name)
    case PdfFile => ProcessPdf(f.docId, f.relPath, f.contents.pages)
    case TableFile =>
      var rows := TableRows(f);
      if rows.Some? then ProcessTable(f.docId, f.relPath, rows.value) else []
    case TxtFile => ProcessTxt(f.docId, f.relPath, f.contents.raw)
    case DocxFile => ProcessDocx(f.docId, f.relPath, f.contents.wordReader, f.contents.paragraphs)
    case Ignored => []
  }

  /** `all_data`: the records of every file, in the order the files are visited. */
  function ProcessAll(fs: seq<SourceFile>): seq<ChunkRecord> {
    Concat(seq(|fs|, i requires 0 <= i < |fs| => ProcessFile(fs[i])))
  }

  /** A skipped file contributes nothing. */
  lemma ProcessFileIgnored(f: SourceFile)
    requires IsHidden(f.name) || HandlerOf(Extension(f.name)) == Ignored
    ensures ProcessFile(f) == []
  {
  }

  /** Every record of a file has the file's relative path as source and the file type
      of the handler its extension chose. */
  lemma ProcessFileRecord(f: SourceFile, k: nat)
    requires k < |ProcessFile(f)|
    ensures Route(f.name) != Ignored
    ensures ProcessFile(f)[k].source == f.relPath
    ensures ProcessFile(f)[k].fileType == TypeOf(Route(f.name))
  {
    match Route(f.name)
    case PdfFile => ProcessPdfRecord(f.docId, f.relPath, f.contents.pages, k);
    case TableFile => ProcessTableRecord(f.docId, f.relPath, TableRows(f).value, k);
    case TxtFile => ProcessTxtFields(f.docId, f.relPath, f.contents.raw, k);
    case DocxFile =>
      ProcessDocxFields(f.docId, f.relPath, f.contents.wordReader, f.contents.paragraphs, k);
  }

  /** As written, a table file whose "csv" extension is not spelled in lower case goes to
      the Excel reader: when that read fails the file adds no records, although the CSV
      reader the corrected choice picks would have read it. */
  lemma UpperCsvRecordsLost(f: SourceFile, stem: string, ext: string)
    requires f.name == stem + "." + ext && f.relPath == f.name && !IsHidden(f.name)
    requires NoneWhere(ext, IsDot) && Lower(ext) == "csv" && ext != "csv"
    requires f.contents.excelRows == None
    ensures Route(f.name) == TableFile && ProcessFile(f) == []
    ensures Reader(f.relPath) == CsvReader
  {
    RouteCsvFile(stem, ext);
    ReaderMatchesExtension(stem, ext);
    var p := f.relPath;
    assert p[|p| - 4..] == "." + ext;
    assert ("." + ext)[1..] == ext;
  }

  /** The records of a list of files followed by another are collected in that order. */
  lemma ProcessAllAppend(fs: seq<SourceFile>, gs: seq<SourceFile>)
    ensures ProcessAll(fs + gs) == ProcessAll(fs) + ProcessAll(gs)
  {
    var a := seq(|fs|, i requires 0 <= i < |fs| => ProcessFile(fs[i]));
    var b := seq(|gs|, i requires 0 <= i < |gs| => ProcessFile(gs[i]));
    assert seq(|fs + gs|, i requires 0 <= i < |fs + gs| => ProcessFile((fs + gs)[i])) == a + b;
    ConcatAppend(a, b);
  }

  /** Every record of every file is collected. */
  lemma ProcessAllComplete(fs: seq<SourceFile>, i: nat, k: nat)
    requires i < |fs| && k < |ProcessFile(fs[i])|
    ensures ProcessFile(fs[i])[k] in ProcessAll(fs)
  {
    var parts := seq(|fs|, i requires 0 <= i < |fs| => ProcessFile(fs[i]));
    assert parts[i] == ProcessFile(fs[i]);
    ConcatComplete(parts, i, k);
  }

  /** Every collected record comes from one of the files, with that file's path as
      source and the file type its extension chose. */
  lemma ProcessAllSound(fs: seq<SourceFile>, j: nat)
    requires j < |ProcessAll(fs)|
    ensures exists i :: 0 <= i < |fs| && ProcessAll(fs)[j] in ProcessFile(fs[i])
              && ProcessAll(fs)[j].source == fs[i].relPath
  {
    var parts := seq(|fs|, i requires 0 <= i < |fs| => ProcessFile(fs[i]));
    ConcatSound(parts, j);
    var i, k :| 0 <= i < |parts| && 0 <= k < |parts[i]| && ProcessAll(fs)[j] == parts[i][k];
    assert parts[i] == ProcessFile(fs[i]);
    ProcessFileRecord(fs[i], k);
  }
}

=== FILE: download.dfy ===
/** The helpers of experiments/scripts/02_download_details.py that decide what a crawled
    article is saved as: the file name made from its title, the `--out` name, the
    site-suffix trimming of a page `<title>`, the Markdown rendering of an HTML table, and
    the header written in front of the article text, which `process_txt` reads back. */
module Download {
  import opened Outcomes
  import opened Text
  import opened Sentences
  import opened TxtHeader

  /** The characters `clean_filename` deletes: `\ / * ? : " < > |`. */
  predicate IsForbidden(c: char) {
    c == '\\' || c == '/' || c == '*' || c == '?' || c == ':' || c == '"' || c == '<'
    || c == '>' || c == '|'
  }

  /** `re.sub` deleting every forbidden character. */
  function RemoveForbidden(s: string): (r: string)
    ensures |r| <= |s|
    ensures NoneWhere(r, IsForbidden)
  {
    if s == [] then []
    else (if IsForbidden(s[0]) then [] else [s[0]]) + RemoveForbidden(s[1..])
  }

  /** Text without forbidden characters is left as it is. */
  lemma {:induction false} RemoveForbiddenKeeps(s: string)
    requires NoneWhere(s, IsForbidden)
    ensures RemoveForbidden(s) == s
  {
    if s != [] {
      RemoveForbiddenKeeps(s[1..]);
      HeadTail(s);
    }
  }

  /** Only characters of `s` survive. */
  lemma {:induction false} RemoveForbiddenFrom(s: string)
    ensures forall i :: 0 <= i < |RemoveForbidden(s)| ==> RemoveForbidden(s)[i] in s
  {
    if s != [] {
      RemoveForbiddenFrom(s[1..]);
      var t := RemoveForbidden(s[1..]);
      forall i | 0 <= i < |t| ensures t[i] in s {
        assert t[i] in s[1..];
      }
    }
  }

  /** The name used when nothing of the title is left. */
  const UNTITLED: string := "untitled"

  /** `clean_filename(title)`: the title without forbidden characters, stripped, or
      "untitled" when that leaves nothing. */
  function CleanFilename(title: string): (r: string)
    ensures r != [] && IsStripped(r)
    ensures NoneWhere(r, IsForbidden)
  {
    var kept := RemoveForbidden(title);
    var name := Strip(kept);
    StripKeepsNone(kept, IsForbidden);
    if name != [] then name else UNTITLED
  }

  /** `strip` adds no character. */
  lemma StripKeepsNone(s: string, sep: char -> bool)
    requires NoneWhere(s, sep)
    ensures NoneWhere(Strip(s), sep)
  {
    forall j | 0 <= j < |Strip(s)| ensures !sep(Strip(s)[j]) {
      StripChar(s, j);
    }
  }

  /** Cleaning a cleaned name changes nothing. */
  lemma CleanFilenameIdempotent(title: string)
    ensures CleanFilename(CleanFilename(title)) == CleanFilename(title)
  {
    var r := CleanFilename(title);
    RemoveForbiddenKeeps(r);
    StripStripped(r);
  }

  /** A stripped title without forbidden characters is its own file name. */
  lemma CleanFilenameKeeps(title: string)
    requires title != [] && IsStripped(title) && NoneWhere(title, IsForbidden)
    ensures CleanFilename(title) == title
  {
    RemoveForbiddenKeeps(title);
    StripStripped(title);
  }

  /** A title made only of forbidden characters and whitespace becomes "untitled". */
  lemma CleanFilenameUntitled(title: string)
    requires forall i :: 0 <= i < |title| ==> IsForbidden(title[i]) || IsSpace(title[i])
    ensures CleanFilename(title) == UNTITLED
  {
    var kept := RemoveForbidden(title);
    RemoveForbiddenFrom(title);
    forall i | 0 <= i < |kept| ensures IsSpace(kept[i]) {
      var j :| 0 <= j < |title| && title[j] == kept[i];
    }
    StripEmpty(kept);
  }

  /** The extension every saved article gets. */
  const TXT: string := ".txt"

  lemma LowerTxt()
    ensures Lower(TXT) == TXT
  {
  }

  /** The `--out` file name: ".txt" is appended unless the name already ends with it in
      any case. */
  function OutFileName(out: string): (r: string)
    ensures out <= r && EndsWithCi(r, TXT)
    ensures r == out <==> EndsWithCi(out, TXT)
  {
    if EndsWithCi(out, TXT) then out
    else
      var r := out + TXT;
      assert r[|r| - 4..] == TXT;
      LowerTxt();
      r
  }

  /** Naming an already named file again changes nothing. */
  lemma OutFileNameIdempotent(out: string)
    ensures OutFileName(OutFileName(out)) == OutFileName(out)
  {
  }

  /** The batch-mode file name: the cleaned title, '_', the first eight characters of
      the URL's MD5 hex digest (given here, not computed) and ".txt". */
  function SavedFileName(title: string, urlDigest: string): (r: string)
    ensures CleanFilename(title) <= r && EndsWithCi(r, TXT)
  {
    var r := CleanFilename(title) + "_" + Take(urlDigest, 8) + TXT;
    assert r[|r| - 4..] == TXT;
    LowerTxt();
    r
  }

  /** The `_` and the eight-character digest keep articles with the same title apart: two
      default names are equal exactly when the cleaned titles and the digest prefixes are. */
  lemma SavedFileNameInjective(t1: string, d1: string, t2: string, d2: string)
    requires |d1| >= 8 && |d2| >= 8
    ensures SavedFileName(t1, d1) == SavedFileName(t2, d2)
            <==> CleanFilename(t1) == CleanFilename(t2) && d1[..8] == d2[..8]
  {
    var a1, a2 := CleanFilename(t1), CleanFilename(t2);
    var r1, r2 := SavedFileName(t1, d1), SavedFileName(t2, d2);
    assert r1 == a1 + "_" + d1[..8] + TXT;
    assert r2 == a2 + "_" + d2[..8] + TXT;
    if r1 == r2 {
      assert |a1| == |a2|;
      assert a1 == r1[..|a1|] == r2[..|a2|] == a2;
      assert d1[..8] == r1[|a1| + 1..|a1| + 9] == r2[|a2| + 1..|a2| + 9] == d2[..8];
    }
  }

  /** A hex digest contributes no forbidden character, so the saved name has none. */
  lemma SavedFileNameClean(title: string, urlDigest: string)
    requires forall i :: 0 <= i < |urlDigest| ==> '0' <= urlDigest[i] <= '9' || 'a' <= urlDigest[i] <= 'f'
    ensures NoneWhere(SavedFileName(title, urlDigest), IsForbidden)
  {
    var a := CleanFilename(title);
    var h := Take(urlDigest, 8);
    var r := a + "_" + h + TXT;
    forall i | 0 <= i < |r| ensures !IsForbidden(r[i]) {
      if i < |a| {
        assert r[i] == a[i];
      } else if i == |a| {
        assert r[i] == '_';
      } else if i <= |a| + |h| {
        assert r[i] == urlDigest[i - |a| - 1];
      } else {
        assert r[i] == TXT[i - |a| - 1 - |h|];
      }
    }
  }

  /** `p` occurs in `s` starting at position `i`. */
  predicate OccursAt(s: string, p: string, i: nat) {
    i + |p| <= |s| && s[i..i + |p|] == p
  }

  /** The position of the first occurrence of `p` in `s`, or None: `s.find(p)`. */
  function Find(s: string, p: string): (r: Option<nat>)
    ensures r.Some? ==> r.value + |p| <= |s|
    decreases |s|
  {
    if |s| < |p| then None
    else if s[..|p|] == p then Some(0)
    else match Find(s[1..], p)
      case None => None
      case Some(i) => Some(i + 1)
  }

  /** An occurrence one position further into `s` is an occurrence in `s[1..]`. */
  lemma OccursShift(s: string, p: string, i: nat)
    requires s != []
    ensures OccursAt(s, p, i + 1) <==> OccursAt(s[1..], p, i)
  {
    if i + 1 + |p| <= |s| {
      assert s[1..][i..i + |p|] == s[i + 1..i + 1 + |p|];
    }
  }

  /** `Find` reports an occurrence, and no occurrence comes before it; None means `p`
      does not occur at all. */
  lemma {:induction false} FindSpec(s: string, p: string)
    ensures Find(s, p).Some? ==> OccursAt(s, p, Find(s, p).value)
    ensures forall i: nat :: i < (if Find(s, p).Some? then Find(s, p).value else |s| + 1) ==> !OccursAt(s, p, i)
    decreases |s|
  {
    if |s| >= |p| && s[..|p|] != p {
      FindSpec(s[1..], p);
      forall i: nat | 0 < i ensures OccursAt(s, p, i) <==> OccursAt(s[1..], p, i - 1) {
        OccursShift(s, p, i - 1);
      }
    }
  }

  /** The separators tried on a page `<title>`, in order. */
  const SITE_SEPARATORS: seq<string> := [" | ", " - "]

  /** The first separator of `seps` that occurs in `title` cuts it at its first
      occurrence, and the text before the cut is stripped; later separators are not
      tried. */
  function CutAtFirst(title: string, seps: seq<string>): string {
    if seps == [] then title
    else match Find(title, seps[0])
      case Some(i) => Strip(title[..i])
      case None => CutAtFirst(title, seps[1..])
  }

  /** The site-suffix trimming of the `<title>` fallback of `extract_article_title`. */
  function TrimSiteSuffix(title: string): string {
    CutAtFirst(title, SITE_SEPARATORS)
  }

  /** Text cut before the first occurrence of a non-empty `p` no longer contains `p`. */
  lemma CutHasNone(title: string, p: string, i: nat)
    requires p != [] && Find(title, p) == Some(i)
    ensures Find(Strip(title[..i]), p) == None
  {
    var r := Strip(title[..i]);
    FindSpec(title, p);
    FindSpec(r, p);
    if Find(r, p).Some? {
      var j := Find(r, p).value;
      var a := CutOccurs(title, p, i, j);
      assert false;
    }
  }

  /** An occurrence in the stripped text before position `i` is an occurrence in the
      title that starts before `i`. */
  lemma CutOccurs(title: string, p: string, i: nat, j: nat) returns (a: nat)
    requires p != [] && i <= |title| && OccursAt(Strip(title[..i]), p, j)
    ensures a + j < i && OccursAt(title, p, a + j)
  {
    var x := title[..i];
    var r := Strip(x);
    a := LeadingSpaces(x);
    StripIsSlice(x);
    SliceWithin(title, 0, i, a, a + |r|);
    SliceWithin(title, a, a + |r|, j, j + |p|);
  }

  /** A separator that does not occur passes the choice to the next one. */
  lemma CutAtFirstSkip(title: string, seps: seq<string>)
    requires seps != [] && Find(title, seps[0]) == None
    ensures CutAtFirst(title, seps) == CutAtFirst(title, seps[1..])
  {
  }

  /** The trimming after " | " is found absent: only " - " is left to try. */
  lemma TrimSiteSuffixSkip(title: string)
    requires Find(title, " | ") == None
    ensures TrimSiteSuffix(title) == CutAtFirst(title, [" - "])
  {
    assert SITE_SEPARATORS[0] == " | ";
    CutAtFirstSkip(title, SITE_SEPARATORS);
    assert SITE_SEPARATORS[1..] == [" - "];
  }

  /** With " | " in the title, the text before its first occurrence is kept, whatever
      " - " it holds, and no " | " is left. */
  lemma TrimSiteSuffixBar(title: string, i: nat)
    requires Find(title, " | ") == Some(i)
    ensures TrimSiteSuffix(title) == Strip(title[..i])
    ensures Find(TrimSiteSuffix(title), " | ") == None
  {
    CutHasNone(title, " | ", i);
  }

  /** Only without " | " is the title cut at its first " - ". */
  lemma TrimSiteSuffixDash(title: string, i: nat)
    requires Find(title, " | ") == None && Find(title, " - ") == Some(i)
    ensures TrimSiteSuffix(title) == Strip(title[..i])
    ensures Find(TrimSiteSuffix(title), " - ") == None
  {
    TrimSiteSuffixSkip(title);
    assert [" - "][0] == " - ";
    CutHasNone(title, " - ", i);
  }

  /** A title with neither separator is kept as it is. */
  lemma TrimSiteSuffixNone(title: string)
    requires Find(title, " | ") == None && Find(title, " - ") == None
    ensures TrimSiteSuffix(title) == title
  {
    TrimSiteSuffixSkip(title);
    assert [" - "][0] == " - ";
    CutAtFirstSkip(title, [" - "]);
    assert [" - "][1..] == [];
  }

  /** `row and any(x for x in row)`: a table row with at least one non-empty cell. */
  predicate HasText(row: seq<string>) {
    exists k :: 0 <= k < |row| && row[k] != []
  }

  /** The rows `table_to_markdown` keeps, in order. */
  function KeptRows(rows: seq<seq<string>>): (r: seq<seq<string>>)
    ensures |r| <= |rows|
    ensures forall k :: 0 <= k < |r| ==> HasText(r[k]) && r[k] in rows
  {
    if rows == [] then []
    else (if HasText(rows[0]) then [rows[0]] else []) + KeptRows(rows[1..])
  }

  /** A row with text is never dropped, so nothing is kept exactly when no row has text. */
  lemma {:induction false} KeptRowsComplete(rows: seq<seq<string>>, k: nat)
    requires k < |rows| && HasText(rows[k])
    ensures rows[k] in KeptRows(rows)
  {
    if k > 0 {
      KeptRowsComplete(rows[1..], k - 1);
    }
  }

  /** Filtering distributes over concatenation. With the filter's own contract on a
      one-element input, this keeps the rows in input order and multiplicity. */
  lemma {:induction false} KeptRowsAppend(a: seq<seq<string>>, b: seq<seq<string>>)
    ensures KeptRows(a + b) == KeptRows(a) + KeptRows(b)
  {
    if a == [] {
      assert a + b == b;
    } else {
      var h := if HasText(a[0]) then [a[0]] else [];
      assert (a + b)[0] == a[0];
      assert (a + b)[1..] == a[1..] + b;
      KeptRowsAppend(a[1..], b);
      calc {
        KeptRows(a + b);
        h + KeptRows(a[1..] + b);
        h + (KeptRows(a[1..]) + KeptRows(b));
        (h + KeptRows(a[1..])) + KeptRows(b);
      }
    }
  }

  /** `max(len(r) for r in rows)`, 0 for no rows. */
  function MaxCols(rows: seq<seq<string>>): (n: nat)
    ensures forall k :: 0 <= k < |rows| ==> |rows[k]| <= n
    ensures rows != [] ==> exists k :: 0 <= k < |rows| && |rows[k]| == n
  {
    if rows == [] then 0
    else
      var m := MaxCols(rows[1..]);
      if |rows[0]| >= m then |rows[0]| else m
  }

  /** `r + [""] * (n - len(r))` */
  function Pad(row: seq<string>, n: nat): (r: seq<string>)
    requires |row| <= n
    ensures |r| == n && r[..|row|] == row
    ensures forall k :: |row| <= k < n ==> r[k] == []
  {
    row + seq(n - |row|, _ => [])
  }

  /** `x.replace("\n", " ")` */
  function CellText(x: string): (r: string)
    ensures |r| == |x| && '\n' !in r
    ensures forall i :: 0 <= i < |x| && x[i] != '\n' ==> r[i] == x[i]
  {
    seq(|x|, i requires 0 <= i < |x| => if x[i] == '\n' then ' ' else x[i])
  }

  /** `fmt(r)`: the cells between "| " and " |", separated by " | ". */
  function FormatRow(row: seq<string>): string {
    "| " + Join(" | ", seq(|row|, i requires 0 <= i < |row| => CellText(row[i]))) + " |"
  }

  /** The separator row under the header. */
  function Rule(n: nat): seq<string> {
    seq(n, _ => "---")
  }

  /** The lines of the Markdown table: the header row, the separator row, then the other
      kept rows, every row padded to the widest. */
  function MarkdownLines(rows: seq<seq<string>>): seq<string> {
    var kept := KeptRows(rows);
    if kept == [] then []
    else
      var n := MaxCols(kept);
      [FormatRow(Pad(kept[0], n)), FormatRow(Rule(n))]
      + seq(|kept| - 1, k requires 0 <= k < |kept| - 1 => FormatRow(Pad(kept[k + 1], n)))
  }

  /** `table_to_markdown` over the cell texts of each `<tr>`. */
  function TableToMarkdown(rows: seq<seq<string>>): string {
    Join("\n", MarkdownLines(rows))
  }

  predicate IsLineFeed(c: char) {
    c == '\n'
  }

  lemma NoneWhereAppend(a: string, b: string, sep: char -> bool)
    requires NoneWhere(a, sep) && NoneWhere(b, sep)
    ensures NoneWhere(a + b, sep)
  {
    forall j | 0 <= j < |a + b| ensures !sep((a + b)[j]) {
      if j < |a| {
        assert (a + b)[j] == a[j];
      } else {
        assert (a + b)[j] == b[j - |a|];
      }
    }
  }

  /** Joining pieces without a character by a separator without it gives text without it. */
  lemma {:induction false} JoinNone(sep: string, xs: seq<string>, c: char -> bool)
    requires NoneWhere(sep, c)
    requires forall k :: 0 <= k < |xs| ==> NoneWhere(xs[k], c)
    ensures NoneWhere(Join(sep, xs), c)
  {
    if |xs| > 1 {
      JoinNone(sep, xs[1..], c);
      NoneWhereAppend(xs[0], sep, c);
      NoneWhereAppend(xs[0] + sep, Join(sep, xs[1..]), c);
    }
  }

  /** A formatted row is one line. */
  lemma FormatRowOneLine(row: seq<string>)
    ensures NoneWhere(FormatRow(row), IsLineFeed)
  {
    var cells := seq(|row|, i requires 0 <= i < |row| => CellText(row[i]));
    forall k | 0 <= k < |cells| ensures NoneWhere(cells[k], IsLineFeed) {
      assert '\n' !in cells[k];
    }
    JoinNone(" | ", cells, IsLineFeed);
    NoneWhereAppend("| ", Join(" | ", cells), IsLineFeed);
    NoneWhereAppend("| " + Join(" | ", cells), " |", IsLineFeed);
  }

  /** Every formatted row begins with "| " and ends with " |". */
  lemma FormatRowEnds(row: seq<string>)
    ensures |FormatRow(row)| >= 4
    ensures FormatRow(row)[..2] == "| " && FormatRow(row)[|FormatRow(row)| - 2..] == " |"
  {
    var mid := Join(" | ", seq(|row|, i requires 0 <= i < |row| => CellText(row[i])));
    EndsOfWrapped("| ", mid, " |");
  }

  lemma EndsOfWrapped<T>(a: seq<T>, m: seq<T>, b: seq<T>)
    ensures (a + m + b)[..|a|] == a && (a + m + b)[|a + m + b| - |b|..] == b
  {
  }

  /** Every row is padded to `n` cells, its own cells first. */
  lemma MarkdownRows(rows: seq<seq<string>>)
    requires KeptRows(rows) != []
    ensures var kept := KeptRows(rows); var n := MaxCols(kept);
      && |MarkdownLines(rows)| == |kept| + 1
      && MarkdownLines(rows)[0] == FormatRow(Pad(kept[0], n))
      && MarkdownLines(rows)[1] == FormatRow(Rule(n))
      && forall k :: 1 <= k < |kept| ==> MarkdownLines(rows)[k + 1] == FormatRow(Pad(kept[k], n))
  {
    var kept := KeptRows(rows);
    var n := MaxCols(kept);
    var body := seq(|kept| - 1, k requires 0 <= k < |kept| - 1 => FormatRow(Pad(kept[k + 1], n)));
    var lines := [FormatRow(Pad(kept[0], n)), FormatRow(Rule(n))] + body;
    TwoThen(FormatRow(Pad(kept[0], n)), FormatRow(Rule(n)), body);
    assert MarkdownLines(rows) == lines;
    forall k | 1 <= k < |kept| ensures MarkdownLines(rows)[k + 1] == FormatRow(Pad(kept[k], n)) {
      assert lines[k + 1] == body[k - 1];
    }
  }

  lemma TwoThen<T>(a: T, b: T, body: seq<T>)
    ensures |[a, b] + body| == |body| + 2 && ([a, b] + body)[0] == a && ([a, b] + body)[1] == b
    ensures forall k :: 0 <= k < |body| ==> ([a, b] + body)[k + 2] == body[k]
  {
  }

  /** `table_to_markdown` returns "" exactly when no row has a non-empty cell. */
  lemma TableEmptyIff(rows: seq<seq<string>>)
    ensures TableToMarkdown(rows) == [] <==> forall k :: 0 <= k < |rows| ==> !HasText(rows[k])
  {
    var kept := KeptRows(rows);
    if kept != [] {
      var lines := MarkdownLines(rows);
      FormatRowEnds(Pad(kept[0], MaxCols(kept)));
      JoinFirst("\n", lines);
    } else {
      forall k | 0 <= k < |rows| ensures !HasText(rows[k]) {
        if HasText(rows[k]) {
          KeptRowsComplete(rows, k);
        }
      }
    }
  }

  /** The joined text is at least as long as its first piece. */
  lemma JoinFirst(sep: string, xs: seq<string>)
    requires xs != []
    ensures |Join(sep, xs)| >= |xs[0]|
  {
  }

  /** Reading the Markdown back line by line gives the header row, the separator row and
      the body rows, one line each. */
  lemma TableLines(rows: seq<seq<string>>)
    requires KeptRows(rows) != []
    ensures SplitWhere(TableToMarkdown(rows), IsLineFeed) == MarkdownLines(rows)
  {
    var lines := MarkdownLines(rows);
    forall k, j | 0 <= k < |lines| && 0 <= j < |lines[k]| ensures !IsLineFeed(lines[k][j]) {
      FormatRowOneLine(RowOfLine(rows, k));
    }
    assert "\n" == ['\n'];
    SplitJoin(lines, '\n', IsLineFeed);
  }

  /** The row a Markdown line formats. */
  function RowOfLine(rows: seq<seq<string>>, k: nat): (row: seq<string>)
    requires KeptRows(rows) != [] && k < |MarkdownLines(rows)|
    ensures MarkdownLines(rows)[k] == FormatRow(row)
  {
    var kept := KeptRows(rows);
    var n := MaxCols(kept);
    if k == 0 then Pad(kept[0], n) else if k == 1 then Rule(n) else Pad(kept[k - 1], n)
  }

  /** The rule of twenty '=' written under the title. */
  function RuleLine(): (r: string)
    ensures |r| == 20 && forall i :: 0 <= i < |r| ==> r[i] == '='
  {
    seq(20, _ => '=')
  }

  /** The line that carries the article's URL. */
  function UrlLine(url: string): string {
    "URL: " + url
  }

  /** What is written to the article file: the title, the rule, a blank line, the URL
      line, a blank line, then the article text. */
  function SavedText(title: string, url: string, content: string): string {
    title + "\n" + RuleLine() + "\n\n" + UrlLine(url) + "\n\n" + content
  }

  /** The saved text split at line breaks: the header lines, two empty lines, then the
      lines of the content. */
  lemma SavedPieces(title: string, url: string, content: string)
    requires NoneWhere(title, IsLineBreak) && NoneWhere(url, IsLineBreak)
    ensures SplitWhere(SavedText(title, url, content), IsLineBreak)
            == [title] + ([RuleLine()] + ([[]] + ([UrlLine(url)] + ([[]] + SplitWhere(content, IsLineBreak)))))
  {
    var u := UrlLine(url);
    SavedNested(title, RuleLine(), u, content, '\n');
    assert NoneWhere(u, IsLineBreak) by {
      assert forall j :: 4 < j < |u| ==> u[j] == url[j - 5];
    }
    SplitHeader(title, RuleLine(), u, content);
  }

  /** Three one-line pieces, each followed by line feeds, split off the front. */
  lemma SplitHeader(a: string, b: string, c: string, d: string)
    requires NoneWhere(a, IsLineBreak) && NoneWhere(b, IsLineBreak) && NoneWhere(c, IsLineBreak)
    ensures SplitWhere(a + ['\n'] + (b + ['\n'] + ([] + ['\n'] + (c + ['\n'] + ([] + ['\n'] + d)))), IsLineBreak)
            == [a] + ([b] + ([[]] + ([c] + ([[]] + SplitWhere(d, IsLineBreak)))))
  {
    var e: string := [];
    var r4 := e + ['\n'] + d;
    var r3 := c + ['\n'] + r4;
    var r2 := e + ['\n'] + r3;
    var r1 := b + ['\n'] + r2;
    SplitWhereCons(e, '\n', d, IsLineBreak);
    SplitWhereCons(c, '\n', r4, IsLineBreak);
    SplitWhereCons(e, '\n', r3, IsLineBreak);
    SplitWhereCons(b, '\n', r2, IsLineBreak);
    SplitWhereCons(a, '\n', r1, IsLineBreak);
  }

  /** The saved text regrouped line by line. */
  lemma SavedNested(title: string, rule: string, u: string, content: string, nl: char)
    requires nl == '\n'
    ensures title + "\n" + rule + "\n\n" + u + "\n\n" + content
            == title + [nl] + (rule + [nl] + ([] + [nl] + (u + [nl] + ([] + [nl] + content))))
  {
    assert "\n" == [nl] && "\n\n" == [nl, nl];
    Nested(title, rule, u, content, nl);
  }

  lemma Nested<T>(a: seq<T>, b: seq<T>, c: seq<T>, d: seq<T>, n: T)
    ensures a + [n] + b + [n, n] + c + [n, n] + d == a + [n] + (b + [n] + ([] + [n] + (c + [n] + ([] + [n] + d))))
  {
  }

  /** The non-blank lines of the saved text: title, rule and URL line, then the
      non-blank lines of the content. */
  lemma SavedLines(title: string, url: string, content: string)
    requires (title == [] || IsLine(title)) && IsLine(url)
    ensures NonBlankLines(SavedText(title, url, content))
            == (if title == [] then [] else [title]) + [RuleLine(), UrlLine(url)] + NonBlankLines(content)
  {
    var u := UrlLine(url);
    SavedPieces(title, url, content);
    assert IsStripped(u) by {
      assert u[|u| - 1] == url[|url| - 1];
    }
    StripHeader(title, RuleLine(), u, SplitWhere(content, IsLineBreak));
  }

  /** Stripping the pieces of a header: stripped lines stay, empty ones go. */
  lemma StripHeader(a: string, b: string, c: string, p: seq<string>)
    requires IsStripped(a) && b != [] && IsStripped(b) && c != [] && IsStripped(c)
    ensures StripNonEmpty([a] + ([b] + ([[]] + ([c] + ([[]] + p)))))
            == (if a == [] then [] else [a]) + [b, c] + StripNonEmpty(p)
  {
    var e: string := [];
    StripStripped(a);
    StripStripped(b);
    StripStripped(c);
    assert Strip(e) == [];
    StripNonEmptyCons(e, p);
    StripNonEmptyCons(c, [e] + p);
    StripNonEmptyCons(e, [c] + ([e] + p));
    StripNonEmptyCons(b, [e] + ([c] + ([e] + p)));
    StripNonEmptyCons(a, [b] + ([e] + ([c] + ([e] + p))));
  }

  /** The URL line is a "url:" line carrying the URL. */
  lemma UrlLineValue(url: string)
    requires IsLine(url)
    ensures IsUrlLine(UrlLine(url)) && UrlValue(UrlLine(url)) == url
  {
    var u := UrlLine(url);
    assert Lower(u[..4]) == "url:" by {
      assert forall i :: 0 <= i < 4 ==> Lower(u[..4])[i] == LowerChar(u[i]);
    }
    assert u[4..] == [' '] + url;
    assert IsSpace(' ');
    StripPadded([' '], url);
  }

  /** Neither a title that is not a "url:" line nor the rule hides the URL line. */
  lemma RuleNotUrl()
    ensures !IsUrlLine(RuleLine()) && !StartsWithCi(RuleLine(), "title:")
  {
    var r := RuleLine();
    assert Lower(r[..4])[0] == '=';
    assert Lower(r[..6])[0] == '=';
  }

  /** The header `process_txt` reads back from a saved article gives the title and the
      URL that were written, and its body lines are those of the article text. */
  lemma SavedHeaderRoundTrip(title: string, url: string, content: string)
    requires IsLine(title) && !IsUrlLine(title) && !StartsWithCi(title, "title:")
    requires IsLine(url)
    ensures ParseTxt(SavedText(title, url, content)).title == title
    ensures ParseTxt(SavedText(title, url, content)).sourceUrl == url
    ensures BodyLines(NonBlankLines(SavedText(title, url, content))) == KeepBody(NonBlankLines(content))
  {
    SavedLines(title, url, content);
    HeaderOfLines(NonBlankLines(SavedText(title, url, content)), title, url, NonBlankLines(content));
  }

  /** Lines that begin with a title, the rule and a URL line read back as that title and
      URL, and the body is what follows them. */
  lemma HeaderOfLines(lines: seq<string>, title: string, url: string, more: seq<string>)
    requires lines == [title, RuleLine(), UrlLine(url)] + more
    requires !IsUrlLine(title) && !StartsWithCi(title, "title:") && IsLine(url)
    ensures ParseTitle(lines) == title && SourceUrl(lines) == url
    ensures BodyLines(lines) == KeepBody(more)
  {
    HeaderTitle(lines, title, url, more);
    HeaderUrl(lines, title, url, more);
    HeaderBody(lines, title, url, more);
  }

  lemma HeaderTitle(lines: seq<string>, title: string, url: string, more: seq<string>)
    requires lines == [title, RuleLine(), UrlLine(url)] + more && !StartsWithCi(title, "title:")
    ensures ParseTitle(lines) == title
  {
    var rest := [RuleLine(), UrlLine(url)] + more;
    assert lines == [title] + rest;
    ParseTitlePlain(title, rest);
  }

  lemma HeaderUrl(lines: seq<string>, title: string, url: string, more: seq<string>)
    requires lines == [title, RuleLine(), UrlLine(url)] + more && !IsUrlLine(title) && IsLine(url)
    ensures SourceUrl(lines) == url
  {
    RuleNotUrl();
    UrlLineValue(url);
    assert lines[0] == title && lines[1] == RuleLine() && lines[2] == UrlLine(url);
    SourceUrlFirst(lines, 2);
  }

  lemma HeaderBody(lines: seq<string>, title: string, url: string, more: seq<string>)
    requires lines == [title, RuleLine(), UrlLine(url)] + more && IsLine(url)
    ensures BodyLines(lines) == KeepBody(more)
  {
    RuleNotUrl();
    UrlLineValue(url);
    assert lines[1..] == [RuleLine()] + ([UrlLine(url)] + more);
    KeepBodyCons(RuleLine(), [UrlLine(url)] + more);
    KeepBodyCons(UrlLine(url), more);
  }

  /** An empty title leaves the rule as the first line, so the rule is read back as
      the title; the URL is still found. */
  lemma SavedEmptyTitle(url: string, content: string)
    requires IsLine(url)
    ensures ParseTxt(SavedText([], url, content)).title == RuleLine()
    ensures ParseTxt(SavedText([], url, content)).sourceUrl == url
  {
    SavedLines([], url, content);
    var lines := NonBlankLines(SavedText([], url, content));
    var rest := [UrlLine(url)] + NonBlankLines(content);
    assert lines == [RuleLine()] + rest;
    RuleNotUrl();
    ParseTitlePlain(RuleLine(), rest);
    UrlLineValue(url);
    SourceUrlFirst(lines, 1);
  }

  lemma KeepBodyCons(x: string, xs: seq<string>)
    ensures KeepBody([x] + xs) == (if IsBodyLine(x) then [x] else []) + KeepBody(xs)
  {
    assert ([x] + xs)[1..] == xs;
  }
}

=== FILE: indexing.dfy ===
/** experiments/scripts/offline_indexing.py: the JSON lines written by the processing step
    are validated into records (stopping once a limit is reached), the vectors are checked
    for a common dimension, the distance name picks the metric of a new collection, and
    the points are sent in consecutive batches. */
module Indexing {
  import opened Outcomes
  import opened Text

  /** A parsed JSON value. Numbers with a fraction are kept as exact reals. */
  datatype Value =
    | Null
    | Bool(b: bool)
    | Int(i: int)
    | Float(x: real)
    | Str(s: string)
    | Arr(items: seq<Value>)
    | Obj(fields: map<string, Value>)

  /** Python truthiness of a JSON value. */
  predicate Truthy(v: Value) {
    match v
    case Null => false
    case Bool(b) => b
    case Int(i) => i != 0
    case Float(x) => x != 0.0
    case Str(s) => s != []
    case Arr(items) => items != []
    case Obj(fields) => |fields| != 0
  }

  /** `obj.get(key)`: a missing key reads as `None`, like JSON null. */
  function Get(fields: map<string, Value>, key: string): Value {
    if key in fields then fields[key] else Null
  }

  /** `isinstance(x, (int, float))`; `bool` is a subclass of `int` in Python. */
  predicate IsNumber(v: Value) {
    v.Int? || v.Float? || v.Bool?
  }

  /** `float(x)`; for strings the parse is a parameter, None when it raises. */
  function ToFloat(v: Value, parse: string -> Option<real>): Option<real> {
    match v
    case Bool(b) => Some(if b then 1.0 else 0.0)
    case Int(i) => Some(i as real)
    case Float(x) => Some(x)
    case Str(s) => parse(s)
    case _ => None
  }

  /** `[float(x) for x in items]`, None when one conversion raises. */
  function Floats(items: seq<Value>, parse: string -> Option<real>): (r: Option<seq<real>>)
    ensures r.Some? ==> |r.value| == |items|
    ensures r.Some? <==> forall k :: 0 <= k < |items| ==> ToFloat(items[k], parse).Some?
  {
    if items == [] then Some([])
    else match (ToFloat(items[0], parse), Floats(items[1..], parse))
      case (Some(x), Some(xs)) => Some([x] + xs)
      case _ => None
  }

  /** `Record`: the payload is a copy of the whole JSON object. */
  datatype Record = Record(chunkId: string, content: string, payload: map<string, Value>,
                           vector: Option<seq<real>>)

  /** Why `_load_records` raises. */
  datatype LoadError =
    | NotAnObject
    | NoChunkId
    | NoContent
    | NoVector(chunkId: string)
    | NotAVector(chunkId: string)
    | NotANumber(chunkId: string)

  /** `not x or not isinstance(x, str)` fails exactly for a non-empty string. */
  predicate IsText(v: Value) {
    v.Str? && v.s != []
  }

  /** `--vector-field` is used only when it is a non-empty name. */
  predicate UsesVectors(vectorField: Option<string>) {
    vectorField.Some? && vectorField.value != []
  }

  /** One iteration of `_load_records`: the checks on one JSON object. */
  function ReadRecord(v: Value, vectorField: Option<string>, parse: string -> Option<real>)
    : Result<Record, LoadError>
  {
    if !v.Obj? then Err(NotAnObject)
    else
      var id := Get(v.fields, "chunk_id");
      var content := Get(v.fields, "content");
      if !Truthy(id) || !id.Str? then Err(NoChunkId)
      else if !Truthy(content) || !content.Str? then Err(NoContent)
      else if UsesVectors(vectorField) then
        var vec := Get(v.fields, vectorField.value);
        if vec.Null? then Err(NoVector(id.s))
        else if !vec.Arr? || (vec.items != [] && !IsNumber(vec.items[0])) then Err(NotAVector(id.s))
        else match Floats(vec.items, parse)
          case None => Err(NotANumber(id.s))
          case Some(xs) => Ok(Record(id.s, content.s, v.fields, Some(xs)))
      else Ok(Record(id.s, content.s, v.fields, None))
  }

  /** An object is rejected without a vector field exactly when its `chunk_id` or its
      `content` is not a non-empty string; an accepted one keeps both strings and the
      whole object as payload. */
  lemma ReadRecordPlain(v: Value, vectorField: Option<string>, parse: string -> Option<real>)
    requires !UsesVectors(vectorField)
    ensures ReadRecord(v, vectorField, parse).Ok?
            <==> v.Obj? && IsText(Get(v.fields, "chunk_id")) && IsText(Get(v.fields, "content"))
    ensures ReadRecord(v, vectorField, parse).Ok? ==>
              var r := ReadRecord(v, vectorField, parse).value;
              && r.chunkId == Get(v.fields, "chunk_id").s
              && r.content == Get(v.fields, "content").s
              && r.payload == v.fields && r.vector == None
  {
  }

  /** Whatever the vector field, the object, `chunk_id` and `content` checks come first:
      a failing one gives its own error before any vector is looked at, and an accepted
      record had a non-empty string for both fields. */
  lemma ReadRecordFieldsFirst(v: Value, vectorField: Option<string>, parse: string -> Option<real>)
    ensures !v.Obj? ==> ReadRecord(v, vectorField, parse) == Err(NotAnObject)
    ensures v.Obj? && !IsText(Get(v.fields, "chunk_id")) ==>
              ReadRecord(v, vectorField, parse) == Err(NoChunkId)
    ensures v.Obj? && IsText(Get(v.fields, "chunk_id")) && !IsText(Get(v.fields, "content")) ==>
              ReadRecord(v, vectorField, parse) == Err(NoContent)
    ensures ReadRecord(v, vectorField, parse).Ok? ==>
              && v.Obj? && IsText(Get(v.fields, "chunk_id")) && IsText(Get(v.fields, "content"))
              && ReadRecord(v, vectorField, parse).value.chunkId == Get(v.fields, "chunk_id").s
              && ReadRecord(v, vectorField, parse).value.content == Get(v.fields, "content").s
  {
  }

  /** With a vector field, an accepted record carries the converted vector; a missing or
      null field, and a value that is not a list or whose first element is not a number,
      are errors. */
  lemma ReadRecordVector(v: Value, f: string, parse: string -> Option<real>)
    requires f != [] && v.Obj? && IsText(Get(v.fields, "chunk_id")) && IsText(Get(v.fields, "content"))
    ensures var vec := Get(v.fields, f); var r := ReadRecord(v, Some(f), parse);
      && (vec.Null? ==> r == Err(NoVector(Get(v.fields, "chunk_id").s)))
      && (!vec.Null? && (!vec.Arr? || (vec.items != [] && !IsNumber(vec.items[0]))) ==>
            r == Err(NotAVector(Get(v.fields, "chunk_id").s)))
      && (r.Ok? ==> vec.Arr? && r.value.vector == Floats(vec.items, parse)
                    && r.value.vector.Some? && r.value.payload == v.fields)
  {
  }

  /** Only the first element's type is checked: a later string is converted with
      `float`, and fails only when that parse fails. */
  lemma ReadRecordLaterStrings(v: Value, f: string, x: Value, s: string, parse: string -> Option<real>)
    requires f != [] && v.Obj? && IsText(Get(v.fields, "chunk_id")) && IsText(Get(v.fields, "content"))
    requires Get(v.fields, f) == Arr([x, Str(s)]) && IsNumber(x)
    ensures ReadRecord(v, Some(f), parse).Ok? <==> parse(s).Some?
  {
    var items := [x, Str(s)];
    assert items[1] == Str(s);
  }

  /** `len(records) >= limit` after an append. */
  predicate Reached(limit: Option<int>, n: nat) {
    limit.Some? && n >= limit.value
  }

  /** The loop of `_load_records` from the object list `objs` on, with `acc` read so far. */
  function LoadFrom(objs: seq<Value>, vectorField: Option<string>, limit: Option<int>,
                    parse: string -> Option<real>, acc: seq<Record>): Result<seq<Record>, LoadError>
    decreases |objs|
  {
    if objs == [] then Ok(acc)
    else match ReadRecord(objs[0], vectorField, parse)
      case Err(e) => Err(e)
      case Ok(r) =>
        if Reached(limit, |acc| + 1) then Ok(acc + [r])
        else LoadFrom(objs[1..], vectorField, limit, parse, acc + [r])
  }

  /** `_load_records` over the parsed lines of the input file. */
  function LoadRecords(objs: seq<Value>, vectorField: Option<string>, limit: Option<int>,
                       parse: string -> Option<real>): Result<seq<Record>, LoadError> {
    LoadFrom(objs, vectorField, limit, parse, [])
  }

  /** The first `n` objects all pass the checks. */
  predicate AllRead(objs: seq<Value>, n: nat, vectorField: Option<string>, parse: string -> Option<real>)
    requires n <= |objs|
  {
    forall k :: 0 <= k < n ==> ReadRecord(objs[k], vectorField, parse).Ok?
  }

  /** The records read from the first `n` objects, in order. */
  function ReadAll(objs: seq<Value>, n: nat, vectorField: Option<string>, parse: string -> Option<real>)
    : (r: seq<Record>)
    requires n <= |objs| && AllRead(objs, n, vectorField, parse)
    ensures |r| == n
  {
    seq(n, k requires 0 <= k < n => ReadRecord(objs[k], vectorField, parse).value)
  }

  /** What the loop returns is `acc` followed by the records of a prefix of `objs`, and
      it stops early only at the limit. */
  lemma {:induction false} LoadFromShape(objs: seq<Value>, vectorField: Option<string>, limit: Option<int>,
                                         parse: string -> Option<real>, acc: seq<Record>)
    requires LoadFrom(objs, vectorField, limit, parse, acc).Ok?
    ensures var rs := LoadFrom(objs, vectorField, limit, parse, acc).value;
      && |acc| <= |rs| <= |acc| + |objs|
      && rs[..|acc|] == acc
      && AllRead(objs, |rs| - |acc|, vectorField, parse)
      && rs[|acc|..] == ReadAll(objs, |rs| - |acc|, vectorField, parse)
      && (|rs| < |acc| + |objs| ==> Reached(limit, |rs|))
    decreases |objs|
  {
    if objs != [] {
      var r := ReadRecord(objs[0], vectorField, parse).value;
      var acc' := acc + [r];
      if !Reached(limit, |acc| + 1) {
        LoadFromShape(objs[1..], vectorField, limit, parse, acc');
        var rs := LoadFrom(objs, vectorField, limit, parse, acc).value;
        var n := |rs| - |acc|;
        forall k | 0 <= k < n ensures ReadRecord(objs[k], vectorField, parse).Ok? {
          if k > 0 {
            assert objs[k] == objs[1..][k - 1];
          }
        }
        assert rs[|acc|..] == ReadAll(objs, n, vectorField, parse) by {
          forall k | 0 <= k < n
            ensures rs[|acc|..][k] == ReadRecord(objs[k], vectorField, parse).value
          {
            if k > 0 {
              assert rs[|acc|..][k] == rs[|acc'|..][k - 1];
              assert objs[k] == objs[1..][k - 1];
            }
          }
        }
      } else {
        var rs := acc';
        assert rs[|acc|..] == [r];
      }
    }
  }

  /** `_load_records` returns the records of a prefix of the objects, in order; with a
      limit of at least 1 it returns at most that many, and it returns fewer than all
      objects only when the limit was reached. */
  lemma LoadRecordsPrefix(objs: seq<Value>, vectorField: Option<string>, limit: Option<int>,
                          parse: string -> Option<real>)
    requires LoadRecords(objs, vectorField, limit, parse).Ok?
    ensures var rs := LoadRecords(objs, vectorField, limit, parse).value;
      && |rs| <= |objs|
      && AllRead(objs, |rs|, vectorField, parse)
      && rs == ReadAll(objs, |rs|, vectorField, parse)
      && (|rs| < |objs| ==> Reached(limit, |rs|))
      && (limit.Some? && limit.value >= 1 ==> |rs| <= limit.value)
  {
    LoadFromShape(objs, vectorField, limit, parse, []);
    var rs := LoadRecords(objs, vectorField, limit, parse).value;
    assert rs[0..] == rs;
    if limit.Some? && limit.value >= 1 && |rs| > limit.value {
      LoadStopsAtLimit(objs, vectorField, limit.value, parse);
    }
  }

  /** When the first `n` objects pass and `n` is the limit, exactly they are loaded,
      whatever follows them. */
  lemma LoadStopsAtLimit(objs: seq<Value>, vectorField: Option<string>, n: nat, parse: string -> Option<real>)
    requires 1 <= n <= |objs| && AllRead(objs, n, vectorField, parse)
    ensures LoadRecords(objs, vectorField, Some(n), parse) == Ok(ReadAll(objs, n, vectorField, parse))
  {
    LoadFromRun(objs, vectorField, Some(n), parse, [], n);
    var none: seq<Record> := [];
    assert none + ReadAll(objs, n, vectorField, parse) == ReadAll(objs, n, vectorField, parse);
  }

  /** Running through `n` passing objects without reaching the limit before the last of
      them appends their records. */
  lemma {:induction false} LoadFromRun(objs: seq<Value>, vectorField: Option<string>, limit: Option<int>,
                                       parse: string -> Option<real>, acc: seq<Record>, n: nat)
    requires 1 <= n <= |objs| && AllRead(objs, n, vectorField, parse)
    requires forall j :: |acc| < j < |acc| + n ==> !Reached(limit, j)
    requires Reached(limit, |acc| + n) || n == |objs|
    ensures LoadFrom(objs, vectorField, limit, parse, acc) == Ok(acc + ReadAll(objs, n, vectorField, parse))
    decreases n
  {
    var r := ReadRecord(objs[0], vectorField, parse).value;
    var acc' := acc + [r];
    if n == 1 {
      if !Reached(limit, |acc| + 1) {
        assert objs[1..] == [];
      }
      assert ReadAll(objs, 1, vectorField, parse) == [r];
    } else {
      assert !Reached(limit, |acc| + 1);
      ReadAllCons(objs, n, vectorField, parse);
      LoadFromRun(objs[1..], vectorField, limit, parse, acc', n - 1);
      assert acc' + ReadAll(objs[1..], n - 1, vectorField, parse) == acc + ReadAll(objs, n, vectorField, parse);
    }
  }

  /** The records of `n` passing objects are the first one's followed by the rest's. */
  lemma ReadAllCons(objs: seq<Value>, n: nat, vectorField: Option<string>, parse: string -> Option<real>)
    requires 1 <= n <= |objs| && AllRead(objs, n, vectorField, parse)
    ensures AllRead(objs[1..], n - 1, vectorField, parse)
    ensures ReadAll(objs, n, vectorField, parse)
            == [ReadRecord(objs[0], vectorField, parse).value] + ReadAll(objs[1..], n - 1, vectorField, parse)
  {
    forall k | 0 <= k < n - 1 ensures ReadRecord(objs[1..][k], vectorField, parse).Ok? {
      assert objs[1..][k] == objs[k + 1];
    }
  }

  /** Without a limit, input whose objects all pass is loaded completely. */
  lemma LoadAll(objs: seq<Value>, vectorField: Option<string>, parse: string -> Option<real>)
    requires objs != [] && AllRead(objs, |objs|, vectorField, parse)
    ensures LoadRecords(objs, vectorField, None, parse) == Ok(ReadAll(objs, |objs|, vectorField, parse))
  {
    LoadFromRun(objs, vectorField, None, parse, [], |objs|);
    var none: seq<Record> := [];
    assert none + ReadAll(objs, |objs|, vectorField, parse) == ReadAll(objs, |objs|, vectorField, parse);
  }

  /** A limit of 1 or less still loads the first record of non-empty input. */
  lemma LoadLimitAtMostOne(objs: seq<Value>, vectorField: Option<string>, limit: int,
                           parse: string -> Option<real>)
    requires limit <= 1 && objs != [] && ReadRecord(objs[0], vectorField, parse).Ok?
    ensures LoadRecords(objs, vectorField, Some(limit), parse)
            == Ok([ReadRecord(objs[0], vectorField, parse).value])
  {
    var none: seq<Record> := [];
    assert none + [ReadRecord(objs[0], vectorField, parse).value] == [ReadRecord(objs[0], vectorField, parse).value];
  }

  /** The first failing object is reported when the limit is not reached before it. */
  lemma {:induction false} LoadRejects(objs: seq<Value>, vectorField: Option<string>, limit: Option<int>,
                                       parse: string -> Option<real>, acc: seq<Record>, k: nat)
    requires k < |objs| && AllRead(objs, k, vectorField, parse)
    requires ReadRecord(objs[k], vectorField, parse).Err?
    requires forall j :: |acc| < j <= |acc| + k ==> !Reached(limit, j)
    ensures LoadFrom(objs, vectorField, limit, parse, acc) == Err(ReadRecord(objs[k], vectorField, parse).error)
    decreases k
  {
    if k > 0 {
      var r := ReadRecord(objs[0], vectorField, parse).value;
      assert !Reached(limit, |acc| + 1);
      forall j | 0 <= j < k - 1 ensures ReadRecord(objs[1..][j], vectorField, parse).Ok? {
        assert objs[1..][j] == objs[j + 1];
      }
      assert objs[1..][k - 1] == objs[k];
      LoadRejects(objs[1..], vectorField, limit, parse, acc + [r], k - 1);
    }
  }

  /** With a vector field in use, every loaded record has a vector, so the
      "missing vector" error of `main` cannot occur. */
  lemma LoadedVectors(objs: seq<Value>, f: string, limit: Option<int>, parse: string -> Option<real>, k: nat)
    requires f != [] && LoadRecords(objs, Some(f), limit, parse).Ok?
    requires k < |LoadRecords(objs, Some(f), limit, parse).value|
    ensures LoadRecords(objs, Some(f), limit, parse).value[k].vector.Some?
  {
    LoadRecordsPrefix(objs, Some(f), limit, parse);
    ReadRecordVector(objs[k], f, parse);
  }

  /** The metrics a new collection can use. */
  datatype Distance = Cosine | Dot | Euclid

  function DistanceName(d: Distance): string {
    match d
    case Cosine => "cosine"
    case Dot => "dot"
    case Euclid => "euclid"
  }

  /** The `--distance` table, looked up with the lower-cased name. */
  function ParseDistance(name: string): Option<Distance> {
    var n := Lower(name);
    if n == "cosine" then Some(Cosine)
    else if n == "dot" then Some(Dot)
    else if n == "euclid" then Some(Euclid)
    else None
  }

  /** A name selects a metric exactly when it is that metric's name in some case. */
  lemma ParseDistanceIff(name: string, d: Distance)
    ensures ParseDistance(name) == Some(d) <==> Lower(name) == DistanceName(d)
  {
  }

  /** Every metric is selected by its own name. */
  lemma ParseDistanceName(d: Distance)
    ensures ParseDistance(DistanceName(d)) == Some(d)
  {
    var n := DistanceName(d);
    assert Lower(n) == n by {
      assert forall i :: 0 <= i < |n| ==> Lower(n)[i] == LowerChar(n[i]);
    }
  }

  /** What `_ensure_qdrant_collection` does to the collection. */
  datatype CollectionStep = KeepExisting | Create(size: nat, distance: Distance)

  datatype CollectionError = BadDistance

  /** Whether the existing collection was deleted, and then the step taken or the error
      raised. Whether the collection exists is a parameter. */
  datatype CollectionOutcome = CollectionOutcome(deleted: bool, result: Result<CollectionStep, CollectionError>)

  function EnsureCollection(present: bool, size: nat, distance: string, recreate: bool): CollectionOutcome {
    var deleted := recreate && present;
    if present && !deleted then CollectionOutcome(false, Ok(KeepExisting))
    else match ParseDistance(distance)
      case None => CollectionOutcome(deleted, Err(BadDistance))
      case Some(d) => CollectionOutcome(deleted, Ok(Create(size, d)))
  }

  /** The distance name is only checked when a collection is to be created: an existing
      collection is kept whatever the name, and with `recreate` a bad name fails only
      after the old collection was deleted. */
  lemma EnsureCollectionChecks(present: bool, size: nat, distance: string, recreate: bool)
    ensures var o := EnsureCollection(present, size, distance, recreate);
      && (o.result == Ok(KeepExisting) <==> present && !recreate)
      && (o.result.Err? <==> (!present || recreate) && ParseDistance(distance).None?)
      && (o.deleted <==> present && recreate)
      && (o.result.Ok? && o.result.value.Create? ==>
            o.result.value.size == size && Some(o.result.value.distance) == ParseDistance(distance))
  {
  }

  /** All vectors have the first one's length. */
  predicate SameDimension(vectors: seq<seq<real>>)
    requires vectors != []
  {
    forall i :: 0 <= i < |vectors| ==> |vectors[i]| == |vectors[0]|
  }

  datatype DimensionError = InconsistentDimensions

  /** The dimension check of `main`: the vector size is the first vector's length, and any
      vector of another length is an error. */
  method CheckDimensions(vectors: seq<seq<real>>) returns (r: Result<nat, DimensionError>)
    requires vectors != []
    ensures r.Ok? <==> SameDimension(vectors)
    ensures r.Ok? ==> r.value == |vectors[0]|
  {
    var size := |vectors[0]|;
    var i := 0;
    while i < |vectors|
      invariant 0 <= i <= |vectors|
      invariant forall j :: 0 <= j < i ==> |vectors[j]| == size
    {
      if |vectors[i]| != size {
        return Err(InconsistentDimensions);
      }
      i := i + 1;
    }
    return Ok(size);
  }

  /** Consecutive slices of `size` elements, the last one possibly shorter:
      `xs[start:min(start + size, len(xs))]` for `start` in `range(0, len(xs), size)`. */
  function Batches<T>(xs: seq<T>, size: nat): seq<seq<T>>
    requires size > 0
    decreases |xs|
  {
    if xs == [] then []
    else if |xs| <= size then [xs]
    else [xs[..size]] + Batches(xs[size..], size)
  }

  function Min(a: int, b: int): int {
    if a <= b then a else b
  }

  /** The batches put back together are the input, in order. */
  lemma {:induction false} BatchesConcat<T>(xs: seq<T>, size: nat)
    requires size > 0
    ensures Concat(Batches(xs, size)) == xs
    decreases |xs|
  {
    if |xs| > size {
      BatchesConcat(xs[size..], size);
      assert xs[..size] + xs[size..] == xs;
    } else if xs != [] {
      AppendEmpty(xs);
    }
  }

  /** There are just enough batches to cover the input. */
  lemma {:induction false} BatchesCount<T>(xs: seq<T>, size: nat)
    requires size > 0
    ensures var bs := Batches(xs, size);
      && (xs == [] <==> bs == [])
      && (bs != [] ==> (|bs| - 1) * size < |xs| <= |bs| * size)
    decreases |xs|
  {
    if |xs| > size {
      var bs := Batches(xs, size);
      var rest := Batches(xs[size..], size);
      BatchesCount(xs[size..], size);
      assert |bs| == |rest| + 1;
      assert |bs| * size == |rest| * size + size;
      assert (|bs| - 1) * size == (|rest| - 1) * size + size;
    }
  }

  /** Batch `k` is the slice from `k * size` up to `(k + 1) * size` or the end. */
  lemma {:induction false} BatchAt<T>(xs: seq<T>, size: nat, k: nat)
    requires size > 0 && k < |Batches(xs, size)|
    ensures k * size < |xs| && Batches(xs, size)[k] == xs[k * size..Min((k + 1) * size, |xs|)]
    decreases k
  {
    if k > 0 {
      assert |xs| > size;
      BatchAt(xs[size..], size, k - 1);
      BatchStep(xs, size, k);
    }
  }

  /** One batch further into `xs` is one batch further into `xs[size..]`. */
  lemma BatchStep<T>(xs: seq<T>, size: nat, k: nat)
    requires 0 < size < |xs| && k > 0
    requires (k - 1) * size < |xs| - size
    ensures k * size < |xs|
    ensures xs[size..][(k - 1) * size..Min(k * size, |xs| - size)] == xs[k * size..Min((k + 1) * size, |xs|)]
  {
    assert k * size == (k - 1) * size + size;
    assert (k + 1) * size == k * size + size;
    SliceWithin(xs, size, |xs|, (k - 1) * size, Min(k * size, |xs| - size));
  }

  /** A point sent to the collection: the id derived from the chunk id (`uuid5` is a
      parameter), the vector and the record's payload. */
  datatype Point = Point(id: string, vector: seq<real>, payload: map<string, Value>)

  datatype UpsertError = LengthMismatch | ZeroBatchSize

  /** The records paired with their vectors, in order. */
  function Points(records: seq<Record>, vectors: seq<seq<real>>, stableId: string -> string): (ps: seq<Point>)
    requires |records| == |vectors|
    ensures |ps| == |records|
  {
    seq(|records|, i requires 0 <= i < |records| => Point(stableId(records[i].chunkId), vectors[i], records[i].payload))
  }

  /** `_upsert_qdrant`: the batches of points it sends, in order. A zero batch size makes
      `range` raise; a negative one makes the range empty, so nothing is sent. */
  function Upsert(records: seq<Record>, vectors: seq<seq<real>>, batchSize: int, stableId: string -> string)
    : Result<seq<seq<Point>>, UpsertError>
  {
    if |records| != |vectors| then Err(LengthMismatch)
    else if batchSize == 0 then Err(ZeroBatchSize)
    else if batchSize < 0 then Ok([])
    else Ok(Batches(Points(records, vectors, stableId), batchSize))
  }

  /** Upserting fails exactly on a length mismatch or a zero batch size; with a positive
      batch size every point is sent once, in order, in batches of at most that size. */
  lemma UpsertSendsAll(records: seq<Record>, vectors: seq<seq<real>>, batchSize: int,
                       stableId: string -> string)
    ensures Upsert(records, vectors, batchSize, stableId).Err? <==> |records| != |vectors| || batchSize == 0
    ensures |records| == |vectors| && batchSize > 0 ==>
              var bs := Upsert(records, vectors, batchSize, stableId).value;
              && Concat(bs) == Points(records, vectors, stableId)
              && forall k :: 0 <= k < |bs| ==> 0 < |bs[k]| <= batchSize
    ensures |records| == |vectors| && batchSize < 0 ==> Upsert(records, vectors, batchSize, stableId) == Ok([])
  {
    if |records| == |vectors| && batchSize > 0 {
      var ps := Points(records, vectors, stableId);
      var bs := Batches(ps, batchSize);
      BatchesConcat(ps, batchSize);
      forall k | 0 <= k < |bs| ensures 0 < |bs[k]| <= batchSize {
        BatchAt(ps, batchSize, k);
      }
    }
  }

  datatype VectorError = MissingVector

  /** The vectors `main` indexes: those read with the records when a vector field is in
      use, otherwise what the embedding model (a parameter) returns for the contents. */
  function VectorsOf(records: seq<Record>, vectorField: Option<string>,
                     encode: seq<string> -> seq<seq<real>>): Result<seq<seq<real>>, VectorError>
  {
    if UsesVectors(vectorField) then
      if exists i :: 0 <= i < |records| && records[i].vector.None? then Err(MissingVector)
      else Ok(seq(|records|, i requires 0 <= i < |records| => records[i].vector.value))
    else Ok(encode(seq(|records|, i requires 0 <= i < |records| => records[i].content)))
  }

  /** For records loaded with the same vector field, the vectors come from the records
      themselves, one per record. */
  lemma LoadedVectorsOf(objs: seq<Value>, f: string, limit: Option<int>, parse: string -> Option<real>,
                        encode: seq<string> -> seq<seq<real>>)
    requires f != [] && LoadRecords(objs, Some(f), limit, parse).Ok?
    ensures var rs := LoadRecords(objs, Some(f), limit, parse).value;
      && VectorsOf(rs, Some(f), encode).Ok?
      && |VectorsOf(rs, Some(f), encode).value| == |rs|
      && forall i :: 0 <= i < |rs| ==> Some(VectorsOf(rs, Some(f), encode).value[i]) == rs[i].vector
  {
    var rs := LoadRecords(objs, Some(f), limit, parse).value;
    forall i | 0 <= i < |rs| ensures rs[i].vector.Some? {
      LoadedVectors(objs, f, limit, parse, i);
    }
  }
}

=== FILE: normalizer.dfy ===
/** The text normaliser `clean_text_basic` (experiments/scripts/01_data_processing.py):
    whitespace runs collapse to one space, non-printable characters are deleted, and the
    result is stripped. Every call site cleans before splitting into sentences. */
module Normalizer {
  import opened Text

  /** The ASCII space is the only whitespace character left in `s`. */
  predicate OnlyPlainSpaces(s: string) {
    forall i :: 0 <= i < |s| && IsSpace(s[i]) ==> s[i] == ' '
  }

  predicate NoDoubleSpace(s: string) {
    forall i :: 0 <= i < |s| - 1 ==> !(s[i] == ' ' && s[i + 1] == ' ')
  }

  predicate AllPrintable(s: string) {
    forall i :: 0 <= i < |s| ==> IsPrintable(s[i])
  }

  /** A character that carries content: printable and not whitespace. */
  predicate IsVisible(c: char) {
    IsPrintable(c) && !IsSpace(c)
  }

  /** The visible characters of `s`, in order. */
  function Visible(s: string): string {
    if s == [] then [] else (if IsVisible(s[0]) then [s[0]] else []) + Visible(s[1..])
  }

  lemma {:induction false} VisibleAppend(a: string, b: string)
    ensures Visible(a + b) == Visible(a) + Visible(b)
  {
    if a != [] {
      assert (a + b)[1..] == a[1..] + b;
      VisibleAppend(a[1..], b);
    } else {
      assert a + b == b;
    }
  }

  lemma {:induction false} VisibleOfSpaces(s: string)
    requires AllSpace(s)
    ensures Visible(s) == []
  {
    if s != [] {
      VisibleOfSpaces(s[1..]);
    }
  }

  /** `re.sub(r'\s+', ' ', s)`: every maximal run of whitespace becomes one space. */
  function CollapseSpaces(s: string): (r: string)
    ensures r == [] <==> s == []
    ensures s != [] ==> (r[0] == ' ' <==> IsSpace(s[0]))
    decreases |s|
  {
    if s == [] then []
    else if IsSpace(s[0]) then [' '] + CollapseSpaces(TrimStart(s[1..]))
    else [s[0]] + CollapseSpaces(s[1..])
  }

  /** Every whitespace run becomes the ASCII space. */
  lemma {:induction false} CollapsePlainSpaces(s: string)
    ensures OnlyPlainSpaces(CollapseSpaces(s))
    decreases |s|
  {
    if s != [] {
      if IsSpace(s[0]) {
        CollapsePlainSpaces(TrimStart(s[1..]));
      } else {
        CollapsePlainSpaces(s[1..]);
      }
    }
  }

  /** A run is collapsed whole, so no two spaces end up side by side. */
  lemma {:induction false} CollapseNoDoubleSpace(s: string)
    ensures NoDoubleSpace(CollapseSpaces(s))
    decreases |s|
  {
    if s != [] {
      if IsSpace(s[0]) {
        CollapseNoDoubleSpace(TrimStart(s[1..]));
      } else {
        CollapseNoDoubleSpace(s[1..]);
      }
    }
  }

  /** Collapsing keeps every visible character, in order. */
  lemma {:induction false} CollapseKeepsVisible(s: string)
    ensures Visible(CollapseSpaces(s)) == Visible(s)
    decreases |s|
  {
    if s != [] {
      if IsSpace(s[0]) {
        var t := TrimStart(s[1..]);
        TrimStartSlice(s[1..]);
        CollapseKeepsVisible(t);
        assert s[1..] == s[1..][..|s| - 1 - |t|] + t;
        VisibleAppend(s[1..][..|s| - 1 - |t|], t);
        VisibleOfSpaces(s[1..][..|s| - 1 - |t|]);
        VisibleAppend([' '], CollapseSpaces(t));
      } else {
        CollapseKeepsVisible(s[1..]);
        VisibleAppend([s[0]], CollapseSpaces(s[1..]));
      }
    }
  }

  /** Collapsing adds only the ASCII space, which is printable. */
  lemma {:induction false} CollapseKeepsPrintable(s: string)
    requires AllPrintable(s)
    ensures AllPrintable(CollapseSpaces(s))
    decreases |s|
  {
    if s != [] {
      if IsSpace(s[0]) {
        var t := TrimStart(s[1..]);
        TrimStartSlice(s[1..]);
        assert forall i :: 0 <= i < |t| ==> t[i] == s[|s| - |t| + i];
        CollapseKeepsPrintable(t);
      } else {
        CollapseKeepsPrintable(s[1..]);
      }
    }
  }

  /** A string already in collapsed form is left alone. */
  lemma {:induction false} CollapseOfCollapsed(s: string)
    requires OnlyPlainSpaces(s) && NoDoubleSpace(s)
    ensures CollapseSpaces(s) == s
    decreases |s|
  {
    if s != [] {
      if IsSpace(s[0]) {
        assert s[1..] == [] || !IsSpace(s[1]);
        assert TrimStart(s[1..]) == s[1..];
      }
      CollapseOfCollapsed(s[1..]);
    }
  }

  /** `"".join(c for c in s if c.isprintable())` */
  function KeepPrintable(s: string): (r: string)
    ensures AllPrintable(r)
    ensures AllPrintable(s) ==> r == s
    ensures OnlyPlainSpaces(s) ==> OnlyPlainSpaces(r)
  {
    if s == [] then []
    else if IsPrintable(s[0]) then [s[0]] + KeepPrintable(s[1..])
    else KeepPrintable(s[1..])
  }

  lemma {:induction false} KeepPrintableKeepsVisible(s: string)
    ensures Visible(KeepPrintable(s)) == Visible(s)
  {
    if s != [] {
      KeepPrintableKeepsVisible(s[1..]);
      if IsPrintable(s[0]) {
        VisibleAppend([s[0]], KeepPrintable(s[1..]));
      }
    }
  }

  lemma StripKeepsVisible(s: string)
    ensures Visible(Strip(s)) == Visible(s)
  {
    var a := LeadingSpaces(s);
    var b := a + |Strip(s)|;
    StripIsSlice(s);
    StripRemovesSpaces(s);
    SplitThree(s, a, b);
    VisibleOfPadded(s[..a], s[a..b], s[b..]);
  }

  /** Whitespace around a text adds no visible character. */
  lemma VisibleOfPadded(pre: string, mid: string, post: string)
    requires AllSpace(pre) && AllSpace(post)
    ensures Visible(pre + mid + post) == Visible(mid)
  {
    VisibleAppend(pre + mid, post);
    VisibleAppend(pre, mid);
    VisibleOfSpaces(pre);
    VisibleOfSpaces(post);
  }

  /** `clean_text_basic(text)`: empty input gives the empty string; the result is
      stripped, printable, and its only whitespace is single ASCII spaces, so it never
      contains a line break. */
  function CleanText(text: string): (r: string)
    ensures text == [] ==> r == []
    ensures IsStripped(r)
    ensures AllPrintable(r)
    ensures OnlyPlainSpaces(r)
    ensures '\n' !in r
  {
    if text == [] then []
    else
      var k := KeepPrintable(CollapseSpaces(text));
      CollapsePlainSpaces(text);
      var r := Strip(k);
      StripIsSlice(k);
      assert forall i :: 0 <= i < |r| ==> r[i] == k[LeadingSpaces(k) + i];
      r
  }

  /** Cleaning deletes nothing but whitespace and non-printable characters. */
  lemma CleanKeepsVisible(text: string)
    ensures Visible(CleanText(text)) == Visible(text)
  {
    if text != [] {
      var c := CollapseSpaces(text);
      CollapseKeepsVisible(text);
      KeepPrintableKeepsVisible(c);
      StripKeepsVisible(KeepPrintable(c));
    }
  }

  /** Text with at least one visible character never cleans to the empty string. */
  lemma CleanNonEmpty(text: string)
    requires Visible(text) != []
    ensures CleanText(text) != []
  {
    CleanKeepsVisible(text);
  }

  /** Cleaning printable text never leaves two adjacent spaces. */
  lemma CleanOfPrintable(s: string)
    requires AllPrintable(s)
    ensures NoDoubleSpace(CleanText(s))
  {
    if s != [] {
      var c := CollapseSpaces(s);
      CollapseKeepsPrintable(s);
      assert KeepPrintable(c) == c;
      CollapseNoDoubleSpace(s);
      StripIsSlice(c);
      NoDoubleSpaceSlice(c, LeadingSpaces(c), LeadingSpaces(c) + |Strip(c)|);
    }
  }

  lemma NoDoubleSpaceSlice(s: string, a: nat, b: nat)
    requires a <= b <= |s| && NoDoubleSpace(s)
    ensures NoDoubleSpace(s[a..b])
  {
    assert forall i :: 0 <= i < b - a ==> s[a..b][i] == s[a + i];
  }

  /** Cleaning twice gives the same as cleaning once exactly when the first result has
      no two adjacent spaces. A deleted non-printable character between two spaces is
      what leaves such a pair. */
  lemma CleanIdempotentIff(text: string)
    ensures CleanText(CleanText(text)) == CleanText(text) <==> NoDoubleSpace(CleanText(text))
  {
    var r := CleanText(text);
    if NoDoubleSpace(r) {
      if r != [] {
        CollapseOfCollapsed(r);
        StripStripped(r);
      }
    } else {
      CleanOfPrintable(r);
    }
  }

  /** `clean_text_basic` is not idempotent: "a \0 b" cleans to "a  b", which cleans to "a b". */
  lemma CleanNotIdempotent()
    ensures CleanText("a \U{0} b") == "a  b"
    ensures CleanText(CleanText("a \U{0} b")) == "a b"
  {
    var z := '\U{0}';
    assert IsVisible('a') && IsVisible('b') && !IsPrintable(z) && !IsSpace(z);
    CleanFirstPass('a', 'b', z);
    CleanSecondPass('a', 'b');
  }

  lemma CollapseVisibleCons(c: char, s: string)
    requires !IsSpace(c)
    ensures CollapseSpaces([c] + s) == [c] + CollapseSpaces(s)
  {
    assert ([c] + s)[1..] == s;
  }

  lemma CollapseSpaceCons(s: string)
    ensures CollapseSpaces([' '] + s) == [' '] + CollapseSpaces(TrimStart(s))
  {
    assert IsSpace(' ');
    assert ([' '] + s)[1..] == s;
  }

  lemma KeepPrintableCons(c: char, s: string)
    ensures KeepPrintable([c] + s) == (if IsPrintable(c) then [c] else []) + KeepPrintable(s)
  {
    assert ([c] + s)[1..] == s;
  }

  /** A non-printable character between two spaces is deleted after collapsing, and
      leaves the two spaces side by side. */
  lemma CleanFirstPass(a: char, b: char, z: char)
    requires IsVisible(a) && IsVisible(b) && !IsPrintable(z) && !IsSpace(z)
    ensures CleanText([a, ' ', z, ' ', b]) == [a, ' ', ' ', b]
  {
    CollapseFirstPass(a, b, z);
    KeepFirstPass(a, b, z);
    StripStripped([a, ' ', ' ', b]);
  }

  lemma CollapseFirstPass(a: char, b: char, z: char)
    requires !IsSpace(a) && !IsSpace(b) && !IsSpace(z)
    ensures CollapseSpaces([a, ' ', z, ' ', b]) == [a, ' ', z, ' ', b]
  {
    var s := [a, ' ', z, ' ', b];
    assert OnlyPlainSpaces(s);
    assert NoDoubleSpace(s);
    CollapseOfCollapsed(s);
  }

  lemma KeepFirstPass(a: char, b: char, z: char)
    requires IsPrintable(a) && IsPrintable(b) && !IsPrintable(z)
    ensures KeepPrintable([a, ' ', z, ' ', b]) == [a, ' ', ' ', b]
  {
    var s1 := [b];
    var s2 := [' '] + s1;
    var s3 := [z] + s2;
    var s4 := [' '] + s3;
    assert IsPrintable(' ');
    KeepPrintableCons(b, []);
    AppendEmpty(s1);
    KeepPrintableCons(' ', s1);
    KeepPrintableCons(z, s2);
    KeepPrintableCons(' ', s3);
    KeepPrintableCons(a, s4);
    assert [a] + s4 == [a, ' ', z, ' ', b];
    assert [a] + ([' '] + s2) == [a, ' ', ' ', b];
  }

  /** Cleaning the result again collapses the pair. */
  lemma CleanSecondPass(a: char, b: char)
    requires IsVisible(a) && IsVisible(b)
    ensures CleanText([a, ' ', ' ', b]) == [a, ' ', b]
  {
    CollapseSecondPass(a, b);
    var t := [a, ' ', b];
    assert IsPrintable(' ');
    assert AllPrintable(t);
    StripStripped(t);
  }

  lemma CollapseSecondPass(a: char, b: char)
    requires !IsSpace(a) && !IsSpace(b)
    ensures CollapseSpaces([a, ' ', ' ', b]) == [a, ' ', b]
  {
    var s1 := [b];
    var s2 := [' '] + s1;
    var s3 := [' '] + s2;
    assert IsSpace(' ');
    CollapseVisibleCons(b, []);
    AppendEmpty(s1);
    assert TrimStart(s2) == s1;
    CollapseSpaceCons(s2);
    CollapseVisibleCons(a, s3);
    assert [a] + s3 == [a, ' ', ' ', b];
    assert [a] + ([' '] + s1) == [a, ' ', b];
  }
}

=== FILE: outcomes.dfy ===
/** Optional values and success/error results, used wherever the scripts return `None`
    or raise an exception that the caller does not catch. */
module Outcomes {

  datatype Option<+T> = None | Some(value: T)

  datatype Result<+T, +E> = Ok(value: T) | Err(error: E)
}

=== FILE: records.dfy ===
/** The chunk records `process_pdf`, `process_excel`, `process_txt` and `process_docx`
    build in experiments/scripts/01_data_processing.py. Chunks shorter than
    `MIN_CHUNK_SIZE` are dropped (table rows excepted), but the chunk index `idx` still
    counts them, so the ids of kept chunks can have gaps. Each record carries its length
    and an anchor: the chunk up to its first 。！？, or its first 30 characters. */
module Records {
  import opened Outcomes
  import opened Text
  import opened Normalizer
  import opened Sentences
  import opened Chunking
  import opened Sections
  import opened TxtHeader

  /** Chunks shorter than this are dropped. */
  const MIN_CHUNK_SIZE: nat := 50

  /** Length of the anchor when a chunk has no sentence-ending punctuation. */
  const ANCHOR_FALLBACK: nat := 30

  const TABLE_SECTION: string := "故障日志表"
  const DOCX_SECTION: string := "Word文档"

  datatype FileType = Pdf | Table | Txt | Docx

  /** The `file_type` string of a record. */
  function FileTypeName(t: FileType): string {
    match t
    case Pdf => "pdf"
    case Table => "table"
    case Txt => "txt"
    case Docx => "docx"
  }

  /** One line of the output: `page_num` is the page for PDFs, the row for tables and the
      chunk index plus one otherwise; only plain-text records have a `source_url`. */
  datatype ChunkRecord = ChunkRecord(
    docId: string, chunkId: string, title: string, source: string, fileType: FileType,
    pageNum: nat, sectionTitle: string, content: string, anchorText: string, chunkLen: nat,
    sourceUrl: Option<string>)

  /** The fields every record of one document shares. */
  datatype Origin = Origin(docId: string, title: string, source: string, fileType: FileType,
                           section: string, sourceUrl: Option<string>)

  function MakeRecord(o: Origin, chunkId: string, pageNum: nat, content: string, anchor: string): ChunkRecord {
    ChunkRecord(o.docId, chunkId, o.title, o.source, o.fileType, pageNum, o.section, content, anchor,
                |content|, o.sourceUrl)
  }

  /** The anchor of a chunk: `re.match(r'[^。！？]*[。！？]', c)` when it matches, else `c[:30]`.
      It is a prefix of the chunk; when the chunk has punctuation it is the shortest
      prefix ending in punctuation. */
  function Anchor(content: string): (r: string)
    ensures r <= content
    ensures NoneWhere(content, IsPunct) ==> r == Take(content, ANCHOR_FALLBACK)
    ensures !NoneWhere(content, IsPunct) ==>
              r != [] && IsPunct(r[|r| - 1]) && NoneWhere(r[..|r| - 1], IsPunct)
  {
    var i := FirstWhere(content, IsPunct);
    if i < |content| then content[..i + 1] else Take(content, ANCHOR_FALLBACK)
  }

  /** `f"{doc_id}_{page_num}_{idx}"` */
  function PdfChunkId(docId: string, page: nat, idx: nat): string {
    docId + "_" + NatToString(page) + "_" + NatToString(idx)
  }

  /** `f"{doc_id}_row_{n}"`, `f"{doc_id}_txt_{n}"` and `f"{doc_id}_docx_{n}"` */
  function TaggedId(docId: string, tag: string, n: nat): string {
    docId + tag + NatToString(n)
  }

  predicate IsUnderscore(c: char) {
    c == '_'
  }

  lemma DigitsSplit(m: nat, n: nat)
    ensures SplitWhere(NatToString(m) + "_" + NatToString(n), IsUnderscore) == [NatToString(m), NatToString(n)]
  {
    var a, b := NatToString(m), NatToString(n);
    assert a + "_" + b == a + ['_'] + b;
    SplitWhereCons(a, '_', b, IsUnderscore);
    assert FirstWhere(b, IsUnderscore) == |b|;
  }

  /** Document ids are MD5 digests of equal length; among them a PDF chunk id names its
      document, page and chunk index exactly. */
  lemma PdfChunkIdInjective(d1: string, p1: nat, i1: nat, d2: string, p2: nat, i2: nat)
    requires |d1| == |d2|
    ensures PdfChunkId(d1, p1, i1) == PdfChunkId(d2, p2, i2) <==> d1 == d2 && p1 == p2 && i1 == i2
  {
    if PdfChunkId(d1, p1, i1) == PdfChunkId(d2, p2, i2) {
      var s := PdfChunkId(d1, p1, i1);
      assert s[..|d1|] == d1;
      assert PdfChunkId(d2, p2, i2)[..|d2|] == d2;
      var r1 := NatToString(p1) + "_" + NatToString(i1);
      var r2 := NatToString(p2) + "_" + NatToString(i2);
      assert s == d1 + "_" + r1;
      assert PdfChunkId(d2, p2, i2) == d2 + "_" + r2;
      assert r1 == s[|d1| + 1..] == r2;
      DigitsSplit(p1, i1);
      DigitsSplit(p2, i2);
      NatToStringInjective(p1, p2);
      NatToStringInjective(i1, i2);
    }
  }

  /** A tagged id names its document and number exactly. */
  lemma TaggedIdInjective(d1: string, m: nat, d2: string, n: nat, tag: string)
    requires |d1| == |d2|
    ensures TaggedId(d1, tag, m) == TaggedId(d2, tag, n) <==> d1 == d2 && m == n
  {
    if TaggedId(d1, tag, m) == TaggedId(d2, tag, n) {
      var s := TaggedId(d1, tag, m);
      assert s[..|d1|] == d1;
      assert TaggedId(d2, tag, n)[..|d2|] == d2;
      assert NatToString(m) == s[|d1| + |tag|..];
      assert NatToString(n) == TaggedId(d2, tag, n)[|d2| + |tag|..];
      NatToStringInjective(m, n);
    }
  }

  /** The positions, from `from` on and in ascending order, of the chunks long enough to keep. */
  function KeptIndices(chunks: seq<string>, from: nat): (r: seq<nat>)
    requires from <= |chunks|
    ensures forall k :: 0 <= k < |r| ==> from <= r[k] < |chunks| && |chunks[r[k]]| >= MIN_CHUNK_SIZE
    ensures forall i :: from <= i < |chunks| && |chunks[i]| >= MIN_CHUNK_SIZE ==> i in r
    ensures forall k, l :: 0 <= k < l < |r| ==> r[k] < r[l]
    decreases |chunks| - from
  {
    if from == |chunks| then []
    else (if |chunks[from]| >= MIN_CHUNK_SIZE then [from] else []) + KeptIndices(chunks, from + 1)
  }

  /** The chunks of one page, text file or document. */
  function ChunksOf(text: string): seq<string> {
    SemanticChunking(CleanText(text), CHUNK_SIZE)
  }

  /** Text that cleans to nothing has no chunks. */
  lemma ChunksOfBlank(text: string)
    requires CleanText(text) == []
    ensures ChunksOf(text) == []
  {
    assert Pieces([], []) == [];
    assert SplitSentences([]) == [];
  }

  /** A kept chunk before it becomes a record: its page, its index among the page's
      chunks, and the section label in force. */
  datatype Piece = Piece(page: nat, idx: nat, section: string, text: string)

  function PagePieces(page: nat, section: string, chunks: seq<string>): seq<Piece>
  {
    var ks := KeptIndices(chunks, 0);
    seq(|ks|, k requires 0 <= k < |ks| => Piece(page, ks[k], section, chunks[ks[k]]))
  }

  /** The chunks of every page; a page without text is skipped before anything else. */
  function PageChunks(pages: seq<string>): (r: seq<seq<string>>)
    ensures |r| == |pages|
  {
    seq(|pages|, j requires 0 <= j < |pages| => if pages[j] == [] then [] else ChunksOf(pages[j]))
  }

  /** Skipping a page without text loses nothing: such a page has no chunks. */
  lemma PageChunksAreChunks(pages: seq<string>, j: nat)
    requires j < |pages|
    ensures PageChunks(pages)[j] == ChunksOf(pages[j])
  {
    if pages[j] == [] {
      ChunksOfBlank(pages[j]);
    }
  }

  /** The loop over pages in `process_pdf`: page `first + j` has the chunks `chunks[j]`
      and the section label `labels[j]`. */
  function PdfPieces(chunks: seq<seq<string>>, labels: seq<string>, first: nat): seq<Piece>
    requires |labels| == |chunks|
  {
    if chunks == [] then []
    else PagePieces(first, labels[0], chunks[0]) + PdfPieces(chunks[1..], labels[1..], first + 1)
  }

  function PdfRecord(docId: string, file: string, p: Piece): ChunkRecord {
    MakeRecord(Origin(docId, file, file, Pdf, p.section, None), PdfChunkId(docId, p.page, p.idx), p.page,
               p.text, Anchor(p.text))
  }

  /** `process_pdf`: page `i` of `pages` is the text extracted from page `i + 1`, with ""
      for a page without text. */
  function ProcessPdf(docId: string, file: string, pages: seq<string>): seq<ChunkRecord> {
    var ps := PdfPieces(PageChunks(pages), SectionLabels(pages, UNKNOWN_SECTION), 1);
    seq(|ps|, k requires 0 <= k < |ps| => PdfRecord(docId, file, ps[k]))
  }

  /** `p` comes before `q` in reading order. */
  predicate Before(p: Piece, q: Piece) {
    p.page < q.page || (p.page == q.page && p.idx < q.idx)
  }

  predicate InReadingOrder(ps: seq<Piece>) {
    forall a, b :: 0 <= a < b < |ps| ==> Before(ps[a], ps[b])
  }

  /** `p` is a long chunk of its page, at its index, under that page's label. */
  predicate PieceOf(chunks: seq<seq<string>>, labels: seq<string>, first: nat, p: Piece)
    requires |labels| == |chunks|
  {
    && first <= p.page < first + |chunks|
    && p.idx < |chunks[p.page - first]| && p.text == chunks[p.page - first][p.idx]
    && |p.text| >= MIN_CHUNK_SIZE && p.section == labels[p.page - first]
  }

  lemma PagePiecesFacts(page: nat, section: string, chunks: seq<string>)
    ensures var r := PagePieces(page, section, chunks);
      && (forall k :: 0 <= k < |r| ==>
            r[k].page == page && r[k].section == section && r[k].idx < |chunks|
            && r[k].text == chunks[r[k].idx] && |r[k].text| >= MIN_CHUNK_SIZE)
      && InReadingOrder(r)
  {
  }

  lemma PagePiecesComplete(page: nat, section: string, chunks: seq<string>, i: nat)
    requires i < |chunks| && |chunks[i]| >= MIN_CHUNK_SIZE
    ensures Piece(page, i, section, chunks[i]) in PagePieces(page, section, chunks)
  {
    var ks := KeptIndices(chunks, 0);
    var k :| 0 <= k < |ks| && ks[k] == i;
    assert PagePieces(page, section, chunks)[k] == Piece(page, i, section, chunks[i]);
  }

  lemma OrderedAppend(xs: seq<Piece>, ys: seq<Piece>)
    requires InReadingOrder(xs) && InReadingOrder(ys)
    requires forall a, b :: 0 <= a < |xs| && 0 <= b < |ys| ==> Before(xs[a], ys[b])
    ensures InReadingOrder(xs + ys)
  {
    var zs := xs + ys;
    forall a, b | 0 <= a < b < |zs| ensures Before(zs[a], zs[b]) {
      if b < |xs| {
        assert zs[a] == xs[a] && zs[b] == xs[b];
      } else if a >= |xs| {
        assert zs[a] == ys[a - |xs|] && zs[b] == ys[b - |xs|];
      } else {
        assert zs[a] == xs[a] && zs[b] == ys[b - |xs|];
      }
    }
  }

  /** Each piece of `process_pdf` is a long chunk of its page under that page's label. */
  lemma {:induction false} PdfPieceSound(chunks: seq<seq<string>>, labels: seq<string>, first: nat, k: nat)
    requires |labels| == |chunks| && k < |PdfPieces(chunks, labels, first)|
    ensures PieceOf(chunks, labels, first, PdfPieces(chunks, labels, first)[k])
    decreases |chunks|
  {
    var head := PagePieces(first, labels[0], chunks[0]);
    var tail := PdfPieces(chunks[1..], labels[1..], first + 1);
    assert PdfPieces(chunks, labels, first) == head + tail;
    if k < |head| {
      PagePiecesFacts(first, labels[0], chunks[0]);
    } else {
      PdfPieceSound(chunks[1..], labels[1..], first + 1, k - |head|);
    }
  }

  /** The pieces come in reading order: by page, and by chunk index within a page. */
  lemma {:induction false} PdfPiecesInOrder(chunks: seq<seq<string>>, labels: seq<string>, first: nat)
    requires |labels| == |chunks|
    ensures InReadingOrder(PdfPieces(chunks, labels, first))
  {
    if chunks != [] {
      var head := PagePieces(first, labels[0], chunks[0]);
      var tail := PdfPieces(chunks[1..], labels[1..], first + 1);
      PdfPiecesInOrder(chunks[1..], labels[1..], first + 1);
      PagePiecesFacts(first, labels[0], chunks[0]);
      forall a, b | 0 <= a < |head| && 0 <= b < |tail| ensures Before(head[a], tail[b]) {
        PdfPieceSound(chunks[1..], labels[1..], first + 1, b);
      }
      OrderedAppend(head, tail);
    }
  }

  /** Every long chunk of every page becomes a piece, with its page number and index. */
  lemma {:induction false} PdfPiecesComplete(chunks: seq<seq<string>>, labels: seq<string>, first: nat, j: nat, i: nat)
    requires |labels| == |chunks| && j < |chunks| && i < |chunks[j]| && |chunks[j][i]| >= MIN_CHUNK_SIZE
    ensures Piece(first + j, i, labels[j], chunks[j][i]) in PdfPieces(chunks, labels, first)
    decreases j
  {
    if j == 0 {
      PagePiecesComplete(first, labels[0], chunks[0], i);
    } else {
      var x := Piece(first + j, i, labels[j], chunks[j][i]);
      var tail := PdfPieces(chunks[1..], labels[1..], first + 1);
      assert chunks[1..][j - 1] == chunks[j] && labels[1..][j - 1] == labels[j];
      PdfPiecesComplete(chunks[1..], labels[1..], first + 1, j - 1, i);
      assert x in tail;
      assert PdfPieces(chunks, labels, first) == PagePieces(first, labels[0], chunks[0]) + tail;
    }
  }

  /** A record of `process_pdf` is a long chunk of its page, with the page's section label,
      its own length and anchor, and the id of its page and chunk index. */
  lemma ProcessPdfRecord(docId: string, file: string, pages: seq<string>, k: nat)
    requires k < |ProcessPdf(docId, file, pages)|
    ensures var r := ProcessPdf(docId, file, pages)[k];
      && 1 <= r.pageNum <= |pages|
      && r.docId == docId && r.fileType == Pdf && r.title == file && r.source == file && r.sourceUrl == None
      && r.sectionTitle == SectionLabels(pages, UNKNOWN_SECTION)[r.pageNum - 1]
      && |r.content| >= MIN_CHUNK_SIZE && r.chunkLen == |r.content| && r.anchorText == Anchor(r.content)
      && exists i :: 0 <= i < |ChunksOf(pages[r.pageNum - 1])| && r.content == ChunksOf(pages[r.pageNum - 1])[i]
           && r.chunkId == PdfChunkId(docId, r.pageNum, i)
  {
    var chunks := PageChunks(pages);
    var labels := SectionLabels(pages, UNKNOWN_SECTION);
    var ps := PdfPieces(chunks, labels, 1);
    assert ProcessPdf(docId, file, pages)[k] == PdfRecord(docId, file, ps[k]);
    PdfPieceSound(chunks, labels, 1, k);
    PageChunksAreChunks(pages, ps[k].page - 1);
  }

  /** No two records of one PDF share a chunk id. */
  lemma ProcessPdfIdsDistinct(docId: string, file: string, pages: seq<string>, a: nat, b: nat)
    requires a < b < |ProcessPdf(docId, file, pages)|
    ensures ProcessPdf(docId, file, pages)[a].chunkId != ProcessPdf(docId, file, pages)[b].chunkId
  {
    var chunks := PageChunks(pages);
    var labels := SectionLabels(pages, UNKNOWN_SECTION);
    var ps := PdfPieces(chunks, labels, 1);
    assert ProcessPdf(docId, file, pages)[a] == PdfRecord(docId, file, ps[a]);
    assert ProcessPdf(docId, file, pages)[b] == PdfRecord(docId, file, ps[b]);
    PdfPiecesInOrder(chunks, labels, 1);
    assert Before(ps[a], ps[b]);
    PdfChunkIdInjective(docId, ps[a].page, ps[a].idx, docId, ps[b].page, ps[b].idx);
  }

  /** A chunk of at least `MIN_CHUNK_SIZE` characters on page `j + 1` is in the output
      under the id of its page and index. */
  lemma ProcessPdfKeepsLongChunks(docId: string, file: string, pages: seq<string>, j: nat, i: nat)
    requires j < |pages| && i < |ChunksOf(pages[j])| && |ChunksOf(pages[j])[i]| >= MIN_CHUNK_SIZE
    ensures exists k :: 0 <= k < |ProcessPdf(docId, file, pages)|
              && ProcessPdf(docId, file, pages)[k].chunkId == PdfChunkId(docId, j + 1, i)
              && ProcessPdf(docId, file, pages)[k].content == ChunksOf(pages[j])[i]
  {
    var chunks := PageChunks(pages);
    var labels := SectionLabels(pages, UNKNOWN_SECTION);
    var ps := PdfPieces(chunks, labels, 1);
    PageChunksAreChunks(pages, j);
    PdfPiecesComplete(chunks, labels, 1, j, i);
    var k :| 0 <= k < |ps| && ps[k] == Piece(1 + j, i, labels[j], chunks[j][i]);
    assert ProcessPdf(docId, file, pages)[k] == PdfRecord(docId, file, ps[k]);
  }

  /** The record of chunk `i` of a text file or Word document: page number `i + 1` and
      the id `doc_id + tag + i`. */
  function BodyRecord(o: Origin, tag: string, chunks: seq<string>, i: nat): ChunkRecord
    requires i < |chunks|
  {
    MakeRecord(o, TaggedId(o.docId, tag, i), i + 1, chunks[i], Anchor(chunks[i]))
  }

  /** The records of the long chunks, in chunk order. */
  function BodyRecords(o: Origin, tag: string, chunks: seq<string>): seq<ChunkRecord> {
    var ks := KeptIndices(chunks, 0);
    seq(|ks|, k requires 0 <= k < |ks| => BodyRecord(o, tag, chunks, ks[k]))
  }

  /** Each record is a long chunk under its index, with the fields its document shares. */
  lemma BodyRecordsSound(o: Origin, tag: string, chunks: seq<string>, k: nat)
    requires k < |BodyRecords(o, tag, chunks)|
    ensures var r := BodyRecords(o, tag, chunks)[k];
      && 1 <= r.pageNum <= |chunks| && r.content == chunks[r.pageNum - 1] && |r.content| >= MIN_CHUNK_SIZE
      && r.chunkId == TaggedId(o.docId, tag, r.pageNum - 1)
      && r.chunkLen == |r.content| && r.anchorText == Anchor(r.content)
      && r.docId == o.docId && r.title == o.title && r.source == o.source && r.fileType == o.fileType
      && r.sectionTitle == o.section && r.sourceUrl == o.sourceUrl
  {
  }

  /** Every long chunk has its record. */
  lemma BodyRecordsComplete(o: Origin, tag: string, chunks: seq<string>, i: nat)
    requires i < |chunks| && |chunks[i]| >= MIN_CHUNK_SIZE
    ensures BodyRecord(o, tag, chunks, i) in BodyRecords(o, tag, chunks)
  {
    var ks := KeptIndices(chunks, 0);
    var k :| 0 <= k < |ks| && ks[k] == i;
    assert BodyRecords(o, tag, chunks)[k] == BodyRecord(o, tag, chunks, i);
  }

  /** Records come in chunk order and no two share an id. */
  lemma BodyRecordsOrdered(o: Origin, tag: string, chunks: seq<string>, a: nat, b: nat)
    requires a < b < |BodyRecords(o, tag, chunks)|
    ensures BodyRecords(o, tag, chunks)[a].pageNum < BodyRecords(o, tag, chunks)[b].pageNum
    ensures BodyRecords(o, tag, chunks)[a].chunkId != BodyRecords(o, tag, chunks)[b].chunkId
  {
    var ks := KeptIndices(chunks, 0);
    TaggedIdInjective(o.docId, ks[a], o.docId, ks[b], tag);
  }

  /** The fields `process_txt` gives every record of a parsed file: the title, its first
      50 characters as section (the default title when it is empty), and the URL. */
  function TxtOrigin(docId: string, file: string, d: TxtDoc): Origin {
    var section := if d.title != [] then Take(d.title, TITLE_HEAD) else UNKNOWN_TITLE;
    Origin(docId, d.title, file, Txt, section, Some(d.sourceUrl))
  }

  /** `process_txt` on the raw file text. */
  function ProcessTxt(docId: string, file: string, raw: string): seq<ChunkRecord> {
    if raw == [] then []
    else
      var d := ParseTxt(raw);
      if CleanText(d.body) == [] then []
      else BodyRecords(TxtOrigin(docId, file, d), "_txt_", ChunksOf(d.body))
  }

  /** The records of a non-empty file are the body records of its parsed form. */
  lemma ProcessTxtAt(docId: string, file: string, raw: string, k: nat)
    requires k < |ProcessTxt(docId, file, raw)|
    ensures raw != []
    ensures var d := ParseTxt(raw);
      ProcessTxt(docId, file, raw)[k] == BodyRecords(TxtOrigin(docId, file, d), "_txt_", ChunksOf(d.body))[k]
  {
  }

  /** A text-file record carries the parsed title, its first 50 characters as section, and
      the parsed URL. */
  lemma ProcessTxtFields(docId: string, file: string, raw: string, k: nat)
    requires k < |ProcessTxt(docId, file, raw)|
    ensures var r := ProcessTxt(docId, file, raw)[k];
      var lines := NonBlankLines(raw);
      && r.title == ParseTitle(lines) && r.sectionTitle == Take(ParseTitle(lines), TITLE_HEAD)
      && r.sourceUrl == Some(SourceUrl(lines)) && r.source == file && r.fileType == Txt
  {
    var d := ParseTxt(raw);
    ProcessTxtAt(docId, file, raw, k);
    BodyRecordsSound(TxtOrigin(docId, file, d), "_txt_", ChunksOf(d.body), k);
    ParseTitleNonEmpty(NonBlankLines(raw));
  }

  /** The content of a text-file record is a long chunk of the cleaned body, under the id
      of its index. */
  lemma ProcessTxtChunk(docId: string, file: string, raw: string, k: nat)
    requires k < |ProcessTxt(docId, file, raw)|
    ensures var r := ProcessTxt(docId, file, raw)[k];
      var chunks := ChunksOf(BodyText(raw));
      && 1 <= r.pageNum <= |chunks| && r.content == chunks[r.pageNum - 1] && |r.content| >= MIN_CHUNK_SIZE
      && r.chunkId == TaggedId(docId, "_txt_", r.pageNum - 1)
  {
    var d := ParseTxt(raw);
    ProcessTxtAt(docId, file, raw, k);
    BodyRecordsSound(TxtOrigin(docId, file, d), "_txt_", ChunksOf(d.body), k);
  }

  /** `"\n".join(p.text for p in paragraphs if p.text and p.text.strip())` */
  function ParagraphText(paragraphs: seq<string>): string {
    Join("\n", KeepNonBlank(paragraphs))
  }

  function KeepNonBlank(xs: seq<string>): (r: seq<string>)
    ensures forall k :: 0 <= k < |r| ==> Strip(r[k]) != [] && r[k] in xs
    ensures forall i :: 0 <= i < |xs| && Strip(xs[i]) != [] ==> xs[i] in r
  {
    if xs == [] then []
    else (if Strip(xs[0]) != [] then [xs[0]] else []) + KeepNonBlank(xs[1..])
  }

  /** Filtering distributes over concatenation. With the filter's own contract on a
      one-element input, this keeps the paragraphs in input order and multiplicity. */
  lemma {:induction false} KeepNonBlankAppend(a: seq<string>, b: seq<string>)
    ensures KeepNonBlank(a + b) == KeepNonBlank(a) + KeepNonBlank(b)
  {
    if a == [] {
      assert a + b == b;
    } else {
      var h := if Strip(a[0]) != [] then [a[0]] else [];
      assert (a + b)[0] == a[0];
      assert (a + b)[1..] == a[1..] + b;
      KeepNonBlankAppend(a[1..], b);
      calc {
        KeepNonBlank(a + b);
        h + KeepNonBlank(a[1..] + b);
        h + (KeepNonBlank(a[1..]) + KeepNonBlank(b));
        (h + KeepNonBlank(a[1..])) + KeepNonBlank(b);
      }
    }
  }

  /** `process_docx`; `available` says whether the Word reader could be imported. */
  function ProcessDocx(docId: string, file: string, available: bool, paragraphs: seq<string>): seq<ChunkRecord> {
    if !available then []
    else
      var text := ParagraphText(paragraphs);
      if CleanText(text) == [] then []
      else BodyRecords(Origin(docId, file, file, Docx, DOCX_SECTION, None), "_docx_", ChunksOf(text))
  }

  /** Without the Word reader there are no records; with it, the records are the body
      records of the joined paragraphs. */
  lemma ProcessDocxAt(docId: string, file: string, available: bool, paragraphs: seq<string>, k: nat)
    requires k < |ProcessDocx(docId, file, available, paragraphs)|
    ensures available
    ensures ProcessDocx(docId, file, available, paragraphs)[k]
         == BodyRecords(Origin(docId, file, file, Docx, DOCX_SECTION, None), "_docx_", ChunksOf(ParagraphText(paragraphs)))[k]
  {
  }

  /** A Word record carries the file name as title and the fixed section label. */
  lemma ProcessDocxFields(docId: string, file: string, available: bool, paragraphs: seq<string>, k: nat)
    requires k < |ProcessDocx(docId, file, available, paragraphs)|
    ensures var r := ProcessDocx(docId, file, available, paragraphs)[k];
      && r.fileType == Docx && r.sectionTitle == DOCX_SECTION && r.sourceUrl == None
      && r.title == file && r.source == file
  {
    ProcessDocxAt(docId, file, available, paragraphs, k);
    BodyRecordsSound(Origin(docId, file, file, Docx, DOCX_SECTION, None), "_docx_", ChunksOf(ParagraphText(paragraphs)), k);
  }

  /** The content of a Word record is a long chunk of the joined paragraphs, under the id
      of its index. */
  lemma ProcessDocxChunk(docId: string, file: string, available: bool, paragraphs: seq<string>, k: nat)
    requires k < |ProcessDocx(docId, file, available, paragraphs)|
    ensures var r := ProcessDocx(docId, file, available, paragraphs)[k];
      var chunks := ChunksOf(ParagraphText(paragraphs));
      && 1 <= r.pageNum <= |chunks| && r.content == chunks[r.pageNum - 1] && |r.content| >= MIN_CHUNK_SIZE
      && r.chunkId == TaggedId(docId, "_docx_", r.pageNum - 1)
  {
    ProcessDocxAt(docId, file, available, paragraphs, k);
    BodyRecordsSound(Origin(docId, file, file, Docx, DOCX_SECTION, None), "_docx_", ChunksOf(ParagraphText(paragraphs)), k);
  }

  /** One cell of a spreadsheet row: the column name and `str(val)` after `fillna('')`. */
  datatype Cell = Cell(column: string, value: string)

  /** `[f"{col}:{val}" for col, val in row.items() if str(val).strip()]` */
  function RowParts(row: seq<Cell>): seq<string> {
    if row == [] then []
    else (if Strip(row[0].value) != [] then [row[0].column + ":" + row[0].value] else []) + RowParts(row[1..])
  }

  /** A row has no parts exactly when all its cells are blank. */
  lemma {:induction false} RowPartsEmptyIff(row: seq<Cell>)
    ensures RowParts(row) == [] <==> forall i :: 0 <= i < |row| ==> Strip(row[i].value) == []
  {
    if row != [] {
      RowPartsEmptyIff(row[1..]);
      if Strip(row[0].value) == [] {
        assert RowParts(row) == RowParts(row[1..]);
        assert forall i :: 1 <= i < |row| ==> row[i] == row[1..][i - 1];
      }
    }
  }

  /** The cleaned content of a row. */
  function RowContent(row: seq<Cell>): string {
    CleanText(Join(" ", RowParts(row)))
  }

  lemma JoinStartsWithFirst(sep: string, xs: seq<string>)
    requires xs != []
    ensures xs[0] <= Join(sep, xs)
  {
  }

  lemma {:induction false} VisibleAt(s: string, i: nat)
    requires i < |s| && IsVisible(s[i])
    ensures Visible(s) != []
  {
    if i > 0 {
      VisibleAt(s[1..], i - 1);
      VisibleAppend([s[0]], s[1..]);
      assert [s[0]] + s[1..] == s;
    }
  }

  /** Position of the first non-blank cell, the source of the first part. */
  function FirstCellPart(row: seq<Cell>): (c: nat)
    requires RowParts(row) != []
    ensures c < |row| && RowParts(row)[0] == row[c].column + ":" + row[c].value
  {
    if Strip(row[0].value) != [] then 0
    else
      assert RowParts(row) == RowParts(row[1..]);
      1 + FirstCellPart(row[1..])
  }

  /** The joined parts of a row with a non-blank cell hold the ':' after the first column
      name, a visible character. */
  lemma RowTextVisible(row: seq<Cell>)
    requires RowParts(row) != []
    ensures Visible(Join(" ", RowParts(row))) != []
  {
    var parts := RowParts(row);
    var c := FirstCellPart(row);
    var j := Join(" ", parts);
    JoinStartsWithFirst(" ", parts);
    assert j[|row[c].column|] == parts[0][|row[c].column|] == ':';
    assert IsVisible(':');
    VisibleAt(j, |row[c].column|);
  }

  /** A row is skipped exactly when all its cells are blank. */
  lemma RowSkippedIff(row: seq<Cell>)
    ensures RowContent(row) == [] <==> forall i :: 0 <= i < |row| ==> Strip(row[i].value) == []
  {
    var parts := RowParts(row);
    RowPartsEmptyIff(row);
    if parts != [] {
      RowTextVisible(row);
      CleanNonEmpty(Join(" ", parts));
    } else {
      assert Join(" ", parts) == [];
    }
  }

  /** The contents of all rows. */
  function RowContents(rows: seq<seq<Cell>>): (r: seq<string>)
    ensures |r| == |rows|
  {
    seq(|rows|, i requires 0 <= i < |rows| => RowContent(rows[i]))
  }

  /** The record of a row with number `n`: whatever its length, with the row number in the
      id and the first 30 characters as anchor. */
  function TableRecord(docId: string, file: string, content: string, n: nat): ChunkRecord {
    MakeRecord(Origin(docId, file, file, Table, TABLE_SECTION, None), TaggedId(docId, "_row_", n), n, content,
               Take(content, ANCHOR_FALLBACK))
  }

  /** The loop of `process_excel` over rows with contents `cs`, from position `from`; the
      data frame index is the row position, so row `i` has number `i + 1`. */
  function TableRecords(docId: string, file: string, cs: seq<string>, from: nat): seq<ChunkRecord>
    requires from <= |cs|
    decreases |cs| - from
  {
    if from == |cs| then []
    else if cs[from] == [] then TableRecords(docId, file, cs, from + 1)
    else [TableRecord(docId, file, cs[from], from + 1)] + TableRecords(docId, file, cs, from + 1)
  }

  function ProcessTable(docId: string, file: string, rows: seq<seq<Cell>>): seq<ChunkRecord> {
    TableRecords(docId, file, RowContents(rows), 0)
  }

  /** Each record is the record of a later row with non-empty content. */
  lemma {:induction false} TableRecordsSound(docId: string, file: string, cs: seq<string>, from: nat, k: nat)
    requires from <= |cs| && k < |TableRecords(docId, file, cs, from)|
    ensures var r := TableRecords(docId, file, cs, from)[k];
      from < r.pageNum <= |cs| && cs[r.pageNum - 1] != [] && r == TableRecord(docId, file, cs[r.pageNum - 1], r.pageNum)
    decreases |cs| - from
  {
    if cs[from] == [] {
      TableRecordsSound(docId, file, cs, from + 1, k);
    } else if k > 0 {
      TableRecordsSound(docId, file, cs, from + 1, k - 1);
    }
  }

  /** Every row with non-empty content from `from` on has its record. */
  lemma {:induction false} TableRecordsComplete(docId: string, file: string, cs: seq<string>, from: nat, i: nat)
    requires from <= i < |cs| && cs[i] != []
    ensures TableRecord(docId, file, cs[i], i + 1) in TableRecords(docId, file, cs, from)
    decreases i - from
  {
    if from < i {
      TableRecordsComplete(docId, file, cs, from + 1, i);
    }
  }

  /** Records come in row order. */
  lemma {:induction false} TableRecordsIncreasing(docId: string, file: string, cs: seq<string>, from: nat, a: nat, b: nat)
    requires from <= |cs| && a < b < |TableRecords(docId, file, cs, from)|
    ensures TableRecords(docId, file, cs, from)[a].pageNum < TableRecords(docId, file, cs, from)[b].pageNum
    decreases |cs| - from
  {
    if cs[from] == [] {
      TableRecordsIncreasing(docId, file, cs, from + 1, a, b);
    } else if a > 0 {
      TableRecordsIncreasing(docId, file, cs, from + 1, a - 1, b - 1);
    } else {
      TableRecordsSound(docId, file, cs, from + 1, b - 1);
    }
  }

  /** `RowContents(rows)[i]` is the cleaned content of row `i`. */
  lemma RowContentsAt(rows: seq<seq<Cell>>, i: nat)
    requires i < |rows|
    ensures RowContents(rows)[i] == RowContent(rows[i])
  {
  }

  /** A table record is the cleaned, non-empty content of its row, numbered by the row's
      position plus one. */
  lemma ProcessTableRecord(docId: string, file: string, rows: seq<seq<Cell>>, k: nat)
    requires k < |ProcessTable(docId, file, rows)|
    ensures var r := ProcessTable(docId, file, rows)[k];
      && 1 <= r.pageNum <= |rows| && r.content == RowContents(rows)[r.pageNum - 1] && r.content != []
      && r.chunkId == TaggedId(docId, "_row_", r.pageNum) && r.anchorText == Take(r.content, ANCHOR_FALLBACK)
      && r.chunkLen == |r.content| && r.sectionTitle == TABLE_SECTION && r.fileType == Table
      && r.title == file && r.source == file && r.sourceUrl == None
  {
    var cs := RowContents(rows);
    assert ProcessTable(docId, file, rows)[k] == TableRecords(docId, file, cs, 0)[k];
    TableRecordsSound(docId, file, cs, 0, k);
  }

  /** A row with a non-blank cell always has its record, however short its content. */
  lemma ProcessTableKeepsRow(docId: string, file: string, rows: seq<seq<Cell>>, i: nat, c: nat)
    requires i < |rows| && c < |rows[i]| && Strip(rows[i][c].value) != []
    ensures TableRecord(docId, file, RowContents(rows)[i], i + 1) in ProcessTable(docId, file, rows)
  {
    var cs := RowContents(rows);
    RowContentsAt(rows, i);
    RowSkippedIff(rows[i]);
    TableRecordsComplete(docId, file, cs, 0, i);
  }

  /** Records of distinct rows have distinct ids. */
  lemma TableRecordsIdsDistinct(docId: string, file: string, cs: seq<string>, a: nat, b: nat)
    requires a < b < |TableRecords(docId, file, cs, 0)|
    ensures TableRecords(docId, file, cs, 0)[a].chunkId != TableRecords(docId, file, cs, 0)[b].chunkId
  {
    var r := TableRecords(docId, file, cs, 0);
    TableRecordsIncreasing(docId, file, cs, 0, a, b);
    TableRecordsSound(docId, file, cs, 0, a);
    TableRecordsSound(docId, file, cs, 0, b);
    TaggedIdInjective(docId, r[a].pageNum, docId, r[b].pageNum, "_row_");
  }

  /** The row ids of one table are distinct. */
  lemma TableIdsDistinct(docId: string, file: string, rows: seq<seq<Cell>>, a: nat, b: nat)
    requires a < b < |ProcessTable(docId, file, rows)|
    ensures ProcessTable(docId, file, rows)[a].chunkId != ProcessTable(docId, file, rows)[b].chunkId
  {
    TableRecordsIdsDistinct(docId, file, RowContents(rows), a, b);
  }
}

=== FILE: sections.dfy ===
/** Section titles of PDF pages, `extract_title` and the running `current_section_title`
    of `process_pdf` in experiments/scripts/01_data_processing.py. A page whose first
    50 characters start with a chapter marker (第…章 with Chinese numerals) or with a
    run of digits and dots followed by whitespace names a new section; the label then
    stays in force on the following pages until the next such page. */
module Sections {
  import opened Text

  /** Only the first 50 characters of a page are searched for a title. */
  const TITLE_HEAD: nat := 50

  /** Label used before the first title is seen. */
  const UNKNOWN_SECTION: string := "未知章节"

  /** The Chinese numerals one to ten. */
  predicate IsCjkNumeral(c: char) {
    c in "一二三四五六七八九十"
  }

  /** The `\d` class: decimal digits of the ASCII, Arabic-Indic, Devanagari, Bengali and
      full-width blocks. */
  predicate IsDigit(c: char) {
    ('0' <= c <= '9') || ('\U{660}' <= c <= '\U{669}') || ('\U{6F0}' <= c <= '\U{6F9}')
    || ('\U{966}' <= c <= '\U{96F}') || ('\U{9E6}' <= c <= '\U{9EF}') || ('\U{FF10}' <= c <= '\U{FF19}')
  }

  /** A character of a numbered heading such as "1.2.3". */
  predicate IsNumberingChar(c: char) {
    IsDigit(c) || c == '.'
  }

  /** "第" followed by one or more Chinese numerals and "章". */
  predicate IsChapterMarker(m: string) {
    && |m| >= 3 && m[0] == '第' && m[|m| - 1] == '章'
    && forall i :: 1 <= i < |m| - 1 ==> IsCjkNumeral(m[i])
  }

  /** One or more digits and dots. */
  predicate IsNumberedMarker(m: string) {
    m != [] && forall i :: 0 <= i < |m| ==> IsNumberingChar(m[i])
  }

  /** `text` starts with the chapter marker `m`, inside the searched head. */
  predicate ChapterAt(text: string, m: string) {
    IsChapterMarker(m) && |m| <= TITLE_HEAD && m <= text
  }

  /** `text` starts with the numbered marker `m` and a whitespace character, both inside
      the searched head. */
  predicate NumberedAt(text: string, m: string) {
    IsNumberedMarker(m) && |m| < TITLE_HEAD && |m| < |text| && m <= text && IsSpace(text[|m|])
  }

  /** Length of the longest prefix of Chinese numerals. */
  function NumeralRun(s: string): (n: nat)
    ensures n <= |s|
    ensures forall j :: 0 <= j < n ==> IsCjkNumeral(s[j])
    ensures n < |s| ==> !IsCjkNumeral(s[n])
  {
    if s != [] && IsCjkNumeral(s[0]) then 1 + NumeralRun(s[1..]) else 0
  }

  /** Length of the longest prefix of digits and dots. */
  function NumberingRun(s: string): (n: nat)
    ensures n <= |s|
    ensures forall j :: 0 <= j < n ==> IsNumberingChar(s[j])
    ensures n < |s| ==> !IsNumberingChar(s[n])
  {
    if s != [] && IsNumberingChar(s[0]) then 1 + NumberingRun(s[1..]) else 0
  }

  /** `extract_title(text)`: the marker a page starts with, or "" when there is none.
      The trailing whitespace of a numbered marker is removed by the final strip. */
  function ExtractTitle(text: string): (r: string)
    ensures r == [] || ChapterAt(text, r) || NumberedAt(text, r)
  {
    var head := Take(text, TITLE_HEAD);
    if head != [] && head[0] == '第' then
      var n := NumeralRun(head[1..]);
      if n >= 1 && n + 1 < |head| && head[n + 1] == '章' then head[..n + 2] else []
    else
      var n := NumberingRun(head);
      if n >= 1 && n < |head| && IsSpace(head[n]) then head[..n] else []
  }

  /** Every marker the pattern describes is found: together with the postcondition of
      `ExtractTitle`, a page yields a title exactly when it starts with a marker. */
  lemma ExtractTitleComplete(text: string, m: string)
    requires ChapterAt(text, m) || NumberedAt(text, m)
    ensures ExtractTitle(text) == m
  {
    var head := Take(text, TITLE_HEAD);
    if ChapterAt(text, m) {
      assert head[..|m|] == m;
      var n := NumeralRun(head[1..]);
      assert head[1..][|m| - 2] == '章';
      assert forall j :: 0 <= j < |m| - 2 ==> head[1..][j] == m[j + 1];
      assert n == |m| - 2;
    } else {
      assert head[..|m| + 1] == text[..|m| + 1];
      assert head[0] == m[0];
      var n := NumberingRun(head);
      assert forall j :: 0 <= j < |m| ==> head[j] == m[j];
      assert n == |m|;
      assert head[..n] == m;
    }
  }

  lemma ChapterExample()
    ensures ExtractTitle("第一章 总则") == "第一章"
  {
    ExtractTitleComplete("第一章 总则", "第一章");
  }

  lemma NumberedExample()
    ensures ExtractTitle("1.1 安全须知") == "1.1"
  {
    assert IsSpace(' ');
    ExtractTitleComplete("1.1 安全须知", "1.1");
  }

  /** The titles `extract_title` finds on each page, "" where a page has none. */
  function Titles(pages: seq<string>): (r: seq<string>)
    ensures |r| == |pages|
  {
    seq(|pages|, i requires 0 <= i < |pages| => ExtractTitle(pages[i]))
  }

  /** A running label over a sequence of titles: each title other than `none` replaces
      the label in force, and every position gets the label in force after it. */
  function Carry<T(==)>(titles: seq<T>, none: T, current: T): (r: seq<T>)
    ensures |r| == |titles|
  {
    if titles == [] then []
    else
      var l := if titles[0] != none then titles[0] else current;
      [l] + Carry(titles[1..], none, l)
  }

  /** The label `process_pdf` attaches to the chunks of each page, starting from `current`. */
  function SectionLabels(pages: seq<string>, current: string): (r: seq<string>)
    ensures |r| == |pages|
  {
    Carry(Titles(pages), [], current)
  }

  /** The last title of `titles` other than `none`, or `current` when there is none. */
  function Latest<T(==)>(current: T, none: T, titles: seq<T>): T {
    if titles == [] then current
    else if titles[|titles| - 1] != none then titles[|titles| - 1]
    else Latest(current, none, titles[..|titles| - 1])
  }

  lemma {:induction false} LatestCons<T>(current: T, none: T, t: T, ts: seq<T>)
    ensures Latest(current, none, [t] + ts) == Latest(if t != none then t else current, none, ts)
    decreases |ts|
  {
    var all := [t] + ts;
    if ts == [] {
      assert all[..0] == [];
    } else {
      assert all[|all| - 1] == ts[|ts| - 1];
      assert all[..|all| - 1] == [t] + ts[..|ts| - 1];
      LatestCons(current, none, t, ts[..|ts| - 1]);
    }
  }

  /** The running label at position `i` is the latest title up to `i`. */
  lemma {:induction false} CarryIsLatest<T>(titles: seq<T>, none: T, current: T, i: nat)
    requires i < |titles|
    ensures Carry(titles, none, current)[i] == Latest(current, none, titles[..i + 1])
    decreases i
  {
    var l := if titles[0] != none then titles[0] else current;
    assert titles[..i + 1] == [titles[0]] + titles[1..][..i];
    LatestCons(current, none, titles[0], titles[1..][..i]);
    if i > 0 {
      CarryIsLatest(titles[1..], none, l, i - 1);
    }
  }

  /** The running label is the starting label or one of the titles. */
  lemma {:induction false} CarryFrom<T>(titles: seq<T>, none: T, current: T, i: nat)
    requires i < |titles|
    ensures var l := Carry(titles, none, current)[i];
      l == current || exists j :: 0 <= j <= i && titles[j] == l && l != none
    decreases i
  {
    if i > 0 {
      var l := if titles[0] != none then titles[0] else current;
      CarryFrom(titles[1..], none, l, i - 1);
      var m := Carry(titles, none, current)[i];
      if m != l {
        var j :| 0 <= j <= i - 1 && titles[1..][j] == m && m != none;
        assert titles[j + 1] == m;
      }
    }
  }

  /** The label on page `i` is the title of the latest page up to `i` that has one. */
  lemma SectionLabelIsLatestTitle(pages: seq<string>, current: string, i: nat)
    requires i < |pages|
    ensures SectionLabels(pages, current)[i] == Latest(current, [], Titles(pages)[..i + 1])
  {
    CarryIsLatest(Titles(pages), [], current, i);
  }

  /** Every label is the starting label or a marker found on some page up to its own. */
  lemma SectionLabelsAreMarkers(pages: seq<string>, current: string, i: nat)
    requires i < |pages|
    ensures var l := SectionLabels(pages, current)[i];
      l == current || exists j :: 0 <= j <= i && l == ExtractTitle(pages[j]) && (IsChapterMarker(l) || IsNumberedMarker(l))
  {
    var ts := Titles(pages);
    CarryFrom(ts, [], current, i);
    var l := SectionLabels(pages, current)[i];
    if l != current {
      var j :| 0 <= j <= i && ts[j] == l && l != [];
      assert l == ExtractTitle(pages[j]);
    }
  }

  /** A page without a title keeps the label of the page before it. */
  lemma SectionPersists(pages: seq<string>, current: string, i: nat)
    requires 0 < i < |pages| && ExtractTitle(pages[i]) == []
    ensures SectionLabels(pages, current)[i] == SectionLabels(pages, current)[i - 1]
  {
    var ts := Titles(pages);
    CarryIsLatest(ts, [], current, i);
    CarryIsLatest(ts, [], current, i - 1);
    LatestUntitled(current, [], ts, i);
  }

  lemma LatestUntitled<T>(current: T, none: T, titles: seq<T>, i: nat)
    requires i < |titles| && titles[i] == none
    ensures Latest(current, none, titles[..i + 1]) == Latest(current, none, titles[..i])
  {
    var q := titles[..i + 1];
    assert q[|q| - 1] == titles[i];
    assert q[..i] == titles[..i];
  }

  /** A page with a title starts a new section of that name. */
  lemma SectionStarts(pages: seq<string>, current: string, i: nat)
    requires i < |pages| && ExtractTitle(pages[i]) != []
    ensures SectionLabels(pages, current)[i] == ExtractTitle(pages[i])
  {
    var ts := Titles(pages);
    CarryIsLatest(ts, [], current, i);
    LatestTitled(current, [], ts, i);
  }

  lemma LatestTitled<T>(current: T, none: T, titles: seq<T>, i: nat)
    requires i < |titles| && titles[i] != none
    ensures Latest(current, none, titles[..i + 1]) == titles[i]
  {
    var q := titles[..i + 1];
    assert q[|q| - 1] == titles[i];
  }
}

=== FILE: sentences.dfy ===
/** Sentence splitting, `split_sentences` in experiments/scripts/01_data_processing.py:
    the text is cut just after every 。, ！, ？ or line feed, the cut character stays at
    the end of its piece, each piece is stripped and empty pieces are dropped. */
module Sentences {
  import opened Text
  import opened Normalizer

  /** Full-width sentence-ending punctuation. */
  predicate IsPunct(c: char) {
    c == '。' || c == '！' || c == '？'
  }

  /** A character after which the splitter cuts. */
  predicate IsBoundary(c: char) {
    IsPunct(c) || c == '\n'
  }

  /** `s` has no cut point before its last character. */
  predicate CutOnlyAtEnd(s: string) {
    forall j :: 0 <= j < |s| - 1 ==> !IsBoundary(s[j])
  }

  predicate NoBoundary(s: string) {
    forall j :: 0 <= j < |s| ==> !IsBoundary(s[j])
  }

  /** The pieces the split-and-reassemble loop builds from `s`, with `cur` the text
      gathered since the last cut: each boundary character closes a piece, and what is
      left after the last boundary is a final piece when non-empty. */
  function Pieces(s: string, cur: string): seq<string>
    decreases |s|
  {
    if s == [] then (if cur == [] then [] else [cur])
    else if IsBoundary(s[0]) then [cur + [s[0]]] + Pieces(s[1..], [])
    else Pieces(s[1..], cur + [s[0]])
  }

  /** Reassembling loses nothing: the pieces concatenate to the input. */
  lemma {:induction false} PiecesConcat(s: string, cur: string)
    ensures Concat(Pieces(s, cur)) == cur + s
    decreases |s|
  {
    if s != [] {
      if IsBoundary(s[0]) {
        PiecesConcat(s[1..], []);
        assert cur + s == cur + [s[0]] + s[1..];
      } else {
        PiecesConcat(s[1..], cur + [s[0]]);
        assert cur + s == cur + [s[0]] + s[1..];
      }
    }
  }

  /** Every piece is non-empty, has no cut point before its last character, and every
      piece but the last ends at a cut point. */
  lemma {:induction false} PiecesShape(s: string, cur: string)
    requires NoBoundary(cur)
    ensures forall k :: 0 <= k < |Pieces(s, cur)| ==> Pieces(s, cur)[k] != []
    ensures forall k :: 0 <= k < |Pieces(s, cur)| ==> CutOnlyAtEnd(Pieces(s, cur)[k])
    ensures forall k :: 0 <= k < |Pieces(s, cur)| - 1 ==>
              IsBoundary(Pieces(s, cur)[k][|Pieces(s, cur)[k]| - 1])
    decreases |s|
  {
    if s != [] {
      if IsBoundary(s[0]) {
        PiecesShape(s[1..], []);
      } else {
        PiecesShape(s[1..], cur + [s[0]]);
      }
    }
  }

  /** Pieces of space-free text are space-free. */
  lemma {:induction false} PiecesNoSpace(s: string, cur: string)
    requires NoSpace(s) && NoSpace(cur)
    ensures forall k :: 0 <= k < |Pieces(s, cur)| ==> NoSpace(Pieces(s, cur)[k])
    decreases |s|
  {
    if s != [] {
      if IsBoundary(s[0]) {
        PiecesNoSpace(s[1..], []);
      } else {
        PiecesNoSpace(s[1..], cur + [s[0]]);
      }
    }
  }

  /** Stripping a piece leaves no line feed and no punctuation before its last character. */
  lemma StripPiece(p: string)
    requires CutOnlyAtEnd(p)
    ensures '\n' !in Strip(p)
    ensures forall j :: 0 <= j < |Strip(p)| - 1 ==> !IsPunct(Strip(p)[j])
  {
    var a := LeadingSpaces(p);
    var r := Strip(p);
    forall j | 0 <= j < |r| ensures r[j] != '\n' {
      StripChar(p, j);
    }
    forall j | 0 <= j < |r| - 1 ensures !IsPunct(r[j]) {
      StripChar(p, j);
    }
  }

  /** A piece closed by punctuation strips to a non-empty string ending with it. */
  lemma StripPunctPiece(p: string)
    requires p != [] && IsPunct(p[|p| - 1])
    ensures Strip(p) != [] && Strip(p)[|Strip(p)| - 1] == p[|p| - 1]
  {
    var a := LeadingSpaces(p);
    var r := Strip(p);
    var e := a + |r|;
    StripRemovesSpaces(p);
    assert !IsSpace(p[|p| - 1]);
    if e < |p| || r == [] {
      assert false;
    }
    StripChar(p, |r| - 1);
  }

  /** Strips every piece and keeps the non-empty results. */
  function StripNonEmpty(ps: seq<string>): seq<string>
  {
    if ps == [] then []
    else (var t := Strip(ps[0]); if t == [] then [] else [t]) + StripNonEmpty(ps[1..])
  }

  /** What survives is non-empty and stripped. */
  lemma {:induction false} StripNonEmptyStripped(ps: seq<string>)
    ensures forall k :: 0 <= k < |StripNonEmpty(ps)| ==>
              StripNonEmpty(ps)[k] != [] && IsStripped(StripNonEmpty(ps)[k])
  {
    if ps != [] {
      StripNonEmptyStripped(ps[1..]);
    }
  }

  lemma {:induction false} StripNonEmptyShape(ps: seq<string>)
    requires forall k :: 0 <= k < |ps| ==> CutOnlyAtEnd(ps[k])
    ensures forall k :: 0 <= k < |StripNonEmpty(ps)| ==> '\n' !in StripNonEmpty(ps)[k]
    ensures forall k, j :: 0 <= k < |StripNonEmpty(ps)| && 0 <= j < |StripNonEmpty(ps)[k]| - 1 ==>
              !IsPunct(StripNonEmpty(ps)[k][j])
  {
    if ps != [] {
      StripPiece(ps[0]);
      StripNonEmptyShape(ps[1..]);
    }
  }

  /** `split_sentences(text)`: non-empty stripped sentences without line feeds, each
      holding a 。！？ at most as its last character. */
  function SplitSentences(text: string): (r: seq<string>)
    ensures forall k :: 0 <= k < |r| ==> r[k] != [] && IsStripped(r[k])
    ensures forall k :: 0 <= k < |r| ==> '\n' !in r[k]
    ensures forall k, j :: 0 <= k < |r| && 0 <= j < |r[k]| - 1 ==> !IsPunct(r[k][j])
  {
    PiecesShape(text, []);
    StripNonEmptyShape(Pieces(text, []));
    StripNonEmptyStripped(Pieces(text, []));
    StripNonEmpty(Pieces(text, []))
  }

  /** Pieces that are already stripped and non-empty pass through unchanged. */
  lemma {:induction false} StripNonEmptyOfStripped(ps: seq<string>)
    requires forall k :: 0 <= k < |ps| ==> ps[k] != [] && IsStripped(ps[k])
    ensures StripNonEmpty(ps) == ps
  {
    if ps != [] {
      StripStripped(ps[0]);
      StripNonEmptyOfStripped(ps[1..]);
      HeadTail(ps);
      StripNonEmptyCons(ps[0], ps[1..]);
    }
  }

  lemma StripNonEmptyOfSpaceFree(ps: seq<string>)
    requires forall k :: 0 <= k < |ps| ==> ps[k] != [] && NoSpace(ps[k])
    ensures StripNonEmpty(ps) == ps
  {
    forall k | 0 <= k < |ps| ensures IsStripped(ps[k]) {
      assert !IsSpace(ps[k][0]) && !IsSpace(ps[k][|ps[k]| - 1]);
    }
    StripNonEmptyOfStripped(ps);
  }

  /** For whitespace-free text the sentences concatenate back to the text. */
  lemma SplitSpaceFreeConcat(text: string)
    requires NoSpace(text)
    ensures Concat(SplitSentences(text)) == text
  {
    PiecesShape(text, []);
    PiecesNoSpace(text, []);
    StripNonEmptyOfSpaceFree(Pieces(text, []));
    PiecesConcat(text, []);
  }

  /** A piece closed by punctuation keeps it as the last character of its sentence. */
  lemma {:induction false} StripNonEmptyPunctEnds(ps: seq<string>, k: nat)
    requires forall i :: 0 <= i < |ps| - 1 ==> ps[i] != [] && IsPunct(ps[i][|ps[i]| - 1])
    requires k < |StripNonEmpty(ps)| - 1
    ensures StripNonEmpty(ps)[k] != [] && IsPunct(StripNonEmpty(ps)[k][|StripNonEmpty(ps)[k]| - 1])
  {
    StripPunctPiece(ps[0]);
    StripNonEmptyCons(ps[0], ps[1..]);
    HeadTail(ps);
    if k > 0 {
      StripNonEmptyPunctEnds(ps[1..], k - 1);
    }
  }

  /** Text without line feeds (every cleaned text) is cut only at 。！？: every sentence
      but the last ends with one of them. */
  lemma SplitWithoutLineFeeds(text: string)
    requires '\n' !in text
    ensures forall k :: 0 <= k < |SplitSentences(text)| - 1 ==>
              IsPunct(SplitSentences(text)[k][|SplitSentences(text)[k]| - 1])
  {
    var ps := Pieces(text, []);
    PiecesShape(text, []);
    PiecesConcat(text, []);
    forall k | 0 <= k < |ps| - 1 ensures IsPunct(ps[k][|ps[k]| - 1]) {
      PieceCharInText(ps, k, text);
    }
    forall k | 0 <= k < |StripNonEmpty(ps)| - 1
      ensures StripNonEmpty(ps)[k] != [] && IsPunct(StripNonEmpty(ps)[k][|StripNonEmpty(ps)[k]| - 1])
    {
      StripNonEmptyPunctEnds(ps, k);
    }
  }

  /** Each character of a piece is a character of the concatenation. */
  lemma {:induction false} PieceCharInText(ps: seq<string>, k: nat, text: string)
    requires k < |ps| && ps[k] != [] && Concat(ps) == text
    ensures ps[k][|ps[k]| - 1] in text
  {
    if k == 0 {
      assert text == ps[0] + Concat(ps[1..]);
      assert text[|ps[0]| - 1] == ps[0][|ps[0]| - 1];
    } else {
      PieceCharInText(ps[1..], k - 1, Concat(ps[1..]));
      assert text == ps[0] + Concat(ps[1..]);
    }
  }

  /** The newline-free form of the previous lemma for the cleaner's output. */
  lemma CleanedTextSplitsAtPunctuation(raw: string)
    ensures forall k :: 0 <= k < |SplitSentences(CleanText(raw))| - 1 ==>
              IsPunct(SplitSentences(CleanText(raw))[k][|SplitSentences(CleanText(raw))[k]| - 1])
  {
    SplitWithoutLineFeeds(CleanText(raw));
  }

  lemma PiecesCons(c: char, s: string, cur: string)
    ensures Pieces([c] + s, cur) ==
      if IsBoundary(c) then [cur + [c]] + Pieces(s, []) else Pieces(s, cur + [c])
  {
    assert ([c] + s)[1..] == s;
  }

  /** The space after a full stop is lost: "a。 b" splits into "a。" and "b", which
      concatenate to "a。b". Splitting is lossless only up to whitespace at the cuts. */
  lemma SplitDropsSpaceAfterPunct()
    ensures SplitSentences("a。 b") == ["a。", "b"]
    ensures Concat(SplitSentences("a。 b")) == "a。b"
  {
    assert !IsSpace('a') && !IsSpace('b') && !IsBoundary('a') && !IsBoundary('b');
    SplitExample('a', 'b');
    ConcatTwo("a。", "b");
  }

  /** A sentence end followed by a space and more text gives two sentences. */
  lemma SplitExample(a: char, b: char)
    requires !IsSpace(a) && !IsSpace(b) && !IsBoundary(a) && !IsBoundary(b)
    ensures SplitSentences([a, '。', ' ', b]) == [[a, '。'], [b]]
  {
    PiecesExample(a, b);
    StripExample(a);
    StripSpaceExample(b);
    var e: seq<string> := [];
    StripNonEmptyCons([' ', b], e);
    AppendEmpty([[' ', b]]);
    AppendEmpty([[b]]);
    assert StripNonEmpty([[' ', b]]) == [[b]];
    StripNonEmptyCons([a, '。'], [[' ', b]]);
    Pair([a, '。'], [' ', b]);
    Pair([a, '。'], [b]);
  }

  lemma StripExample(a: char)
    requires !IsSpace(a)
    ensures Strip([a, '。']) == [a, '。']
  {
    assert !IsSpace('。');
    StripStripped([a, '。']);
  }

  lemma StripSpaceExample(b: char)
    requires !IsSpace(b)
    ensures Strip([' ', b]) == [b]
  {
    assert IsSpace(' ');
    StripPadded([' '], [b]);
    Pair(' ', b);
  }

  lemma StripNonEmptyCons(p: string, ps: seq<string>)
    ensures StripNonEmpty([p] + ps) == (if Strip(p) == [] then [] else [Strip(p)]) + StripNonEmpty(ps)
  {
    assert ([p] + ps)[1..] == ps;
  }

  lemma PiecesExample(a: char, b: char)
    requires !IsBoundary(a) && !IsBoundary(b)
    ensures Pieces([a, '。', ' ', b], []) == [[a, '。'], [' ', b]]
  {
    assert IsBoundary('。') && !IsBoundary(' ');
    var e: string := [];
    var s3 := [b];
    var s2 := [' '] + s3;
    var s1 := ['。'] + s2;
    var s0 := [a] + s1;
    assert Pieces(e, [' ', b]) == [[' ', b]];
    PiecesCons(b, e, [' ']);
    AppendEmpty(s3);
    Pair(' ', b);
    PiecesCons(' ', s3, e);
    assert e + [' '] == [' '];
    PiecesCons('。', s2, [a]);
    Pair(a, '。');
    PiecesCons(a, s1, e);
    assert e + [a] == [a];
    assert s0 == [a, '。', ' ', b];
  }
}

=== FILE: text.dfy ===
/** Character classes and the handful of Python `str` operations the scripts rely on:
    `strip`, ASCII-range `lower`, `startswith`/`endswith`, `join`, `split`, slicing
    with `[:n]` and decimal formatting of integers. */
module Text {

  /** Python's `str.isspace()`, which is also the set of characters the `\s` class of
      a `str` regular expression matches. */
  predicate IsSpace(c: char) {
    ('\t' <= c <= '\r') || ('\U{1C}' <= c <= ' ') || c == '\U{85}' || c == '\U{A0}'
    || c == '\U{1680}' || ('\U{2000}' <= c <= '\U{200A}') || c == '\U{2028}'
    || c == '\U{2029}' || c == '\U{202F}' || c == '\U{205F}' || c == '\U{3000}'
  }

  /** Python's `str.isprintable()` for one character: false for control characters,
      for every separator except the ASCII space, for the common format characters and
      for private-use characters. Unassigned code points count as printable here. */
  predicate IsPrintable(c: char) {
    && !(c < ' ' || ('\U{7F}' <= c <= '\U{9F}'))
    && !(IsSpace(c) && c != ' ')
    && !(c == '\U{AD}' || ('\U{200B}' <= c <= '\U{200F}') || ('\U{202A}' <= c <= '\U{202E}')
         || ('\U{2060}' <= c <= '\U{2064}') || c == '\U{FEFF}')
    && !('\U{E000}' <= c <= '\U{F8FF}')
  }

  predicate AllSpace(s: string) {
    forall i :: 0 <= i < |s| ==> IsSpace(s[i])
  }

  predicate NoSpace(s: string) {
    forall i :: 0 <= i < |s| ==> !IsSpace(s[i])
  }

  /** Neither end of `s` is whitespace: `s == s.strip()`. */
  predicate IsStripped(s: string) {
    s == [] || (!IsSpace(s[0]) && !IsSpace(s[|s| - 1]))
  }

  /** `s.lstrip()` */
  function TrimStart(s: string): (r: string)
    ensures |r| <= |s|
    ensures r == [] || !IsSpace(r[0])
  {
    if s != [] && IsSpace(s[0]) then TrimStart(s[1..]) else s
  }

  /** `lstrip` keeps a suffix and removes only whitespace before it. */
  lemma {:induction false} TrimStartSlice(s: string)
    ensures TrimStart(s) == s[|s| - |TrimStart(s)|..]
    ensures AllSpace(s[..|s| - |TrimStart(s)|])
  {
    if s != [] && IsSpace(s[0]) {
      TrimStartSlice(s[1..]);
      assert s[1..][|s| - 1 - |TrimStart(s)|..] == s[|s| - |TrimStart(s)|..];
      assert forall i :: 1 <= i < |s| - |TrimStart(s)| ==> s[i] == s[1..][i - 1];
    }
  }

  /** `s.rstrip()` */
  function TrimEnd(s: string): (r: string)
    ensures |r| <= |s|
    ensures r == [] || !IsSpace(r[|r| - 1])
  {
    if s != [] && IsSpace(s[|s| - 1]) then TrimEnd(s[..|s| - 1]) else s
  }

  /** `rstrip` keeps a prefix and removes only whitespace after it. */
  lemma {:induction false} TrimEndSlice(s: string)
    ensures TrimEnd(s) == s[..|TrimEnd(s)|]
    ensures AllSpace(s[|TrimEnd(s)|..])
  {
    if s != [] && IsSpace(s[|s| - 1]) {
      TrimEndSlice(s[..|s| - 1]);
      assert s[..|s| - 1][..|TrimEnd(s)|] == s[..|TrimEnd(s)|];
      assert forall i :: |TrimEnd(s)| <= i < |s| - 1 ==> s[i] == s[..|s| - 1][i];
    }
  }

  /** Number of characters `s.strip()` removes from the front of `s`. */
  function LeadingSpaces(s: string): nat {
    |s| - |TrimStart(s)|
  }

  /** `s.strip()`: a stripped string no longer than `s`. */
  function Strip(s: string): (r: string)
    ensures IsStripped(r)
    ensures LeadingSpaces(s) + |r| <= |s|
  {
    TrimEndSlice(TrimStart(s));
    TrimEnd(TrimStart(s))
  }

  /** The result of `strip` is the slice of `s` after its leading whitespace. */
  lemma StripIsSlice(s: string)
    ensures Strip(s) == s[LeadingSpaces(s)..LeadingSpaces(s) + |Strip(s)|]
  {
    TrimStartSlice(s);
    TrimEndSlice(TrimStart(s));
  }

  /** Everything `strip` removes is whitespace. */
  lemma StripRemovesSpaces(s: string)
    ensures AllSpace(s[..LeadingSpaces(s)]) && AllSpace(s[LeadingSpaces(s) + |Strip(s)|..])
  {
    var t := TrimStart(s);
    var r := TrimEnd(t);
    TrimStartSlice(s);
    TrimEndSlice(t);
    StripIsSlice(s);
    assert t[|r|..] == s[LeadingSpaces(s) + |r|..];
  }

  /** `s.strip()` is empty exactly when `s` is all whitespace. */
  lemma StripEmpty(s: string)
    ensures Strip(s) == [] <==> AllSpace(s)
  {
    var a := LeadingSpaces(s);
    var r := Strip(s);
    StripRemovesSpaces(s);
    StripIsSlice(s);
    TrimEndSlice(TrimStart(s));
    if r == [] {
      assert s[..a] == s;
    } else {
      assert s[a] == r[0];
    }
  }

  lemma StripStripped(s: string)
    requires IsStripped(s)
    ensures Strip(s) == s
  {
    assert TrimStart(s) == s;
  }

  /** Leading whitespace before a stripped text is removed by `strip`. */
  lemma StripPadded(pad: string, x: string)
    requires AllSpace(pad) && x != [] && IsStripped(x)
    ensures Strip(pad + x) == x
  {
    TrimStartPadded(pad, x);
    StripStripped(x);
  }

  lemma {:induction false} TrimStartPadded(pad: string, x: string)
    requires AllSpace(pad) && x != [] && !IsSpace(x[0])
    ensures TrimStart(pad + x) == x
  {
    if pad == [] {
      assert pad + x == x;
    } else {
      assert (pad + x)[1..] == pad[1..] + x;
      TrimStartPadded(pad[1..], x);
    }
  }

  /** Every character of `Strip(s)` is a character of `s` at a shifted position. */
  lemma StripChar(s: string, i: nat)
    requires i < |Strip(s)|
    ensures Strip(s)[i] == s[LeadingSpaces(s) + i]
  {
    StripIsSlice(s);
  }

  /** `s[:n]` */
  function Take(s: string, n: nat): (r: string)
    ensures |r| <= n && r <= s
    ensures |r| == n || r == s
  {
    if n <= |s| then s[..n] else s
  }

  /** ASCII lowering of one character; see README for why this matches `str.lower()`
      at every comparison the scripts make. */
  function LowerChar(c: char): char {
    if 'A' <= c <= 'Z' then (c as int + 32) as char else c
  }

  function Lower(s: string): (r: string)
    ensures |r| == |s|
  {
    seq(|s|, i requires 0 <= i < |s| => LowerChar(s[i]))
  }

  /** `s.lower().startswith(p)` for a lower-case ASCII `p`. */
  predicate StartsWithCi(s: string, p: string) {
    |p| <= |s| && Lower(s[..|p|]) == p
  }

  /** `s.lower().endswith(p)` for a lower-case ASCII `p`. */
  predicate EndsWithCi(s: string, p: string) {
    |p| <= |s| && Lower(s[|s| - |p|..]) == p
  }

  /** `sep.join(xs)` */
  function Join(sep: string, xs: seq<string>): string
  {
    if xs == [] then [] else if |xs| == 1 then xs[0] else xs[0] + sep + Join(sep, xs[1..])
  }

  /** A non-empty sequence is its head followed by its tail. */
  lemma HeadTail<T>(xs: seq<T>)
    requires xs != []
    ensures xs == [xs[0]] + xs[1..]
  {
  }

  lemma Pair<T>(a: T, b: T)
    ensures [a] + [b] == [a, b]
  {
  }

  lemma AppendEmpty<T>(xs: seq<T>)
    ensures xs + [] == xs
  {
  }

  lemma SliceTail<T>(xs: seq<T>, p: nat)
    requires p < |xs|
    ensures xs[p..][0] == xs[p] && xs[p..][1..] == xs[p + 1..]
  {
  }

  lemma SliceSnoc<T>(xs: seq<T>, a: nat, b: nat)
    requires a <= b < |xs|
    ensures xs[a..b] + [xs[b]] == xs[a..b + 1]
  {
  }

  lemma SplitThree<T>(xs: seq<T>, a: nat, b: nat)
    requires a <= b <= |xs|
    ensures xs == xs[..a] + xs[a..b] + xs[b..]
  {
  }

  /** A slice of a slice is a slice of the whole. */
  lemma SliceWithin<T>(xs: seq<T>, lo: nat, hi: nat, j: nat, k: nat)
    requires lo <= hi <= |xs| && j <= k <= hi - lo
    ensures xs[lo..hi][j..k] == xs[lo + j..lo + k]
  {
    var ys := xs[lo..hi];
    forall t | 0 <= t < k - j ensures ys[j..k][t] == xs[lo + j..lo + k][t] {
      assert ys[j..k][t] == ys[j + t] == xs[lo + j + t];
    }
  }

  /** The parts one after another: `"".join(xs)` for strings. */
  function Concat<T>(xs: seq<seq<T>>): seq<T>
  {
    if xs == [] then [] else xs[0] + Concat(xs[1..])
  }

  lemma ConcatTwo<T>(a: seq<T>, b: seq<T>)
    ensures Concat([a, b]) == a + b
  {
    assert [a, b][1..] == [b];
    assert Concat([b]) == b + Concat([]);
  }

  lemma {:induction false} ConcatAppend<T>(xs: seq<seq<T>>, ys: seq<seq<T>>)
    ensures Concat(xs + ys) == Concat(xs) + Concat(ys)
  {
    if xs == [] {
      assert xs + ys == ys;
    } else {
      assert (xs + ys)[1..] == xs[1..] + ys;
      ConcatAppend(xs[1..], ys);
    }
  }

  /** Every element of every part is in the concatenation. */
  lemma {:induction false} ConcatComplete<T>(xss: seq<seq<T>>, i: nat, k: nat)
    requires i < |xss| && k < |xss[i]|
    ensures xss[i][k] in Concat(xss)
  {
    if i > 0 {
      ConcatComplete(xss[1..], i - 1, k);
    } else {
      assert Concat(xss)[k] == xss[0][k];
    }
  }

  /** Every element of the concatenation comes from one of the parts. */
  lemma {:induction false} ConcatSound<T>(xss: seq<seq<T>>, j: nat)
    requires j < |Concat(xss)|
    ensures exists i, k :: 0 <= i < |xss| && 0 <= k < |xss[i]| && Concat(xss)[j] == xss[i][k]
  {
    var n := |xss[0]|;
    if j < n {
      assert Concat(xss)[j] == xss[0][j];
    } else {
      ConcatSound(xss[1..], j - n);
      var i, k :| 0 <= i < |xss[1..]| && 0 <= k < |xss[1..][i]| && Concat(xss[1..])[j - n] == xss[1..][i][k];
      assert Concat(xss)[j] == Concat(xss[1..])[j - n];
      assert xss[1..][i] == xss[i + 1];
    }
  }

  /** Position of the first character of `s` that satisfies `sep`, or `|s|`. */
  function FirstWhere(s: string, sep: char -> bool): (i: nat)
    ensures i <= |s|
    ensures forall j :: 0 <= j < i ==> !sep(s[j])
    ensures i < |s| ==> sep(s[i])
  {
    if s == [] then 0 else if sep(s[0]) then 0 else 1 + FirstWhere(s[1..], sep)
  }

  /** The pieces of `s` between separator characters, as `s.split(c)` returns them
      when `sep` holds exactly of `c`. There is always at least one piece. */
  function SplitWhere(s: string, sep: char -> bool): (r: seq<string>)
    ensures |r| >= 1
    ensures forall k :: 0 <= k < |r| ==> NoneWhere(r[k], sep)
    decreases |s|
  {
    var i := FirstWhere(s, sep);
    if i == |s| then [s] else [s[..i]] + SplitWhere(s[i + 1..], sep)
  }

  /** No character of `s` satisfies `sep`. */
  predicate NoneWhere(s: string, sep: char -> bool) {
    forall j :: 0 <= j < |s| ==> !sep(s[j])
  }

  /** Splitting at a separator whose left side holds no separator peels off that side. */
  lemma SplitWhereCons(a: string, c: char, b: string, sep: char -> bool)
    requires forall j :: 0 <= j < |a| ==> !sep(a[j])
    requires sep(c)
    ensures SplitWhere(a + [c] + b, sep) == [a] + SplitWhere(b, sep)
  {
    var s := a + [c] + b;
    assert s[|a|] == c;
    forall j | 0 <= j < |a| ensures !sep(s[j]) {
      assert s[j] == a[j];
    }
    assert FirstWhere(s, sep) == |a|;
    assert s[..|a|] == a;
    assert s[|a| + 1..] == b;
  }

  /** `sep.join` followed by `split` at that separator gives back the pieces, provided
      no piece contains a separator. */
  lemma {:induction false} SplitJoin(xs: seq<string>, c: char, sep: char -> bool)
    requires xs != []
    requires sep(c)
    requires forall k, j :: 0 <= k < |xs| && 0 <= j < |xs[k]| ==> !sep(xs[k][j])
    ensures SplitWhere(Join([c], xs), sep) == xs
  {
    if |xs| == 1 {
      assert FirstWhere(xs[0], sep) == |xs[0]|;
    } else {
      assert Join([c], xs) == xs[0] + [c] + Join([c], xs[1..]);
      SplitWhereCons(xs[0], c, Join([c], xs[1..]), sep);
      SplitJoin(xs[1..], c, sep);
    }
  }

  function DigitChar(d: nat): (c: char)
    requires d < 10
    ensures '0' <= c <= '9'
  {
    ('0' as int + d) as char
  }

  predicate IsDecimal(s: string) {
    s != [] && forall i :: 0 <= i < |s| ==> '0' <= s[i] <= '9'
  }

  /** `str(n)` for a non-negative integer. */
  function NatToString(n: nat): (r: string)
    ensures IsDecimal(r)
  {
    if n < 10 then [DigitChar(n)] else NatToString(n / 10) + [DigitChar(n % 10)]
  }

  /** The value of a string of decimal digits: the inverse of `NatToString`. */
  function DecimalValue(s: string): nat
    requires forall i :: 0 <= i < |s| ==> '0' <= s[i] <= '9'
  {
    if s == [] then 0 else 10 * DecimalValue(s[..|s| - 1]) + (s[|s| - 1] as int - '0' as int)
  }

  lemma {:induction false} DecimalRoundTrip(n: nat)
    ensures DecimalValue(NatToString(n)) == n
  {
    if n >= 10 {
      var s := NatToString(n);
      assert s[..|s| - 1] == NatToString(n / 10);
      DecimalRoundTrip(n / 10);
    }
  }

  lemma NatToStringInjective(m: nat, n: nat)
    requires NatToString(m) == NatToString(n)
    ensures m == n
  {
    DecimalRoundTrip(m);
    DecimalRoundTrip(n);
  }
}

=== FILE: txt_header.dfy ===
/** The header of a plain-text document, as `process_txt` in
    experiments/scripts/01_data_processing.py reads it: the non-blank lines are
    stripped; the first one is the title (with a case-insensitive "title:" prefix
    removed when text follows it); the first "url:" line among the first twelve gives
    the source URL; the body is every later line that is neither all '=' nor a "url:"
    line, and falls back to the whole raw text when no such line exists. */
module TxtHeader {
  import opened Text
  import opened Sentences

  /** Title used when the file has no non-blank line. */
  const UNKNOWN_TITLE: string := "未知标题"

  /** Only this many leading lines are searched for the URL. */
  const URL_SCAN: nat := 12

  /** The characters `str.splitlines` breaks lines at. Every one is whitespace. */
  predicate IsLineBreak(c: char) {
    c == '\n' || c == '\r' || c == '\U{B}' || c == '\U{C}' || c == '\U{1C}' || c == '\U{1D}'
    || c == '\U{1E}' || c == '\U{85}' || c == '\U{2028}' || c == '\U{2029}'
  }

  /** A line as `process_txt` keeps it: non-empty, stripped, one physical line. */
  predicate IsLine(s: string) {
    s != [] && IsStripped(s) && NoneWhere(s, IsLineBreak)
  }

  predicate AllLines(xs: seq<string>) {
    forall k :: 0 <= k < |xs| ==> IsLine(xs[k])
  }

  /** `[ln.strip() for ln in raw.splitlines() if ln.strip()]`. Splitting at each break
      character separately only adds empty pieces (between "\r" and "\n", after a final
      break), and those are dropped with the blank lines. */
  function NonBlankLines(raw: string): (r: seq<string>)
    ensures AllLines(r)
  {
    var pieces := SplitWhere(raw, IsLineBreak);
    var r := StripNonEmpty(pieces);
    StripNonEmptyKeepsLines(pieces);
    r
  }

  lemma {:induction false} StripNonEmptyKeepsLines(ps: seq<string>)
    requires forall k :: 0 <= k < |ps| ==> NoneWhere(ps[k], IsLineBreak)
    ensures AllLines(StripNonEmpty(ps))
  {
    if ps != [] {
      var t := Strip(ps[0]);
      forall j | 0 <= j < |t| ensures !IsLineBreak(t[j]) {
        StripChar(ps[0], j);
      }
      StripNonEmptyKeepsLines(ps[1..]);
    }
  }

  lemma StripNonEmptyOfLines(xs: seq<string>)
    requires AllLines(xs)
    ensures StripNonEmpty(xs) == xs
  {
    StripNonEmptyOfStripped(xs);
  }

  /** Joining lines with "\n" and reading them back gives the same lines. */
  lemma LinesOfJoin(xs: seq<string>)
    requires AllLines(xs)
    ensures NonBlankLines(Join("\n", xs)) == xs
  {
    if xs == [] {
      var e: string := [];
      assert SplitWhere(e, IsLineBreak) == [e];
      assert [e][1..] == [];
      assert Strip(e) == [];
      assert StripNonEmpty([e]) == [];
    } else {
      SplitJoin(xs, '\n', IsLineBreak);
      StripNonEmptyOfLines(xs);
    }
  }

  /** `ln.lower().startswith("url:")` */
  predicate IsUrlLine(ln: string) {
    StartsWithCi(ln, "url:")
  }

  /** `set(ln) == {"="}` */
  predicate IsSeparatorLine(ln: string) {
    ln != [] && forall i :: 0 <= i < |ln| ==> ln[i] == '='
  }

  predicate IsBodyLine(ln: string) {
    !IsSeparatorLine(ln) && !IsUrlLine(ln)
  }

  /** A character that lowers to `c` outside 'a'..'z' is `c` itself. */
  lemma LowerFixesNonLetters(s: string, p: string, i: nat)
    requires |p| <= |s| && Lower(s[..|p|]) == p && i < |p| && !('a' <= p[i] <= 'z')
    ensures s[i] == p[i]
  {
    assert Lower(s[..|p|])[i] == LowerChar(s[i]);
  }

  /** The text after the first ':' of a line that starts with the prefix `p`, whose only
      ':' is its last character: `ln.split(":", 1)[1]`. */
  function AfterPrefix(ln: string, p: string): (r: string)
    requires p != [] && StartsWithCi(ln, p)
    ensures ln == ln[..|p|] + r
  {
    ln[|p|..]
  }

  /** `title.split(":", 1)[1]` for a line starting with "title:". */
  lemma AfterColonOfTitle(ln: string, i: nat)
    requires StartsWithCi(ln, "title:") && i < 5
    ensures ln[i] != ':' && ln[5] == ':'
  {
    LowerFixesNonLetters(ln, "title:", 5);
    assert Lower(ln[..6])[i] == LowerChar(ln[i]);
  }

  /** `process_txt`'s title: the first line, without a "title:" prefix when text follows
      the prefix; the default when there is no line at all. */
  function ParseTitle(lines: seq<string>): (r: string)
    ensures lines == [] ==> r == UNKNOWN_TITLE
    ensures lines != [] ==> r == lines[0] || (StartsWithCi(lines[0], "title:") && r != [] && r == Strip(lines[0][6..]))
  {
    if lines == [] then UNKNOWN_TITLE
    else if StartsWithCi(lines[0], "title:") then
      var rest := Strip(AfterPrefix(lines[0], "title:"));
      if rest != [] then rest else lines[0]
    else lines[0]
  }

  /** The title of lines as `process_txt` keeps them is never empty. */
  lemma ParseTitleNonEmpty(lines: seq<string>)
    requires AllLines(lines)
    ensures ParseTitle(lines) != []
  {
    if lines != [] {
      assert IsLine(lines[0]);
    }
  }

  /** A "title:" prefix (any case) with some text after it gives that text. */
  lemma ParseTitlePrefixed(p: string, pad: string, x: string, rest: seq<string>)
    requires Lower(p) == "title:" && AllSpace(pad) && x != [] && IsStripped(x)
    ensures ParseTitle([p + pad + x] + rest) == x
  {
    var ln := p + pad + x;
    assert ln[..6] == p;
    assert ln[6..] == pad + x;
    StripPadded(pad, x);
  }

  /** A first line without the prefix is the title as it stands. */
  lemma ParseTitlePlain(x: string, rest: seq<string>)
    requires !StartsWithCi(x, "title:")
    ensures ParseTitle([x] + rest) == x
  {
  }

  /** Index of the first "url:" line, or `|lines|` when there is none. */
  function UrlLineIndex(lines: seq<string>): (i: nat)
    ensures i <= |lines|
    ensures forall j :: 0 <= j < i ==> !IsUrlLine(lines[j])
    ensures i < |lines| ==> IsUrlLine(lines[i])
  {
    if lines == [] then 0 else if IsUrlLine(lines[0]) then 0 else 1 + UrlLineIndex(lines[1..])
  }

  /** The URL a "url:" line carries: the stripped text after its first ':'. */
  function UrlValue(ln: string): string
    requires IsUrlLine(ln)
  {
    Strip(AfterPrefix(ln, "url:"))
  }

  /** The colon of "url:" is the first colon of the line. */
  lemma UrlColon(ln: string, i: nat)
    requires IsUrlLine(ln) && i < 3
    ensures ln[i] != ':' && ln[3] == ':'
  {
    LowerFixesNonLetters(ln, "url:", 3);
    assert Lower(ln[..4])[i] == LowerChar(ln[i]);
  }

  /** `source_url`: the value of the first "url:" line among the first `URL_SCAN` lines,
      or "" when none of them is one. */
  function SourceUrl(lines: seq<string>): string {
    var i := UrlLineIndex(lines);
    if i < |lines| && i < URL_SCAN then UrlValue(lines[i]) else []
  }

  /** Without a "url:" line among the first twelve, the URL is empty. */
  lemma SourceUrlAbsent(lines: seq<string>)
    requires forall i :: 0 <= i < |lines| && i < URL_SCAN ==> !IsUrlLine(lines[i])
    ensures SourceUrl(lines) == []
  {
  }

  /** The first "url:" line, when it is among the first twelve, gives the URL. */
  lemma SourceUrlFirst(lines: seq<string>, i: nat)
    requires i < |lines| && i < URL_SCAN && IsUrlLine(lines[i])
    requires forall j :: 0 <= j < i ==> !IsUrlLine(lines[j])
    ensures SourceUrl(lines) == UrlValue(lines[i])
  {
    assert UrlLineIndex(lines) == i;
  }

  /** The lines after the first that are neither separators nor "url:" lines, in order. */
  function KeepBody(lines: seq<string>): (r: seq<string>)
    ensures |r| <= |lines|
    ensures forall k :: 0 <= k < |r| ==> IsBodyLine(r[k]) && r[k] in lines
    ensures forall i :: 0 <= i < |lines| && IsBodyLine(lines[i]) ==> lines[i] in r
  {
    if lines == [] then []
    else (if IsBodyLine(lines[0]) then [lines[0]] else []) + KeepBody(lines[1..])
  }

  /** Filtering distributes over concatenation. With the filter's own contract on a
      one-element input, this keeps the lines in input order and multiplicity. */
  lemma {:induction false} KeepBodyAppend(a: seq<string>, b: seq<string>)
    ensures KeepBody(a + b) == KeepBody(a) + KeepBody(b)
  {
    if a == [] {
      assert a + b == b;
    } else {
      var h := if IsBodyLine(a[0]) then [a[0]] else [];
      assert (a + b)[0] == a[0];
      assert (a + b)[1..] == a[1..] + b;
      KeepBodyAppend(a[1..], b);
      calc {
        KeepBody(a + b);
        h + KeepBody(a[1..] + b);
        h + (KeepBody(a[1..]) + KeepBody(b));
        (h + KeepBody(a[1..])) + KeepBody(b);
      }
    }
  }

  function BodyLines(lines: seq<string>): (r: seq<string>)
    ensures lines == [] ==> r == []
    ensures forall k :: 0 <= k < |r| ==> IsBodyLine(r[k]) && r[k] in lines[1..]
    ensures forall i :: 1 <= i < |lines| && IsBodyLine(lines[i]) ==> lines[i] in r
  {
    if lines == [] then [] else KeepBody(lines[1..])
  }

  /** `body_text`: the body lines joined with "\n", or the raw text when there are none. */
  function BodyText(raw: string): string {
    var body := BodyLines(NonBlankLines(raw));
    if body != [] then Join("\n", body) else raw
  }

  /** A file without body lines is chunked as it stands, header included. */
  lemma BodyTextFallback(raw: string)
    requires BodyLines(NonBlankLines(raw)) == []
    ensures BodyText(raw) == raw
  {
  }

  /** Otherwise the body text reads back as exactly the body lines. */
  lemma BodyTextLines(raw: string)
    requires BodyLines(NonBlankLines(raw)) != []
    ensures NonBlankLines(BodyText(raw)) == BodyLines(NonBlankLines(raw))
  {
    var lines := NonBlankLines(raw);
    var body := BodyLines(lines);
    forall k | 0 <= k < |body| ensures IsLine(body[k]) {
      var j :| 0 <= j < |lines[1..]| && lines[1..][j] == body[k];
    }
    LinesOfJoin(body);
  }

  /** What `process_txt` reads from a file before cleaning and chunking. */
  datatype TxtDoc = TxtDoc(title: string, sourceUrl: string, body: string)

  function ParseTxt(raw: string): TxtDoc {
    var lines := NonBlankLines(raw);
    TxtDoc(ParseTitle(lines), SourceUrl(lines), BodyText(raw))
  }
}
